=== FILE: README.md ===
# miniature_sorter file classification, modelled in Dafny

This project models the file-classification engine of miniature_sorter's
two vendor connectors, Cast n Play and Bite the Bullet. The engine takes a
release of 3D-miniature model folders and does four things:

- it derives a clean model name from each folder name;
- it finds the model's single cover image;
- it copies mesh files by extension into an
  `<output>/<Category>/{Unsupported,Presupported}/<name>/Models/<FOLDER>` tree;
- it compares file counts between the tiers and warns on a mismatch.

The filesystem is an immutable value, `FileSystem.Fs`:

- a map from paths to file contents;
- a set of directories;
- the order in which the operating system lists entries.

Paths are sequences of components. Every Python operation becomes a pure
function that returns either a new filesystem or one of the exceptions the
code raises (`Wrappers.Error`). `Connector.Outcome` holds three things: the
filesystem with every write made before an exception, the warnings logged,
and the exception, if any. With it, "the first error stops the run and
earlier copies stay on disk" can be stated and proved.

The modules follow the program:

- `PyStr`, `PyInt` and `PyWords` model the Python built-ins the name rules
  rest on: `str.split`, `str.find`, `int()`, `str(n)` and `string.capwords`.
- `ModelName` and `BulletName` model the two `_gather_filename` variants.
- `Images` models both `detect_image_location` variants.
- `Extraction` models `extract_all_files_of_given_extension`. Both
  connectors use the same text, so it is defined once.
- `CastNPlay` models the per-model steps: `_process_unsupported`,
  `_process_supported`, `get_file_tree` and the count check in
  `process_single_model_folder`.
- `Release` models `process_models` with `normalize_details`,
  `reverse_dict_with_list_values`, `prepare_folders`, `_iter_model_folders`
  and `_flatten_same_name`.
- `BiteTheBullet` models that connector's `_process_unsupported`.

Every result about directory listings is proved for every listing order.
Where a copy could overwrite an earlier one, the lemma assumes the targets
are distinct (`Extraction.TargetsDistinct`).

Some consequences of the code that a reader might not expect:

- Supported files are always sorted by extension, and the
  `STL`/`LYS`/`CHITU` path components are removed. No branch copies
  per-type folders verbatim.
- The first exception raised for any model ends the whole run. There is no
  per-model error accumulation.
- A repeated model name is a `ValueError` even when it repeats inside one
  category's list.
- A `"Characters"` key in the configuration is dropped, not rejected.
- A numeric identifier of more than 4300 digits makes the name rule fail,
  because `int()` refuses such text by default.
- Bite the Bullet's "exotic" rule raises instead of title-casing the text in
  parentheses (see Findings).

## Model

| member | source | states |
|---|---|---|
| PyStr.JoinSplit | miniature_sorter/artist_connectors/cast_n_play/cast_n_play_connector.py:198 | `sep.join(s.split(sep))` gives back `s`: the pieces of a split are exactly the text between separators |
| PyStr.SplitAtOnlyOccurrence | miniature_sorter/artist_connectors/cast_n_play/cast_n_play_connector.py:198 | a string in which the separator occurs exactly once, at `i`, splits into exactly two pieces, `s[..i]` and the text after the separator |
| PyStr.SplitIntoTwo | miniature_sorter/artist_connectors/cast_n_play/cast_n_play_connector.py:198 | a two-piece split found the separator, and the pieces are the text before it and a rest that contains no further separator |
| PyInt.ParseRendered | miniature_sorter/artist_connectors/cast_n_play/cast_n_play_connector.py:199-200 | `int(str(n)) == n` for every integer `str` renders without raising, that is with at most 4300 digits, negative ones included |
| PyInt.ParsedFits | miniature_sorter/artist_connectors/cast_n_play/cast_n_play_connector.py:199-200 | every number `int()` returns has at most 4300 digits, so rendering it with `str` at :200 never raises |
| PyInt.ParseDigitsOnly | miniature_sorter/artist_connectors/cast_n_play/cast_n_play_connector.py:199 | a non-empty run of at most 4300 ASCII digits is accepted by `int()` as the number it spells, leading zeros included; a longer run raises `ValueError` |
| PyInt.RejectsForeignChar | miniature_sorter/artist_connectors/cast_n_play/cast_n_play_connector.py:199 | any character other than the whitespace `int()` strips, a digit, a sign or `_` makes `int()` raise `ValueError` |
| PyInt.SeparatorNotStripped | miniature_sorter/artist_connectors/cast_n_play/cast_n_play_connector.py:199 | `int("\x1c7")` raises: the separators U+001C to U+001F count as whitespace for `str.isspace()` but are not stripped by `int()` |
| PyWords.CapwordsWords | miniature_sorter/artist_connectors/bite_the_bullet/bite_the_bulet_connector.py:107 | the words of `capwords(s)` are the capitalised words of `s`: whitespace runs collapse and no word is lost or added |
| PyWords.CapwordsIdempotent | miniature_sorter/artist_connectors/bite_the_bullet/bite_the_bulet_connector.py:107 | applying `capwords` to its own result changes nothing |
| PyWords.CapwordsKeepsAbsent | miniature_sorter/artist_connectors/bite_the_bullet/bite_the_bulet_connector.py:107 | `capwords` never introduces a digit or punctuation character, such as `(`, that was not in its input |
| ModelName.GatherFilename | miniature_sorter/artist_connectors/cast_n_play/cast_n_play_connector.py:197-209 | the only failure is `ModelNameDetectionException` for this name; every clean name contains the `". "` between number and title |
| ModelName.UnderscoreRuleResult | miniature_sorter/artist_connectors/cast_n_play/cast_n_play_connector.py:197-200 | a name with exactly one `_` whose left part is an integer `n` becomes `"n. <right part>"` |
| ModelName.DotRuleResult | miniature_sorter/artist_connectors/cast_n_play/cast_n_play_connector.py:202-207 | when the underscore rule does not apply, a name with exactly one `". "` whose left part is an integer `n` becomes `"n. <right part>"` |
| ModelName.GatherFilenameRejects | miniature_sorter/artist_connectors/cast_n_play/cast_n_play_connector.py:197-209 | the name is rejected if and only if neither the underscore rule nor the `". "` rule applies at any position |
| ModelName.TwoPieces | miniature_sorter/artist_connectors/cast_n_play/cast_n_play_connector.py:198 | for `_` and `". "`, unpacking `split` into two names succeeds only when the separator occurs exactly once |
| ModelName.RenormalizeFixed | miniature_sorter/artist_connectors/cast_n_play/cast_n_play_connector.py:197-207 | a clean name `"n. title"` whose title has no `". "` is read back unchanged; the name exists only when `str(n)` returns, so `n` has at most 4300 digits |
| ModelName.RenormalizeCounterexample | miniature_sorter/artist_connectors/cast_n_play/cast_n_play_connector.py:197-209 | the restriction on the title is needed: `"1_a. b"` becomes `"1. a. b"`, which is then rejected |
| ModelName.UnderscoreDigits | miniature_sorter/artist_connectors/cast_n_play/cast_n_play_connector.py:197-200 | `<digits>_<title>` with no other `_` becomes the digits' value, `". "` and the title when there are at most 4300 digits; with more, the underscore rule does not apply |
| ModelName.OverlongIdRejected | miniature_sorter/artist_connectors/cast_n_play/cast_n_play_connector.py:197-209 | more than 4300 digits, `_` and a title without `_` or `.` is rejected with `ModelNameDetectionException`, because `int()` refuses the digits |
| ModelName.TwoDotsRejected | miniature_sorter/artist_connectors/cast_n_play/cast_n_play_connector.py:202-209 | a name with no `_` and two occurrences of `". "` is rejected |
| ModelName.ExampleUnderscore | miniature_sorter/artist_connectors/cast_n_play/tests/test_cast_n_play_connector.py:10-13 | `"1015_Zombified Dwarf"` becomes `"1015. Zombified Dwarf"` |
| ModelName.ExampleTwoUnderscores | miniature_sorter/artist_connectors/cast_n_play/tests/test_cast_n_play_connector.py:16-19 | `"1015_Zombified_Dwarf"` is rejected with `ModelNameDetectionException` |
| ModelName.ExampleSeparatorPadding | miniature_sorter/artist_connectors/cast_n_play/cast_n_play_connector.py:197-209 | `"\x1c7_a"` is rejected with `ModelNameDetectionException`, because `int()` refuses its left part and there is no `". "` |
| ModelName.ExampleLeadingZeros | miniature_sorter/artist_connectors/cast_n_play/cast_n_play_connector.py:199-200 | the identifier is rendered as a number: `"007_Orc"` becomes `"7. Orc"` |
| Images.Suffix | miniature_sorter/artist_connectors/cast_n_play/cast_n_play_connector.py:168 | `Path.suffix` is non-empty exactly when the name has a dot that is neither its first nor its last character; it then runs from the last dot to the end of the name, so it is a dot followed by at least one character and no further dot |
| Images.PickUnique | miniature_sorter/artist_connectors/cast_n_play/cast_n_play_connector.py:171-178 | one candidate is returned; none raises `ImageNotFoundException`; more than one raises `MultipleImagesFoundException` |
| Images.DetectImageSpec | miniature_sorter/artist_connectors/cast_n_play/cast_n_play_connector.py:165-178 | for an existing folder, the result depends only on the set of recognised image files directly inside it: the single one, or the matching exception for none or several |
| Images.DetectMainImageSpec | miniature_sorter/artist_connectors/bite_the_bullet/bite_the_bulet_connector.py:109-124 | the same for Bite the Bullet, counting only recognised images whose name starts with `_` |
| Images.NestedImageIgnored | miniature_sorter/artist_connectors/cast_n_play/cast_n_play_connector.py:168 | adding a file that is not a recognised image directly in the folder, such as an image one level deeper, does not change the cover image found |
| Images.VariantsAgree | miniature_sorter/artist_connectors/bite_the_bullet/bite_the_bulet_connector.py:112-124 | when every recognised image's name starts with `_`, the two connectors find the same image or raise the same exception |
| Images.MainImageRequiresUnderscore | miniature_sorter/artist_connectors/bite_the_bullet/bite_the_bulet_connector.py:115-122 | with recognised images present but none starting with `_`, Bite the Bullet raises `ImageNotFoundException` where Cast n Play does not |
| Images.LowerSuffixExample | miniature_sorter/artist_connectors/bite_the_bullet/tests/test_bite_the_bullet_connector.py:30-33 | the test's cover image `_2512_ch_elf_rogue.jpg` is recognised |
| Images.UpperSuffixExample | miniature_sorter/artist_connectors/cast_n_play/cast_n_play_connector.py:168 | the suffix is lower-cased before the lookup, so `.JPG` counts |
| Images.LeadingDotExample | miniature_sorter/artist_connectors/cast_n_play/cast_n_play_connector.py:168 | a name whose only dot comes first, such as `.jpg`, has no suffix and is not an image |
| Images.TrailingDotExample | miniature_sorter/artist_connectors/cast_n_play/cast_n_play_connector.py:168 | a name ending in a dot, such as `a.jpg.`, has no suffix and is not an image |
| Extraction.NormalizeExtension | miniature_sorter/artist_connectors/cast_n_play/cast_n_play_connector.py:150-151 | the extension always starts with a dot; one is added exactly when missing |
| Extraction.ExtensionDotOptional | miniature_sorter/artist_connectors/cast_n_play/cast_n_play_connector.py:150-154 | `"stl"` and `".stl"` select the same files |
| Extraction.StripParts | miniature_sorter/artist_connectors/cast_n_play/cast_n_play_connector.py:156 | the kept components are exactly those not in the removal set, and the file's own name survives when it is not a removed name |
| Extraction.StripPartsAppend | miniature_sorter/artist_connectors/cast_n_play/cast_n_play_connector.py:156 | the filter keeps order: filtering a concatenation is filtering each piece and concatenating the results |
| Extraction.StripPartsOne | miniature_sorter/artist_connectors/cast_n_play/cast_n_play_connector.py:156 | a single component is kept exactly when it is not in the removal set; with the previous row this fixes the result as the kept components in their original order, repeats included |
| Extraction.TargetKeepsName | miniature_sorter/artist_connectors/cast_n_play/cast_n_play_connector.py:155-158 | a copied file keeps its file name |
| Extraction.StlTargetExample | miniature_sorter/artist_connectors/cast_n_play/cast_n_play_connector.py:155-158 | `m/STL/sub/a.stl` is copied to `out/STL/sub/a.stl`: the vendor `STL` folder disappears and the rest of the relative path stays |
| Extraction.Extract | miniature_sorter/artist_connectors/cast_n_play/cast_n_play_connector.py:143-163 | with no match, nothing changes and `False` is returned; `True` implies a match; no file or directory disappears |
| Extraction.CopyEachEffect | miniature_sorter/artist_connectors/cast_n_play/cast_n_play_connector.py:154-161 | copying a sequence of files adds exactly their targets and the directories above them, leaves every other file as it was, and keeps the listing valid |
| Extraction.CopyEachContent | miniature_sorter/artist_connectors/cast_n_play/cast_n_play_connector.py:154-161 | with sources outside the output and distinct targets, each source's content ends up at its own target |
| Extraction.ExtractEffect | miniature_sorter/artist_connectors/cast_n_play/cast_n_play_connector.py:143-163 | the flag is true exactly when some file below the folder matches; the new files are exactly the targets; the new directories are exactly those above them; every other file is unchanged; nothing outside the output folder is written |
| Extraction.ExtractCopies | miniature_sorter/artist_connectors/cast_n_play/cast_n_play_connector.py:154-161 | with the output outside the folder and distinct targets, every match's content arrives at its target and the sources are untouched |
| Extraction.ExtractOrderIrrelevant | miniature_sorter/artist_connectors/cast_n_play/cast_n_play_connector.py:154 | the order in which `rglob` yields the matches does not change the result when targets are distinct |
| Extraction.ExtractIdempotent | miniature_sorter/artist_connectors/cast_n_play/cast_n_play_connector.py:143-163 | running the extraction a second time returns the same flag and changes no file and no directory |
| Extraction.ExtractKeepsMatches | miniature_sorter/artist_connectors/cast_n_play/cast_n_play_connector.py:154-160 | copies land outside the searched folder, so they are never matched again, and no match is itself a target |
| Extraction.MatchesFrame | miniature_sorter/artist_connectors/cast_n_play/cast_n_play_connector.py:154 | writes confined to a folder disjoint from the searched one leave the matches unchanged |
| FileSystem.MkdirAll | miniature_sorter/artist_connectors/cast_n_play/cast_n_play_connector.py:159 | `mkdir(parents=True, exist_ok=True)` adds the path and all its ancestors as directories and touches no file |
| FileSystem.Mkdir | miniature_sorter/artist_connectors/cast_n_play/cast_n_play_connector.py:96-99 | `mkdir(exist_ok=True)` succeeds exactly when the directory or its parent exists, adds at most that directory and touches no file; otherwise it raises `FileNotFoundError` naming the directory it was asked to create |
| FileSystem.CopyFile | miniature_sorter/artist_connectors/cast_n_play/cast_n_play_connector.py:49-52 | `shutil.copy2` succeeds exactly when the source file exists, differs from the target and the target's directory exists, and then writes the source's content at the target and nothing else; a copy onto itself raises `SameFileError`, a missing source raises `FileNotFoundError` for the source, and a missing directory raises it for the target |
| Connector.MakeModelDirs | miniature_sorter/artist_connectors/cast_n_play/cast_n_play_connector.py:95-99 | creating `<loc>` and `<loc>/Models` fails exactly when neither `<loc>` nor its parent exists, with `FileNotFoundError` naming `<loc>`; otherwise both exist, no file changes and nothing outside `<loc>` is created |
| CastNPlay.ProcessUnsupported | miniature_sorter/artist_connectors/cast_n_play/cast_n_play_connector.py:84-114 | an unreadable model name raises before anything is written; the tier never warns |
| CastNPlay.ProcessUnsupportedWrites | miniature_sorter/artist_connectors/cast_n_play/cast_n_play_connector.py:84-114 | the unsupported tier writes only below `Unsupported/<name>` and keeps the listing valid |
| CastNPlay.ProcessUnsupportedCopies | miniature_sorter/artist_connectors/cast_n_play/cast_n_play_connector.py:84-114 | with `Unsupported` prepared and outside the model folder, the tier succeeds and creates `Models`; every `.stl` file below a non-ignored sub-folder reaches its place under `Models/STL`; every new file is such a target, so loose files and ignored folders contribute nothing |
| CastNPlay.UnsupportedTierRuns | miniature_sorter/artist_connectors/cast_n_play/cast_n_play_connector.py:95-101 | once `Unsupported` and the model folder exist, the tier raises nothing |
| CastNPlay.ExtractEachReaches | miniature_sorter/artist_connectors/cast_n_play/cast_n_play_connector.py:101-114 | extracting from several folders in turn copies every match of every folder |
| CastNPlay.ExtractEachOnlyTargets | miniature_sorter/artist_connectors/cast_n_play/cast_n_play_connector.py:101-114 | every file the loop creates is the target of a match of one of the folders |
| CastNPlay.ExtractTiers | miniature_sorter/artist_connectors/cast_n_play/cast_n_play_connector.py:130-141 | the extensions reported are some of the map's keys, in map order |
| CastNPlay.PresentIn | miniature_sorter/artist_connectors/cast_n_play/cast_n_play_connector.py:131-139 | an extension is listed exactly when it is a map key with at least one file below the source |
| CastNPlay.ExtractTiersPresent | miniature_sorter/artist_connectors/cast_n_play/cast_n_play_connector.py:130-141 | with source and destination apart, the extensions reported are exactly those present below the source before any copy, in map order |
| CastNPlay.ProcessSupported | miniature_sorter/artist_connectors/cast_n_play/cast_n_play_connector.py:117-141 | an unreadable name raises before any write; a result is a sub-list of `.stl`, `.lys`, `.chitubox` in that order |
| CastNPlay.SupportedTier | miniature_sorter/artist_connectors/cast_n_play/cast_n_play_connector.py:124-141 | the tier fails exactly when neither `Presupported/<name>` nor `Presupported` exists |
| CastNPlay.ProcessSupportedPresent | miniature_sorter/artist_connectors/cast_n_play/cast_n_play_connector.py:117-141 | with `Presupported` prepared and outside the model folder, the tier succeeds and reports exactly the map keys with files below `Pre-Supported` |
| CastNPlay.SupportedTierWrites | miniature_sorter/artist_connectors/cast_n_play/cast_n_play_connector.py:124-141 | the supported tier writes only below `Presupported/<name>` and keeps the listing valid |
| CastNPlay.FileTree | miniature_sorter/artist_connectors/cast_n_play/cast_n_play_connector.py:276-283 | `get_file_tree` lists each file below the path exactly once, so its length is the number of such files |
| CastNPlay.FolderOf | miniature_sorter/artist_connectors/cast_n_play/cast_n_play_connector.py:16-20 | `MODEL_EXTENSIONS_MAP[extension]` is the folder paired with that key in the map |
| CastNPlay.CountWarnings | miniature_sorter/artist_connectors/cast_n_play/cast_n_play_connector.py:68-81 | one inconsistency warning for each reported extension whose supported count differs from the unsupported count, carrying both counts and the extension's folder, and no other warning |
| CastNPlay.Warnings | miniature_sorter/artist_connectors/cast_n_play/cast_n_play_connector.py:64-81 | the "no presupported files" warning appears exactly when no extension was found; otherwise only count mismatches are reported |
| CastNPlay.ProcessSingleModel | miniature_sorter/artist_connectors/cast_n_play/cast_n_play_connector.py:42-81 | an unreadable name raises first, before any write; a run without exception had a cover image |
| CastNPlay.SingleModelWrites | miniature_sorter/artist_connectors/cast_n_play/cast_n_play_connector.py:42-81 | processing one model keeps the listing valid, writes nothing outside the category folder, and never removes or overwrites anything outside it |
| CastNPlay.SingleModelErrors | miniature_sorter/artist_connectors/cast_n_play/cast_n_play_connector.py:42-63 | on a prepared category folder outside the model, processing fails exactly when the name is unreadable or the cover image is missing or ambiguous; it then writes nothing and the image error is passed on unchanged |
| CastNPlay.SingleModelSucceeds | miniature_sorter/artist_connectors/cast_n_play/cast_n_play_connector.py:42-81 | otherwise it succeeds, the cover image is copied as `<clean name><suffix>`, and the "no presupported files" warning is logged exactly when no model extension occurs below `Pre-Supported` |
| CastNPlay.TiersSucceed | miniature_sorter/artist_connectors/cast_n_play/cast_n_play_connector.py:53-66 | after the cover copy, both tiers succeed on a prepared output and leave the copied cover image alone; a count mismatch is only a warning |
| Release.NormalizeDetails | miniature_sorter/artist_connectors/cast_n_play/cast_n_play_connector.py:240-251 | `None` becomes the empty configuration, the `"Characters"` entry is dropped and every other entry is kept |
| Release.NormalizeIdempotent | miniature_sorter/artist_connectors/cast_n_play/cast_n_play_connector.py:240-251 | normalising twice is normalising once, and a configuration without `"Characters"` is returned unchanged |
| Release.ReverseIntoOk | miniature_sorter/artist_connectors/cast_n_play/cast_n_play_connector.py:216-224 | the loop succeeds exactly when no item repeats and none is already in the partial result |
| Release.ReverseIntoError | miniature_sorter/artist_connectors/cast_n_play/cast_n_play_connector.py:217-223 | a failure names the first item met again, the key it was first filed under and the key it is met under now; every item before it is new to the map and to the others |
| Release.ReverseDictSpec | miniature_sorter/artist_connectors/cast_n_play/cast_n_play_connector.py:211-226 | the inversion succeeds exactly when no model name is listed twice, whether under two categories or within one; it then maps every listed name, and nothing else, to its category; a failure names the first repetition, with its first and second key: the names listed before it are all different |
| Release.ReverseDictValues | miniature_sorter/artist_connectors/cast_n_play/cast_n_play_connector.py:216-224 | every category in the inverted map is a configured key |
| Release.ReverseDictFirstRepeat | miniature_sorter/artist_connectors/cast_n_play/cast_n_play_connector.py:217-223 | `{"A": ["Elf"], "B": ["Elf"], "C": ["Elf"]}` raises for `"Elf"` with keys `"A"` and `"B"`, never `"C"` |
| Release.ReverseDictExample | miniature_sorter/artist_connectors/cast_n_play/cast_n_play_connector.py:211-226 | `{"Heroes": ["Elf", "Dwarf"], "Monsters": ["Orc"]}` inverts to each model mapped to its category |
| Release.ReverseDictDuplicateExample | miniature_sorter/artist_connectors/cast_n_play/cast_n_play_connector.py:219-223 | `"Elf"` under both `"Heroes"` and `"Monsters"` raises the duplication error naming both |
| Release.CategoryIsConfigured | miniature_sorter/artist_connectors/cast_n_play/cast_n_play_connector.py:39 | a model's category is a configured key or the default `"Characters"` |
| Release.PrepareFolders | miniature_sorter/artist_connectors/cast_n_play/cast_n_play_connector.py:228-238 | both tier folders exist for every configured category and for `"Characters"`; no file changes; nothing is created outside the output folder |
| Release.FlattenSameName | miniature_sorter/artist_connectors/cast_n_play/cast_n_play_connector.py:263-274 | the result lies at or below the input folder and has the same name, so the category lookup is unaffected; an existing folder flattens to an existing folder |
| Release.FlattenFrom | miniature_sorter/artist_connectors/cast_n_play/cast_n_play_connector.py:266-274 | the loop terminates on every tree, descends only through components equal to the name, and stops where the only sub-folder is not the name |
| Release.FlattenChain | miniature_sorter/artist_connectors/cast_n_play/cast_n_play_connector.py:266-274 | every folder passed on the way has the next one as its only sub-folder, files ignored, and the folder returned does not have its own `<name>` child as its only sub-folder |
| Release.FlattenIdempotent | miniature_sorter/artist_connectors/cast_n_play/cast_n_play_connector.py:263-274 | flattening a flattened folder returns it unchanged |
| Release.Then | miniature_sorter/artist_connectors/cast_n_play/cast_n_play_connector.py:38-40 | a failed model ends the loop with its outcome; otherwise the warnings logged so far are kept |
| Release.WalkAppend | miniature_sorter/artist_connectors/cast_n_play/cast_n_play_connector.py:38-40 | walking two lists one after the other is walking the first and then, unless it failed, the second on the filesystem the first left |
| Release.WalkErrors | miniature_sorter/artist_connectors/cast_n_play/cast_n_play_connector.py:253-261 | when every step fails only with a model error, so does the loop: files are skipped and listed folders still exist |
| Release.VisitErrors | miniature_sorter/artist_connectors/cast_n_play/cast_n_play_connector.py:39-40 | one model of a prepared run fails only for want of a clean name or a unique cover image |
| Release.RunPrepared | miniature_sorter/artist_connectors/cast_n_play/cast_n_play_connector.py:38 | a missing models root raises `FileNotFoundError` before any model is looked at |
| Release.ProcessModels | miniature_sorter/artist_connectors/cast_n_play/cast_n_play_connector.py:28-40 | an invalid configuration raises its `ValueError` with the filesystem untouched |
| Release.ConfigRejected | miniature_sorter/artist_connectors/cast_n_play/cast_n_play_connector.py:34-36 | a configuration naming a model twice stops the run before `prepare_folders` writes anything |
| Release.ProcessModelsWrites | miniature_sorter/artist_connectors/cast_n_play/cast_n_play_connector.py:28-40 | the whole run keeps the listing valid and never writes, removes or overwrites anything outside the output folder |
| Release.ConfiguredErrors | miniature_sorter/artist_connectors/cast_n_play/cast_n_play_connector.py:36-40 | with a valid configuration and the output outside the models root, the run stops only on a missing models root or a model error |
| Release.ProcessModelsErrors | miniature_sorter/artist_connectors/cast_n_play/cast_n_play_connector.py:28-40 | the run raises the configuration's `ValueError` exactly when the configuration is invalid; any other exception is a missing models root or a model error |
| BiteTheBullet.ProcessUnsupported | miniature_sorter/artist_connectors/bite_the_bullet/bite_the_bulet_connector.py:26-55 | a name the exotic rule cannot handle raises before any write; the ignore list does not affect the result |
| BiteTheBullet.UnsupportedWithCover | miniature_sorter/artist_connectors/bite_the_bullet/bite_the_bulet_connector.py:39-55 | with neither `Unsupported/<name>` nor `Unsupported` present, it raises `FileNotFoundError` naming `Unsupported/<name>`, the folder `mkdir` was asked to create, before any write |
| BiteTheBullet.UnsupportedWrites | miniature_sorter/artist_connectors/bite_the_bullet/bite_the_bulet_connector.py:26-55 | everything written lies below `Unsupported/<name>`, read as a literal path (see Left out for the names `.` and `..`), and the listing stays valid |
| BiteTheBullet.StlCopied | miniature_sorter/artist_connectors/bite_the_bullet/bite_the_bulet_connector.py:39-50 | every `.stl` file anywhere below the model folder, `Pre-Supported` included, reaches its place under `Models/STL`; nothing outside the output folder changes |
| BiteTheBullet.UnsupportedSucceeds | miniature_sorter/artist_connectors/bite_the_bullet/tests/test_bite_the_bullet_connector.py:47-65 | with `Unsupported` prepared and the cover image outside the output, the call succeeds, copies every `.stl` file and places the cover image at `Unsupported/<name>/<name><suffix>` |
| BiteTheBullet.CoverMissing | miniature_sorter/artist_connectors/bite_the_bullet/bite_the_bulet_connector.py:45-55 | a missing cover image raises `FileNotFoundError` only after the `.stl` files are copied, and those copies stay |
| BulletName.GroupEnd | miniature_sorter/artist_connectors/bite_the_bullet/bite_the_bulet_connector.py:18 | the lazy group `(.*?)` ends at the first `)`, and no end exists when a newline comes first |
| BulletName.ParenSearch | miniature_sorter/artist_connectors/bite_the_bullet/bite_the_bulet_connector.py:18 | `re.search` returns the leftmost `(` that has a matching `)`, and returns nothing exactly when the text has no match |
| BulletName.GatherFilename | miniature_sorter/artist_connectors/bite_the_bullet/bite_the_bulet_connector.py:97-107 | it fails exactly for an exotic name whose lower-cased form contains a parenthesised match, and it otherwise returns `capwords` of the whole name |
| BulletName.GatherFilenameIntended | miniature_sorter/artist_connectors/bite_the_bullet/bite_the_bulet_connector.py:97-107 | a name that is not exotic is title-cased as a whole |
| BulletName.IntendedTakesGroup | miniature_sorter/artist_connectors/bite_the_bullet/bite_the_bulet_connector.py:98-103 | for an exotic name, the corrected rule returns `capwords` of the text inside the leftmost parenthesised match |
| BulletName.AsWrittenAgreesWithIntended | miniature_sorter/artist_connectors/bite_the_bullet/bite_the_bulet_connector.py:97-107 | wherever the code returns a name it is the corrected one, and it fails exactly where the correction reads the parentheses |
| BulletName.DotDotName | miniature_sorter/artist_connectors/bite_the_bullet/bite_the_bulet_connector.py:98-107 | the folder `" .."` gets the clean name `".."`: `capwords` drops the leading space and nothing else rejects it |
| BulletName.ExoticCounterexample | miniature_sorter/artist_connectors/bite_the_bullet/bite_the_bulet_connector.py:98-107 | `"Exotic (Elf)"` raises where the intended result is `"Elf"` |
| BulletName.NoParenIdempotent | miniature_sorter/artist_connectors/bite_the_bullet/bite_the_bulet_connector.py:97-107 | a name without `(` is never rejected, and applying the rule to its result returns the result unchanged |
| BulletName.IntendedIsCapwords | miniature_sorter/artist_connectors/bite_the_bullet/bite_the_bulet_connector.py:107 | the corrected result is always a `capwords` result, so a second `capwords` leaves it unchanged |
| BulletName.ElfRogueName | miniature_sorter/artist_connectors/bite_the_bullet/tests/test_bite_the_bullet_connector.py:37-60 | the test's folder `"Elf Rogue"` names its model `"Elf Rogue"` |

## Left out

- The archive step (`rar_handler.py`), the entry scripts and the logger configuration are not part of this model. Debug log calls are no-ops. The two `logger.warning` calls of `process_single_model_folder` are returned as `Connector.Warning` values. The other warnings are not recorded: the one `normalize_details` logs when it drops `"Characters"` (line 248), the one Cast n Play's `_gather_filename` logs before falling back to `". "` (line 204), and the one Bite the Bullet's `_gather_filename` logs for an exotic name without parentheses (`bite_the_bulet_connector.py:100`).
- `shutil.copy2` metadata and timestamps: a copy writes the source's content at the target.
- Symbolic links, file/directory clashes (a copy onto an existing directory, `mkdir` over a file) and `NotADirectoryError`: a path is a file or a directory, and a missing directory is `FileNotFoundError`.
- `rglob` and `iterdir` are modelled as a snapshot taken when the call starts. Python's generators are lazy and could in principle see copies made during the loop. The lemmas about tiers assume the output lies outside the model folder, which rules this out.
- `rglob` also yields directories whose name ends in the extension, and `copy2` would then fail. Only files are matched.
- Glob case sensitivity is platform-dependent. Matching is case-sensitive, as on Linux.
- Case mapping (`lower`, `capitalize`) covers ASCII letters only; other letters are left unchanged. Whitespace follows `str.isspace()` in full, Unicode included. `int()` strips the same set except U+001C to U+001F. `int()` also accepts non-ASCII decimal digits, which the model rejects.
- The digit limit of `int()` and `str()` is fixed at CPython's default of 4300 digits. Changing it with `sys.set_int_max_str_digits` or `PYTHONINTMAXSTRDIGITS` is not modelled.
- ModelName.RenormalizeFixed: stated for numbers of at most 4300 digits. A clean name with a longer number cannot arise, because `str(n)` at `cast_n_play_connector.py:200` would raise first, and every number the rules read fits (`PyInt.ParsedFits`).
- `deepcopy` in `normalize_details`: the model is pure, so the caller's value cannot change.
- A Python dict is modelled as a sequence of key/value pairs in insertion order. Keys are assumed unique where it matters (`Release.UniqueKeys`).
- The configurable `presupported_files_location` is fixed at its default, `"Pre-Supported"`.
- Bite the Bullet's `_process_unsupported` takes `root_folders_ignore` but never reads it. The model takes the parameter and ignores it.
- Bite the Bullet has no `process_models`; only the parts named above are modelled for it.
- BulletName.NoParenIdempotent: stated only for names without `(`. A name with leading whitespace, such as `"  exotic (elf)"`, is not exotic, yet its `capwords` result `"Exotic (elf)"` is rejected. So idempotence fails for some names outside the exotic-with-parentheses case.
- Release.PrepareFolders: each category key is one path component. Python's `output / key` would also resolve a key such as `"../x"`, `"a/b"` or `"/abs"`, and so could create folders outside the output folder. The model does not cover such keys.
- Release.ProcessModelsWrites: "nothing outside the output folder is written" rests on the same reading of category keys and model names as single path components.
- BiteTheBullet.ProcessUnsupported: a whitespace-only folder name has the clean name `""`. pathlib drops the empty segment and writes to `Unsupported/Models/STL`. The model writes below a path with an empty component.
- BiteTheBullet.UnsupportedWrites: a path is a literal sequence of components. The OS resolves `.` and `..` inside a path, and the model does not. A folder such as `" .."` or `" ."` gets the clean name `".."` or `"."` (`BulletName.DotDotName`). `Unsupported/..` is then the output folder itself, so the `.stl` files land in `<output>/Models/STL` and the cover in `<output>`, outside `Unsupported/`. The model writes below a literal `..` component, and the confinement lemmas and the `BiteTheBullet.StlCopied` and `BiteTheBullet.UnsupportedSucceeds` placements do not cover these two names.
- Extraction.Extract: has no error result. `shutil.copy2` raises `SameFileError` when a match's target is the match itself. That can only happen when the output folder lies inside the searched folder, for example searching `m` with `m/STL/a.stl` and output `m/STL`. The model then reports a successful copy. Every lemma about the tiers and the whole run assumes the output lies outside the model folders, which excludes this case.
- The stale test at `miniature_sorter/artist_connectors/cast_n_play/tests/test_cast_n_play_connector.py:28-30` calls a constructor and a method that do not exist. It is not modelled.

## Findings

| source | as written | input that shows it | evidently intended | confidence | as-written member | corrected member |
|---|---|---|---|---|---|---|
| miniature_sorter/artist_connectors/bite_the_bullet/bite_the_bulet_connector.py:98-107 | for an exotic name with parentheses, the `re.Match` object itself is assigned to `filename` and passed to `string.capwords`, which raises `AttributeError` | `"Exotic (Elf)"` | `capwords` of the text in the first pair of parentheses: `"Elf"` | high, not executed | BulletName.ExoticCounterexample | BulletName.IntendedTakesGroup |

=== FILE: bullet.dfy ===
/** Bite the Bullet's `_process_unsupported`: the model's `.stl` files,
    from anywhere below the model folder, go to
    `Unsupported/<name>/Models/STL`, and the cover image is copied next to
    them as `Unsupported/<name>/<name><suffix>`. */
module BiteTheBullet {
  import opened Wrappers
  import opened FileSystem
  import opened Extraction
  import opened Images
  import opened BulletName
  import opened Connector

  /** Where the model's folder for the unsupported tier goes. */
  function ModelLocation(output: Path, name: string): Path {
    output + ["Unsupported", name]
  }

  /** Where the `.stl` files go. */
  function StlLocation(output: Path, name: string): Path {
    ModelLocation(output, name) + ["Models", "STL"]
  }

  /** Where the cover image goes. */
  function CoverLocation(output: Path, name: string, image: Path): Path {
    ModelLocation(output, name) + [name + Suffix(Name(image))]
  }

  /** `_process_unsupported(folder, output, ignore, image)`.  The folders to
      ignore are accepted and never used: files below `Pre-Supported` are
      copied too. */
  function ProcessUnsupported(fs: Fs, folder: Path, output: Path, ignore: Option<seq<string>>, image: Path): (r: Outcome)
    ensures r.warnings == []
    ensures GatherFilename(Name(folder)).Err? ==> r == Failed(fs, MatchNotString(Name(folder)))
  {
    match GatherFilename(Name(folder))
    case Err(e) => Failed(fs, e)
    case Ok(name) => UnsupportedWithCover(fs, folder, output, name, image)
  }

  /** `_process_unsupported` once the model's name is known. */
  function UnsupportedWithCover(fs: Fs, folder: Path, output: Path, name: string, image: Path): (r: Outcome)
    ensures r.warnings == []
    ensures !IsDir(fs, ModelLocation(output, name)) && !IsDir(fs, output + ["Unsupported"]) ==>
      r == Failed(fs, FileNotFound(ModelLocation(output, name)))
  {
    var loc := ModelLocation(output, name);
    assert Parent(loc) == output + ["Unsupported"];
    match MakeModelDirs(fs, loc)
    case Err(e) => Failed(fs, e)
    case Ok(fs2) =>
      var fs3 := Extract(fs2, folder, ".stl", StlLocation(output, name), ModelFolders).1;
      match CopyFile(fs3, image, CoverLocation(output, name, image))
      case Err(e) => Failed(fs3, e)
      case Ok(fs4) => Done(fs4)
  }

  /** Path facts about the three locations. */
  lemma Locations(output: Path, name: string, image: Path)
    ensures ModelLocation(output, name) == output + ["Unsupported"] + [name]
    ensures Within(output, ModelLocation(output, name))
    ensures Within(ModelLocation(output, name), StlLocation(output, name))
    ensures Parent(CoverLocation(output, name, image)) == ModelLocation(output, name)
    ensures Within(ModelLocation(output, name), CoverLocation(output, name, image))
  {
    var loc := ModelLocation(output, name);
    assert loc[..|output|] == output;
    assert StlLocation(output, name)[..|loc|] == loc;
    ChildPath(loc, name + Suffix(Name(image)));
  }

  /** `_process_unsupported` keeps the listing valid and writes only below
      `Unsupported/<name>`. */
  lemma UnsupportedWrites(fs: Fs, folder: Path, output: Path, ignore: Option<seq<string>>, image: Path, name: string)
    requires Valid(fs) && GatherFilename(Name(folder)) == Ok(name)
    ensures var r := ProcessUnsupported(fs, folder, output, ignore, image);
      Valid(r.fs) && WritesWithin(fs, r.fs, ModelLocation(output, name))
  {
    assert ProcessUnsupported(fs, folder, output, ignore, image) == UnsupportedWithCover(fs, folder, output, name, image);
    var loc := ModelLocation(output, name);
    if MakeModelDirs(fs, loc).Ok? {
      StlWrites(fs, folder, output, name);
      CoverCopyWrites(fs, folder, output, name, image);
    } else {
      WritesWithinRefl(fs, loc);
    }
  }

  /** Copying the `.stl` files writes only below the model's folder. */
  lemma StlWrites(fs: Fs, folder: Path, output: Path, name: string)
    requires Valid(fs) && MakeModelDirs(fs, ModelLocation(output, name)).Ok?
    ensures var loc := ModelLocation(output, name);
      var fs3 := Extract(MakeModelDirs(fs, loc).value, folder, ".stl", StlLocation(output, name), ModelFolders).1;
      Valid(fs3) && WritesWithin(fs, fs3, loc)
  {
    var loc := ModelLocation(output, name);
    var stl := StlLocation(output, name);
    var fs2 := MakeModelDirs(fs, loc).value;
    var fs3 := Extract(fs2, folder, ".stl", stl, ModelFolders).1;
    Locations(output, name, []);
    ExtractEffect(fs2, folder, ".stl", stl, ModelFolders);
    WritesWithinWiden(fs2, fs3, loc, stl);
    ValidWritesChain(fs, fs2, fs3, loc);
  }

  /** Copying the cover image after the `.stl` files still writes only below
      the model's folder. */
  lemma CoverCopyWrites(fs: Fs, folder: Path, output: Path, name: string, image: Path)
    requires Valid(fs) && MakeModelDirs(fs, ModelLocation(output, name)).Ok?
    requires var loc := ModelLocation(output, name);
      var fs3 := Extract(MakeModelDirs(fs, loc).value, folder, ".stl", StlLocation(output, name), ModelFolders).1;
      Valid(fs3) && WritesWithin(fs, fs3, loc)
    ensures var r := UnsupportedWithCover(fs, folder, output, name, image);
      Valid(r.fs) && WritesWithin(fs, r.fs, ModelLocation(output, name))
  {
    var loc := ModelLocation(output, name);
    var fs3 := Extract(MakeModelDirs(fs, loc).value, folder, ".stl", StlLocation(output, name), ModelFolders).1;
    var cover := CoverLocation(output, name, image);
    if CopyFile(fs3, image, cover).Ok? {
      var fs4 := CopyFile(fs3, image, cover).value;
      Locations(output, name, image);
      CopyFileWrites(fs3, image, cover);
      WritesWithinWiden(fs3, fs4, loc, cover);
      ValidWritesChain(fs, fs3, fs4, loc);
    }
  }

  /** The copies made before the cover image: the `.stl` files below the
      model folder, `Pre-Supported` included, each at its place below
      `Models/STL`; everything outside the output folder unchanged. */
  lemma StlCopied(fs: Fs, folder: Path, output: Path, name: string)
    requires Valid(fs) && IsDir(fs, output + ["Unsupported"])
    ensures var loc := ModelLocation(output, name);
      MakeModelDirs(fs, loc).Ok? &&
      var fs3 := Extract(MakeModelDirs(fs, loc).value, folder, ".stl", StlLocation(output, name), ModelFolders).1;
      && IsDir(fs3, loc) && Valid(fs3)
      && (forall q :: q in Matches(fs, folder, ".stl") ==> Target(folder, StlLocation(output, name), ModelFolders, q) in fs3.files)
      && (forall p :: p in fs.files && !Within(output, p) ==> p in fs3.files && fs3.files[p] == fs.files[p])
      && (forall p :: p in fs3.files && !Within(output, p) ==> p in fs.files)
  {
    var loc := ModelLocation(output, name);
    var stl := StlLocation(output, name);
    Locations(output, name, []);
    WithinTransitive(output, loc, stl);
    var fs2 := MakeModelDirs(fs, loc).value;
    var m := Matches(fs, folder, ".stl");
    assert Matches(fs2, folder, ".stl") == m;
    ExtractEffect(fs2, folder, ".stl", stl, ModelFolders);
    forall q | q in m ensures Within(output, Target(folder, stl, ModelFolders, q)) {
      TargetWithinOutput(folder, stl, ModelFolders, q);
      WithinTransitive(output, stl, Target(folder, stl, ModelFolders, q));
    }
    forall q | q in m ensures Target(folder, stl, ModelFolders, q) in TargetSet(m, folder, stl, ModelFolders) {
    }
  }

  /** With `Unsupported` prepared and the cover image present outside the
      output folder, `_process_unsupported` succeeds: every `.stl` file
      below the model folder is copied and the cover image sits next to the
      models under the model's name. */
  lemma UnsupportedSucceeds(fs: Fs, folder: Path, output: Path, ignore: Option<seq<string>>, image: Path, name: string)
    requires Valid(fs) && GatherFilename(Name(folder)) == Ok(name)
    requires IsDir(fs, output + ["Unsupported"])
    requires image in fs.files && !Within(output, image)
    ensures var r := ProcessUnsupported(fs, folder, output, ignore, image);
      && r.error.None?
      && CoverLocation(output, name, image) in r.fs.files
      && r.fs.files[CoverLocation(output, name, image)] == fs.files[image]
      && (forall q :: q in Matches(fs, folder, ".stl") ==> Target(folder, StlLocation(output, name), ModelFolders, q) in r.fs.files)
  {
    StlCopied(fs, folder, output, name);
    Locations(output, name, image);
    WithinTransitive(output, ModelLocation(output, name), CoverLocation(output, name, image));
  }

  /** A missing cover image stops `_process_unsupported` with
      `FileNotFoundError` only after the `.stl` files are copied; those
      copies stay. */
  lemma CoverMissing(fs: Fs, folder: Path, output: Path, ignore: Option<seq<string>>, image: Path, name: string)
    requires Valid(fs) && GatherFilename(Name(folder)) == Ok(name)
    requires IsDir(fs, output + ["Unsupported"])
    requires image !in fs.files && !Within(output, image)
    ensures var r := ProcessUnsupported(fs, folder, output, ignore, image);
      && r.error == Some(FileNotFound(image))
      && (forall q :: q in Matches(fs, folder, ".stl") ==> Target(folder, StlLocation(output, name), ModelFolders, q) in r.fs.files)
  {
    StlCopied(fs, folder, output, name);
  }
}

=== FILE: bulletname.dfy ===
/** Bite the Bullet's `_gather_filename`: ordinary folder names are passed
    through `string.capwords`; a name starting with "exotic" (in any case)
    is meant to be replaced by the text inside its first pair of
    parentheses, found with the pattern `\((.*?)\)` on the lower-cased
    name. */
module BulletName {
  import opened Wrappers
  import opened PyStr
  import opened PyWords

  /** No newline and no `)` in `s[from..to]`: the lazy group `(.*?)` can
      stretch over it, and stops at the first `)` after it. */
  predicate ClearBetween(s: string, from: int, to: int)
    requires 0 <= from && to <= |s|
  {
    forall m :: from <= m < to ==> s[m] != '\n' && s[m] != ')'
  }

  /** `\((.*?)\)` matches `s[i..j + 1]` when it starts at `i`. */
  predicate MatchAt(s: string, i: int, j: int) {
    && 0 <= i < j < |s|
    && s[i] == '(' && s[j] == ')'
    && ClearBetween(s, i + 1, j)
  }

  /** The first `)` after position `from`, unless a newline comes first. */
  function GroupEnd(s: string, from: nat): (r: Option<nat>)
    requires from <= |s|
    ensures r.Some? ==> from <= r.value < |s| && s[r.value] == ')' && ClearBetween(s, from, r.value)
    ensures r.None? ==> forall k :: from <= k < |s| && s[k] == ')' ==> !ClearBetween(s, from, k)
    decreases |s| - from
  {
    if from == |s| then None
    else if s[from] == ')' then Some(from)
    else if s[from] == '\n' then None
    else GroupEnd(s, from + 1)
  }

  /** `PAREN_CONTENT.search(s)` from position `from` on: the leftmost start
      at which the pattern matches, with the end its lazy group picks. */
  function ParenSearchFrom(s: string, from: nat): (r: Option<(nat, nat)>)
    requires from <= |s|
    ensures r.Some? ==> from <= r.value.0 && MatchAt(s, r.value.0, r.value.1)
    ensures r.Some? ==> forall i, j :: from <= i < r.value.0 ==> !MatchAt(s, i, j)
    ensures r.None? ==> forall i, j :: from <= i ==> !MatchAt(s, i, j)
    decreases |s| - from
  {
    if from == |s| then None
    else if s[from] == '(' then
      match GroupEnd(s, from + 1)
      case Some(j) => Some((from, j))
      case None => ParenSearchFrom(s, from + 1)
    else ParenSearchFrom(s, from + 1)
  }

  /** `PAREN_CONTENT.search(s)`: the start and end of the match, if any. */
  function ParenSearch(s: string): (r: Option<(nat, nat)>)
    ensures r.Some? ==> MatchAt(s, r.value.0, r.value.1)
    ensures r.Some? ==> forall i, j :: i < r.value.0 ==> !MatchAt(s, i, j)
    ensures r.None? <==> forall i, j :: !MatchAt(s, i, j)
  {
    ParenSearchFrom(s, 0)
  }

  /** The name starts with "exotic", ignoring case. */
  predicate IsExotic(name: string) {
    StartsWith(Lower(name), "exotic")
  }

  /** `_gather_filename` as written.  When a match is found the code hands
      the match object itself, not its text, to `capwords`, which raises an
      `AttributeError`; that is `MatchNotString` here. */
  function GatherFilename(name: string): (r: Result<string>)
    ensures r.Err? <==> IsExotic(name) && exists i, j :: MatchAt(Lower(name), i, j)
    ensures r.Err? ==> r.error == MatchNotString(name)
    ensures r.Ok? ==> r.value == Capwords(name)
  {
    if IsExotic(name) then
      match ParenSearch(Lower(name))
      case None => Ok(Capwords(name))
      case Some(_) => Err(MatchNotString(name))
    else Ok(Capwords(name))
  }

  /** The evident intent: an exotic name with parentheses becomes the
      capitalised words inside the first pair. */
  function GatherFilenameIntended(name: string): (r: string)
    ensures !IsExotic(name) ==> r == Capwords(name)
  {
    if IsExotic(name) then
      match ParenSearch(Lower(name))
      case None => Capwords(name)
      case Some((i, j)) => Capwords(Lower(name)[i + 1..j])
    else Capwords(name)
  }

  /** The text the corrected function takes for an exotic name with a match
      is exactly the first parenthesised part: it begins after the leftmost
      `(` that has a closing `)` and stops before that closing `)`. */
  lemma IntendedTakesGroup(name: string, i: int, j: int)
    requires IsExotic(name) && MatchAt(Lower(name), i, j)
    requires forall i', j' :: i' < i ==> !MatchAt(Lower(name), i', j')
    ensures GatherFilenameIntended(name) == Capwords(Lower(name)[i + 1..j])
  {
    var s := Lower(name);
    var r := ParenSearch(s);
    assert r.Some?;
    var (a, b) := r.value;
    assert a == i;
    MatchEndUnique(s, i, j, b);
  }

  /** At a given start the lazy group has only one possible end. */
  lemma MatchEndUnique(s: string, i: int, j: int, k: int)
    requires MatchAt(s, i, j) && MatchAt(s, i, k)
    ensures j == k
  {
  }

  /** Wherever the code as written returns a name, it is the intended one;
      it fails exactly on the exotic names the correction reads the
      parentheses of. */
  lemma AsWrittenAgreesWithIntended(name: string)
    ensures GatherFilename(name).Ok? ==> GatherFilename(name).value == GatherFilenameIntended(name)
    ensures GatherFilename(name).Err? <==> IsExotic(name) && ParenSearch(Lower(name)).Some?
  {
  }

  /** A failing input: `"Exotic (Elf)"` raises instead of naming the model
      `"Elf"`. */
  lemma ExoticCounterexample(name: string)
    requires name == "Exotic (Elf)"
    ensures GatherFilename(name) == Err(MatchNotString(name))
    ensures GatherFilenameIntended(name) == "Elf"
  {
    var s := Lower(name);
    assert s[..6] == "exotic";
    assert MatchAt(s, 7, 11);
    forall i', j' | i' < 7 ensures !MatchAt(s, i', j') {
      if 0 <= i' { assert s[i'] != '('; }
    }
    IntendedTakesGroup(name, 7, 11);
    assert s[8..11] == "elf";
    ElfWord();
  }

  /** The folder `" .."` gets the clean name `".."`, which the operating
      system reads as the parent folder once it is joined into a path. */
  lemma DotDotName(name: string)
    requires name == " .."
    ensures GatherFilename(name) == Ok("..")
  {
    assert !IsExotic(name) by { assert |Lower(name)| < 6; }
    var w := "..";
    assert IsSpace(name[0]) && name[1..] == w;
    assert !IsSpace(w[0]) && !IsSpace(w[1]);
    assert WordLength(w) == 2;
    assert w[..2] == w && w[2..] == "";
    assert Words(w) == [w];
    assert Words(name) == [w];
    assert Lower(".") == "." && UpperChar('.') == '.';
    assert Capitalize(w) == w;
    assert CapitalizeAll([w]) == [w];
    assert Capwords(name) == w;
  }

  /** `string.capwords("elf")` is `"Elf"`. */
  lemma ElfWord()
    ensures Capwords("elf") == "Elf"
  {
    var w := "elf";
    assert !IsSpace(w[0]) && !IsSpace(w[1]) && !IsSpace(w[2]);
    assert WordLength(w) == 3;
    assert w[..3] == w && w[3..] == "";
    assert Words(w) == [w];
    assert Capitalize(w) == [UpperChar('e')] + Lower("lf");
  }

  /** A name without `(` is never rejected and names the model by its
      capitalised words, which it keeps when read again. */
  lemma NoParenIdempotent(name: string)
    requires '(' !in name
    ensures GatherFilename(name) == Ok(Capwords(name))
    ensures GatherFilename(Capwords(name)) == Ok(Capwords(name))
  {
    NoParenNoMatch(name);
    var v := Capwords(name);
    CapwordsKeepsAbsent(name, '(');
    NoParenNoMatch(v);
    CapwordsIdempotent(name);
  }

  /** Without `(` in the name there is nothing to match in its lower-cased
      form. */
  lemma NoParenNoMatch(name: string)
    requires '(' !in name
    ensures forall i, j :: !MatchAt(Lower(name), i, j)
  {
    forall i, j ensures !MatchAt(Lower(name), i, j) {
      if 0 <= i < |name| {
        assert Lower(name)[i] == LowerChar(name[i]);
      }
    }
  }

  /** The corrected name is always a capwords result, hence stable under a
      second capwords. */
  lemma IntendedIsCapwords(name: string)
    ensures Capwords(GatherFilenameIntended(name)) == GatherFilenameIntended(name)
  {
    if IsExotic(name) {
      match ParenSearch(Lower(name))
      case None => CapwordsIdempotent(name);
      case Some((i, j)) => CapwordsIdempotent(Lower(name)[i + 1..j]);
    } else {
      CapwordsIdempotent(name);
    }
  }

  /** A word already in capwords form: upper-case first letter, lower-case
      rest. */
  lemma CapitalizedFixed(w: string)
    requires |w| > 0 && !IsAsciiLower(w[0]) && forall i :: 1 <= i < |w| ==> !IsAsciiUpper(w[i])
    ensures Capitalize(w) == w
  {
    assert Lower(w[1..]) == w[1..];
  }

  /** The folder name of the documented example, `"Elf Rogue"`, is the
      model's name unchanged. */
  lemma ElfRogueName(name: string)
    requires name == "Elf Rogue"
    ensures GatherFilename(name) == Ok(name)
  {
    ElfRogueWords(name);
    ElfRogueNoParen(name);
    NoParenIdempotent(name);
  }

  /** `"Elf Rogue"` is already in capwords form. */
  lemma ElfRogueWords(name: string)
    requires name == "Elf Rogue"
    ensures Capwords(name) == name
  {
    var ws := ["Elf", "Rogue"];
    assert ws[1..] == ["Rogue"];
    assert Join(ws[1..], " ") == "Rogue";
    assert Join(ws, " ") == "Elf" + " " + "Rogue" == name;
    WordsAlreadyCapitalized(ws);
  }

  /** `"Elf Rogue"` has no `(`. */
  lemma ElfRogueNoParen(name: string)
    requires name == "Elf Rogue"
    ensures '(' !in name
  {
    assert forall i :: 0 <= i < |name| ==> name[i] != '(';
  }

  lemma WordsAlreadyCapitalized(ws: seq<string>)
    requires ws == ["Elf", "Rogue"]
    ensures Capwords(Join(ws, " ")) == Join(ws, " ")
  {
    assert IsWord(ws[0]) && IsWord(ws[1]);
    WordsOfJoin(ws);
    CapitalizedFixed(ws[0]);
    CapitalizedFixed(ws[1]);
    assert CapitalizeAll(ws) == ws;
  }
}

=== FILE: capwords.dfy ===
/** Python's `str.split()` without arguments, `str.capitalize()` and
    `string.capwords(s)`, which is `" ".join(w.capitalize() for w in s.split())`. */
module PyWords {
  import opened PyStr

  /** A word as `str.split()` yields it: non-empty, no whitespace. */
  predicate IsWord(w: string) {
    |w| > 0 && forall i :: 0 <= i < |w| ==> !IsSpace(w[i])
  }

  /** Length of the run of non-whitespace characters `s` starts with. */
  function WordLength(s: string): (n: nat)
    requires |s| > 0 && !IsSpace(s[0])
    ensures 1 <= n <= |s|
    ensures forall i :: 0 <= i < n ==> !IsSpace(s[i])
    ensures n < |s| ==> IsSpace(s[n])
    decreases |s|
  {
    if |s| == 1 || IsSpace(s[1]) then 1 else 1 + WordLength(s[1..])
  }

  /** `s.split()`: the maximal runs of non-whitespace characters, in order. */
  function Words(s: string): (r: seq<string>)
    ensures forall k :: 0 <= k < |r| ==> IsWord(r[k])
    decreases |s|
  {
    if |s| == 0 then []
    else if IsSpace(s[0]) then Words(s[1..])
    else
      var n := WordLength(s);
      [s[..n]] + Words(s[n..])
  }

  /** `w.capitalize()`: first character upper case, the rest lower case. */
  function Capitalize(w: string): (r: string)
    ensures |r| == |w|
  {
    if |w| == 0 then "" else [UpperChar(w[0])] + Lower(w[1..])
  }

  function CapitalizeAll(ws: seq<string>): (r: seq<string>)
    ensures |r| == |ws|
    ensures forall k :: 0 <= k < |ws| ==> r[k] == Capitalize(ws[k])
  {
    seq(|ws|, k requires 0 <= k < |ws| => Capitalize(ws[k]))
  }

  /** `string.capwords(s)`. */
  function Capwords(s: string): string {
    Join(CapitalizeAll(Words(s)), " ")
  }

  /** Capitalising keeps a word a word. */
  lemma CapitalizeWord(w: string)
    requires IsWord(w)
    ensures IsWord(Capitalize(w))
  {
    var r := Capitalize(w);
    forall i | 0 <= i < |r| ensures !IsSpace(r[i]) {
      if i > 0 { assert r[i] == LowerChar(w[i]); }
    }
  }

  /** Capitalising twice is capitalising once. */
  lemma CapitalizeIdempotent(w: string)
    ensures Capitalize(Capitalize(w)) == Capitalize(w)
  {
    if |w| > 0 {
      var c := Capitalize(w);
      assert c[1..] == Lower(w[1..]);
      assert Lower(Lower(w[1..])) == Lower(w[1..]);
    }
  }

  /** A word followed by whitespace or by nothing is the first word. */
  lemma WordLengthBeforeSpace(w: string, rest: string)
    requires IsWord(w)
    requires |rest| == 0 || IsSpace(rest[0])
    ensures WordLength(w + rest) == |w|
  {
    var s := w + rest;
    assert forall i :: 0 <= i < |w| ==> s[i] == w[i];
    assert |rest| > 0 ==> s[|w|] == rest[0];
  }

  /** Splitting words joined by single spaces gives the words back. */
  lemma {:induction false} WordsOfJoin(ws: seq<string>)
    requires forall k :: 0 <= k < |ws| ==> IsWord(ws[k])
    ensures Words(Join(ws, " ")) == ws
    decreases |ws|
  {
    if |ws| == 0 {
    } else if |ws| == 1 {
      var w := ws[0];
      WordLengthBeforeSpace(w, "");
      assert w + "" == w;
      assert w[|w|..] == "";
    } else {
      var w := ws[0];
      var tail := Join(ws[1..], " ");
      var s := w + (" " + tail);
      assert Join(ws, " ") == s;
      WordLengthBeforeSpace(w, " " + tail);
      assert s[..|w|] == w;
      assert s[|w|..] == " " + tail;
      assert (" " + tail)[1..] == tail;
      WordsOfJoin(ws[1..]);
      assert Words(s) == [w] + Words(tail);
    }
  }

  /** The words of a capwords result are the capitalised words of the input:
      whitespace runs collapse to one space and nothing else is lost. */
  lemma CapwordsWords(s: string)
    ensures Words(Capwords(s)) == CapitalizeAll(Words(s))
  {
    var ws := CapitalizeAll(Words(s));
    forall k | 0 <= k < |ws| ensures IsWord(ws[k]) {
      CapitalizeWord(Words(s)[k]);
    }
    WordsOfJoin(ws);
  }

  /** `capwords` is idempotent. */
  lemma CapwordsIdempotent(s: string)
    ensures Capwords(Capwords(s)) == Capwords(s)
  {
    CapwordsWords(s);
    var ws := Words(s);
    forall k | 0 <= k < |ws| ensures Capitalize(Capitalize(ws[k])) == Capitalize(ws[k]) {
      CapitalizeIdempotent(ws[k]);
    }
    assert CapitalizeAll(CapitalizeAll(ws)) == CapitalizeAll(ws);
  }

  /** A character that is not a letter changes under neither case mapping. */
  predicate CaseFree(c: char) {
    !IsAsciiUpper(c) && !IsAsciiLower(c)
  }

  /** The words of `s` are made of characters of `s`. */
  lemma {:induction false} WordsKeepAbsent(s: string, c: char)
    requires c !in s
    ensures forall k :: 0 <= k < |Words(s)| ==> c !in Words(s)[k]
    decreases |s|
  {
    if |s| == 0 {
    } else if IsSpace(s[0]) {
      WordsKeepAbsent(s[1..], c);
    } else {
      var n := WordLength(s);
      assert s[..n] + s[n..] == s;
      WordsKeepAbsent(s[n..], c);
    }
  }

  /** Capitalising neither introduces nor removes a character that is not a
      letter. */
  lemma CapitalizeKeepsAbsent(w: string, c: char)
    requires CaseFree(c) && c !in w
    ensures c !in Capitalize(w)
  {
    if |w| > 0 {
      var r := Capitalize(w);
      forall i | 0 <= i < |r| ensures r[i] != c {
        if i > 0 { assert r[i] == LowerChar(w[i]); }
      }
    }
  }

  /** Joining with `" "` adds no other character. */
  lemma {:induction false} JoinKeepsAbsent(ws: seq<string>, c: char)
    requires c != ' ' && forall k :: 0 <= k < |ws| ==> c !in ws[k]
    ensures c !in Join(ws, " ")
    decreases |ws|
  {
    if |ws| > 1 {
      JoinKeepsAbsent(ws[1..], c);
      assert Join(ws, " ") == ws[0] + " " + Join(ws[1..], " ");
    }
  }

  /** `capwords` introduces no punctuation or digit that was not there. */
  lemma CapwordsKeepsAbsent(s: string, c: char)
    requires c != ' ' && CaseFree(c) && c !in s
    ensures c !in Capwords(s)
  {
    var ws := Words(s);
    WordsKeepAbsent(s, c);
    forall k | 0 <= k < |ws| ensures c !in Capitalize(ws[k]) {
      CapitalizeKeepsAbsent(ws[k], c);
    }
    JoinKeepsAbsent(CapitalizeAll(ws), c);
  }
}

=== FILE: castnplay.dfy ===
/** Cast n Play's per-model processing: `process_single_model_folder` with
    `_process_unsupported`, `_process_supported`, `get_file_tree` and the
    file-count check.  A model folder's cover image is copied into the
    category folder, its loose `.stl` files are sorted into
    `Unsupported/<name>/Models/STL`, the files under its `Pre-Supported`
    folder into `Presupported/<name>/Models/<FOLDER>` by extension, and the
    number of files on both sides is compared. */
module CastNPlay {
  import opened Wrappers
  import opened PyStr
  import opened FileSystem
  import opened Extraction
  import opened Images
  import opened ModelName
  import opened Connector

  /** The connector's default `presupported_files_location`. */
  const PresupportedLocation: string := "Pre-Supported"

  /** The folders `_process_unsupported` extracts from: the directories
      directly inside `folder` whose name is not ignored. */
  function UnsupportedSources(fs: Fs, folder: Path, ignored: seq<string>): set<Path> {
    set p | p in SubDirs(fs, folder) && Name(p) !in ignored
  }

  /** One `extract_all_files_of_given_extension` per folder, in order. */
  function ExtractEach(fs: Fs, folders: seq<Path>, extension: string, output: Path, remove: set<string>): (r: Fs)
    ensures fs.files.Keys <= r.files.Keys && fs.dirs <= r.dirs
    decreases |folders|
  {
    if |folders| == 0 then fs
    else ExtractEach(Extract(fs, folders[0], extension, output, remove).1, folders[1..], extension, output, remove)
  }

  /** `_process_unsupported(folder, output, ignore)`: `None` for `ignore`
      means no folder is ignored. */
  function ProcessUnsupported(fs: Fs, folder: Path, output: Path, ignore: Option<seq<string>>): (r: Outcome)
    ensures r.warnings == []
    ensures GatherFilename(Name(folder)).Err? ==> r == Failed(fs, ModelNameDetection(Name(folder)))
  {
    var ignored := if ignore.Some? then ignore.value else [];
    match GatherFilename(Name(folder))
    case Err(e) => Failed(fs, e)
    case Ok(name) => UnsupportedTier(fs, folder, output, ignored, name)
  }

  /** `_process_unsupported` once the model's clean name is known. */
  function UnsupportedTier(fs: Fs, folder: Path, output: Path, ignored: seq<string>, name: string): (r: Outcome)
    ensures r.warnings == []
  {
    var loc := output + ["Unsupported", name];
    match MakeModelDirs(fs, loc)
    case Err(e) => Failed(fs, e)
    case Ok(fs2) =>
      if !IsDir(fs2, folder) then Failed(fs2, FileNotFound(folder))
      else
        var sources := Enumerate(fs2, UnsupportedSources(fs2, folder, ignored));
        Done(ExtractEach(fs2, sources, ".stl", loc + ["Models", "STL"], ModelFolders))
  }

  /** The keys of an extension map, in order. */
  function Keys(exts: seq<(string, string)>): (r: seq<string>)
    ensures |r| == |exts| && forall k :: 0 <= k < |exts| ==> r[k] == exts[k].0
  {
    seq(|exts|, k requires 0 <= k < |exts| => exts[k].0)
  }

  /** `a` lists some of the entries of `b`, in the order of `b`. */
  predicate Subsequence(a: seq<string>, b: seq<string>)
    decreases |b|
  {
    |a| == 0 || (|b| > 0 && ((a[0] == b[0] && Subsequence(a[1..], b[1..])) || Subsequence(a, b[1..])))
  }

  /** A subsequence of the tail is one of the whole, and stays one with the
      head put in front. */
  lemma SubsequenceCons(x: string, a: seq<string>, b: seq<string>)
    requires |b| > 0 && x == b[0] && Subsequence(a, b[1..])
    ensures Subsequence(a, b) && Subsequence([x] + a, b)
  {
    assert ([x] + a)[1..] == a;
  }

  /** The loop of `_process_supported`: each extension of the map is
      extracted from `src` into `dst/<FOLDER>`; the extensions that had
      files are returned in map order. */
  function ExtractTiers(fs: Fs, src: Path, dst: Path, exts: seq<(string, string)>): (r: (Fs, seq<string>))
    ensures Subsequence(r.1, Keys(exts))
    decreases |exts|
  {
    if |exts| == 0 then (fs, [])
    else
      var first := Extract(fs, src, exts[0].0, dst + [exts[0].1], ModelFolders);
      var rest := ExtractTiers(first.1, src, dst, exts[1..]);
      var found := if first.0 then [exts[0].0] + rest.1 else rest.1;
      assert Subsequence(found, Keys(exts)) by {
        assert Keys(exts)[1..] == Keys(exts[1..]);
        SubsequenceCons(exts[0].0, rest.1, Keys(exts));
      }
      (rest.0, found)
  }

  /** The extensions of `exts` with at least one file below `src`, in map
      order, judged on one filesystem. */
  function PresentIn(fs: Fs, src: Path, exts: seq<(string, string)>): (r: seq<string>)
    ensures forall e :: e in r <==> e in Keys(exts) && Matches(fs, src, e) != {}
    decreases |exts|
  {
    if |exts| == 0 then []
    else
      assert Keys(exts) == [exts[0].0] + Keys(exts[1..]);
      (if Matches(fs, src, exts[0].0) != {} then [exts[0].0] else []) + PresentIn(fs, src, exts[1..])
  }

  /** `_process_supported(folder, output, location)`: the filesystem
      afterwards and the extensions found.  Its only exceptions come before
      anything is written. */
  function ProcessSupported(fs: Fs, folder: Path, output: Path, location: string): (r: Result<(Fs, seq<string>)>)
    ensures GatherFilename(Name(folder)).Err? ==> r == Err(ModelNameDetection(Name(folder)))
    ensures r.Ok? ==> Subsequence(r.value.1, Keys(ModelExtensions))
  {
    match GatherFilename(Name(folder))
    case Err(e) => Err(e)
    case Ok(name) => SupportedTier(fs, folder, output, location, name)
  }

  /** `_process_supported` once the model's clean name is known. */
  function SupportedTier(fs: Fs, folder: Path, output: Path, location: string, name: string): (r: Result<(Fs, seq<string>)>)
    ensures r.Err? <==> !IsDir(fs, output + ["Presupported", name]) && !IsDir(fs, output + ["Presupported"])
    ensures r.Ok? ==> Subsequence(r.value.1, Keys(ModelExtensions))
  {
    var loc := output + ["Presupported", name];
    assert Parent(loc) == output + ["Presupported"];
    match MakeModelDirs(fs, loc)
    case Err(e) => Err(e)
    case Ok(fs2) => Ok(ExtractTiers(fs2, folder + [location], loc + ["Models"], ModelExtensions))
  }

  /** `get_file_tree(path)`: every file below `path`, in listing order. */
  function FileTree(fs: Fs, path: Path): (r: seq<Path>)
    ensures Valid(fs) ==> |r| == |FilesBelow(fs, path)|
    ensures Valid(fs) ==> forall p :: p in r <==> p in FilesBelow(fs, path)
  {
    var r := Enumerate(fs, FilesBelow(fs, path));
    if Valid(fs) then DistinctCount(r, FilesBelow(fs, path)); r else r
  }

  /** `MODEL_EXTENSIONS_MAP[extension]`. */
  function FolderOf(extension: string): (r: string)
    ensures extension in Keys(ModelExtensions) ==>
      exists k :: 0 <= k < |ModelExtensions| && ModelExtensions[k] == (extension, r)
  {
    if extension == ".stl" then "STL"
    else if extension == ".lys" then "LYS"
    else "CHITU"
  }

  /** Where `_process_unsupported` puts a model's `.stl` files. */
  function UnsupportedModels(output: Path, name: string): Path {
    output + ["Unsupported", name, "Models"]
  }

  /** Where `_process_supported` puts a model's files of one extension. */
  function SupportedModels(output: Path, name: string, extension: string): Path {
    output + ["Presupported", name, "Models", FolderOf(extension)]
  }

  /** The inconsistency warnings for the extensions in `present`, given `n`
      unsupported files. */
  function CountWarnings(fs: Fs, model: Path, output: Path, name: string, n: nat, present: seq<string>): (r: seq<Warning>)
    ensures |r| <= |present|
    ensures forall w :: w in r ==> w.Inconsistency? && w.model == model && w.unsupported == n && w.supported != n
    ensures forall k :: 0 <= k < |present| ==>
      var m := |FileTree(fs, SupportedModels(output, name, present[k]))|;
      m != n ==> Inconsistency(model, n, m, FolderOf(present[k])) in r
    ensures forall w :: w in r ==> exists k :: (0 <= k < |present| && w.location == FolderOf(present[k])
      && w.supported == |FileTree(fs, SupportedModels(output, name, present[k]))|)
    decreases |present|
  {
    if |present| == 0 then []
    else
      var m := |FileTree(fs, SupportedModels(output, name, present[0]))|;
      var rest := CountWarnings(fs, model, output, name, n, present[1..]);
      var here := if m == n then [] else [Inconsistency(model, n, m, FolderOf(present[0]))];
      assert forall w :: w in rest ==> w in here + rest;
      here + rest
  }

  /** The warnings at the end of `process_single_model_folder`: none found
      at all, or one per extension whose file count differs from the
      unsupported one. */
  function Warnings(fs: Fs, model: Path, output: Path, name: string, present: seq<string>): (r: seq<Warning>)
    ensures |present| == 0 <==> r == [NoPresupported(model)]
    ensures |present| > 0 ==> forall w :: w in r ==> w.Inconsistency? && w.unsupported != w.supported
  {
    if |present| == 0 then [NoPresupported(model)]
    else CountWarnings(fs, model, output, name, |FileTree(fs, UnsupportedModels(output, name))|, present)
  }

  /** Where the cover image is copied: the clean name with the image's
      suffix, directly in the category folder. */
  function CoverTarget(output: Path, name: string, image: Path): Path {
    output + [name + Suffix(Name(image))]
  }

  /** `process_single_model_folder(folder, output)`. */
  function ProcessSingleModel(fs: Fs, folder: Path, output: Path): (r: Outcome)
    ensures GatherFilename(Name(folder)).Err? ==> r == Failed(fs, ModelNameDetection(Name(folder)))
    ensures r.error.None? ==> DetectImageLocation(fs, folder).Ok?
  {
    match GatherFilename(Name(folder))
    case Err(e) => Failed(fs, e)
    case Ok(name) => ProcessNamedModel(fs, folder, output, name)
  }

  /** `process_single_model_folder` once the model's clean name is known. */
  function ProcessNamedModel(fs: Fs, folder: Path, output: Path, name: string): (r: Outcome)
    ensures r.error.None? ==> DetectImageLocation(fs, folder).Ok?
  {
    match DetectImageLocation(fs, folder)
    case Err(e) => Failed(fs, e)
    case Ok(image) =>
      match CopyFile(fs, image, CoverTarget(output, name, image))
      case Err(e) => Failed(fs, e)
      case Ok(fs1) => ProcessTiers(fs1, folder, output, name)
  }

  /** The rest of `process_single_model_folder` once the cover image is
      copied: both tiers, then the count check. */
  function ProcessTiers(fs: Fs, folder: Path, output: Path, name: string): (r: Outcome)
    ensures r.error.Some? ==> r.warnings == []
  {
    var u := ProcessUnsupported(fs, folder, output, Some([PresupportedLocation]));
    if u.error.Some? then u
    else
      match ProcessSupported(u.fs, folder, output, PresupportedLocation)
      case Err(e) => Failed(u.fs, e)
      case Ok((fs3, present)) => Outcome(fs3, Warnings(fs3, folder, output, name, present), None)
  }

  /** `p` is where some match below one of `folders` is copied to. */
  predicate ExtractedTo(fs: Fs, folders: seq<Path>, extension: string, output: Path, remove: set<string>, p: Path) {
    exists k, q :: 0 <= k < |folders| && q in Matches(fs, folders[k], extension) && p == Target(folders[k], output, remove, q)
  }

  lemma WitnessExtractedTo(fs: Fs, folders: seq<Path>, extension: string, output: Path, remove: set<string>, p: Path, k: int, q: Path)
    requires 0 <= k < |folders| && q in Matches(fs, folders[k], extension) && p == Target(folders[k], output, remove, q)
    ensures ExtractedTo(fs, folders, extension, output, remove, p)
  {
  }

  /** Extracting from several folders keeps the listing valid and writes
      only below `output`. */
  lemma {:induction false} ExtractEachWrites(fs: Fs, folders: seq<Path>, extension: string, output: Path, remove: set<string>)
    requires Valid(fs)
    ensures var r := ExtractEach(fs, folders, extension, output, remove);
      Valid(r) && WritesWithin(fs, r, output)
    decreases |folders|
  {
    if |folders| == 0 {
      WritesWithinRefl(fs, output);
    } else {
      var fs1 := Extract(fs, folders[0], extension, output, remove).1;
      ExtractEffect(fs, folders[0], extension, output, remove);
      ExtractEachWrites(fs1, folders[1..], extension, output, remove);
      WritesWithinTrans(fs, fs1, ExtractEach(fs, folders, extension, output, remove), output);
    }
  }

  /** The first extraction leaves the matches of the later folders alone. */
  lemma ExtractEachStep(fs: Fs, folders: seq<Path>, extension: string, output: Path, remove: set<string>)
    requires Valid(fs) && |folders| > 0
    requires forall k :: 0 <= k < |folders| ==> Disjoint(output, folders[k])
    ensures var fs1 := Extract(fs, folders[0], extension, output, remove).1;
      && Valid(fs1)
      && fs1.files.Keys == fs.files.Keys + TargetSet(Matches(fs, folders[0], extension), folders[0], output, remove)
      && forall k :: 1 <= k < |folders| ==> Matches(fs1, folders[k], extension) == Matches(fs, folders[k], extension)
  {
    var fs1 := Extract(fs, folders[0], extension, output, remove).1;
    ExtractEffect(fs, folders[0], extension, output, remove);
    forall k | 1 <= k < |folders| ensures Matches(fs1, folders[k], extension) == Matches(fs, folders[k], extension) {
      MatchesFrame(fs, fs1, output, folders[k], extension);
    }
  }

  /** With every source folder outside `output`, every match of every
      folder gets a file at its target. */
  lemma {:induction false} ExtractEachReaches(fs: Fs, folders: seq<Path>, extension: string, output: Path, remove: set<string>)
    requires Valid(fs)
    requires forall k :: 0 <= k < |folders| ==> Disjoint(output, folders[k])
    ensures forall k, q :: 0 <= k < |folders| && q in Matches(fs, folders[k], extension) ==>
      Target(folders[k], output, remove, q) in ExtractEach(fs, folders, extension, output, remove).files
    decreases |folders|
  {
    if |folders| > 0 {
      var fs1 := Extract(fs, folders[0], extension, output, remove).1;
      var rest := folders[1..];
      ExtractEachStep(fs, folders, extension, output, remove);
      ExtractEachReaches(fs1, rest, extension, output, remove);
      var r := ExtractEach(fs, folders, extension, output, remove);
      assert r == ExtractEach(fs1, rest, extension, output, remove);
      forall k, q | 0 <= k < |folders| && q in Matches(fs, folders[k], extension)
        ensures Target(folders[k], output, remove, q) in r.files
      {
        if k == 0 {
          assert Target(folders[0], output, remove, q) in TargetSet(Matches(fs, folders[0], extension), folders[0], output, remove);
        } else {
          LaterReached(fs, fs1, folders, extension, output, remove, r, k, q);
        }
      }
    }
  }

  /** A match of a later folder is still a match after the first
      extraction, so the later extractions copy it. */
  lemma LaterReached(fs: Fs, fs1: Fs, folders: seq<Path>, extension: string, output: Path, remove: set<string>, r: Fs, k: int, q: Path)
    requires 0 < k < |folders|
    requires forall k :: 1 <= k < |folders| ==> Matches(fs1, folders[k], extension) == Matches(fs, folders[k], extension)
    requires forall k, q :: 0 <= k < |folders[1..]| && q in Matches(fs1, folders[1..][k], extension) ==>
      Target(folders[1..][k], output, remove, q) in r.files
    requires q in Matches(fs, folders[k], extension)
    ensures Target(folders[k], output, remove, q) in r.files
  {
    var f := folders[k];
    assert folders[1..][k - 1] == f;
    assert Matches(fs1, f, extension) == Matches(fs, f, extension);
    assert q in Matches(fs1, folders[1..][k - 1], extension);
  }

  /** A file new after the first extraction, or new after the later ones,
      is the target of some match. */
  lemma OnlyTargetsStep(fs: Fs, fs1: Fs, folders: seq<Path>, extension: string, output: Path, remove: set<string>, p: Path)
    requires |folders| > 0
    requires fs1.files.Keys == fs.files.Keys + TargetSet(Matches(fs, folders[0], extension), folders[0], output, remove)
    requires forall k :: 1 <= k < |folders| ==> Matches(fs1, folders[k], extension) == Matches(fs, folders[k], extension)
    requires p !in fs.files
    requires p in fs1.files || ExtractedTo(fs1, folders[1..], extension, output, remove, p)
    ensures ExtractedTo(fs, folders, extension, output, remove, p)
  {
    if p in fs1.files {
      FirstTarget(fs, fs1, folders, extension, output, remove, p);
    } else {
      LaterTarget(fs, fs1, folders, extension, output, remove, p);
    }
  }

  lemma FirstTarget(fs: Fs, fs1: Fs, folders: seq<Path>, extension: string, output: Path, remove: set<string>, p: Path)
    requires |folders| > 0
    requires fs1.files.Keys == fs.files.Keys + TargetSet(Matches(fs, folders[0], extension), folders[0], output, remove)
    requires p !in fs.files && p in fs1.files
    ensures ExtractedTo(fs, folders, extension, output, remove, p)
  {
    assert p in TargetSet(Matches(fs, folders[0], extension), folders[0], output, remove);
    var q :| q in Matches(fs, folders[0], extension) && p == Target(folders[0], output, remove, q);
    WitnessExtractedTo(fs, folders, extension, output, remove, p, 0, q);
  }

  lemma LaterTarget(fs: Fs, fs1: Fs, folders: seq<Path>, extension: string, output: Path, remove: set<string>, p: Path)
    requires |folders| > 0
    requires forall k :: 1 <= k < |folders| ==> Matches(fs1, folders[k], extension) == Matches(fs, folders[k], extension)
    requires ExtractedTo(fs1, folders[1..], extension, output, remove, p)
    ensures ExtractedTo(fs, folders, extension, output, remove, p)
  {
    var rest := folders[1..];
    var k, q :| 0 <= k < |rest| && q in Matches(fs1, rest[k], extension) && p == Target(rest[k], output, remove, q);
    var f := folders[k + 1];
    assert rest[k] == f;
    assert Matches(fs1, f, extension) == Matches(fs, f, extension);
    assert q in Matches(fs, f, extension);
    WitnessExtractedTo(fs, folders, extension, output, remove, p, k + 1, q);
  }

  /** ... and every new file is such a target. */
  lemma {:induction false} ExtractEachOnlyTargets(fs: Fs, folders: seq<Path>, extension: string, output: Path, remove: set<string>)
    requires Valid(fs)
    requires forall k :: 0 <= k < |folders| ==> Disjoint(output, folders[k])
    ensures var r := ExtractEach(fs, folders, extension, output, remove);
      forall p :: p in r.files && p !in fs.files ==> ExtractedTo(fs, folders, extension, output, remove, p)
    decreases |folders|
  {
    if |folders| > 0 {
      var fs1 := Extract(fs, folders[0], extension, output, remove).1;
      var rest := folders[1..];
      var r := ExtractEach(fs, folders, extension, output, remove);
      ExtractEachStep(fs, folders, extension, output, remove);
      ExtractEachOnlyTargets(fs1, rest, extension, output, remove);
      assert r == ExtractEach(fs1, rest, extension, output, remove);
      forall p | p in r.files && p !in fs.files ensures ExtractedTo(fs, folders, extension, output, remove, p) {
        OnlyTargetsStep(fs, fs1, folders, extension, output, remove, p);
      }
    }
  }

  /** Where `_process_unsupported` sorts a model's `.stl` files. */
  function StlOutput(output: Path, name: string): Path {
    UnsupportedModels(output, name) + ["STL"]
  }

  /** A successful `_process_unsupported` keeps the listing valid and writes
      only below `Unsupported/<name>`. */
  lemma ProcessUnsupportedWrites(fs: Fs, folder: Path, output: Path, ignore: Option<seq<string>>, name: string)
    requires Valid(fs) && GatherFilename(Name(folder)) == Ok(name)
    ensures var r := ProcessUnsupported(fs, folder, output, ignore);
      Valid(r.fs) && WritesWithin(fs, r.fs, output + ["Unsupported", name])
  {
    var ignored := if ignore.Some? then ignore.value else [];
    assert ProcessUnsupported(fs, folder, output, ignore) == UnsupportedTier(fs, folder, output, ignored, name);
    UnsupportedTierWrites(fs, folder, output, ignored, name);
  }

  /** The same once the name is known. */
  lemma UnsupportedTierWrites(fs: Fs, folder: Path, output: Path, ignored: seq<string>, name: string)
    requires Valid(fs)
    ensures var r := UnsupportedTier(fs, folder, output, ignored, name);
      Valid(r.fs) && WritesWithin(fs, r.fs, output + ["Unsupported", name])
  {
    var loc := output + ["Unsupported", name];
    var r := UnsupportedTier(fs, folder, output, ignored, name);
    if MakeModelDirs(fs, loc).Ok? && IsDir(MakeModelDirs(fs, loc).value, folder) {
      var fs2 := MakeModelDirs(fs, loc).value;
      var sources := Enumerate(fs2, UnsupportedSources(fs2, folder, ignored));
      var stl := loc + ["Models", "STL"];
      assert r.fs == ExtractEach(fs2, sources, ".stl", stl, ModelFolders);
      ExtractEachWrites(fs2, sources, ".stl", stl, ModelFolders);
      assert stl[..|loc|] == loc;
      WritesWithinWiden(fs2, r.fs, loc, stl);
      ValidWritesChain(fs, fs2, r.fs, loc);
    } else {
      WritesWithinRefl(fs, loc);
    }
  }

  /** Writing below a folder outside the model folder changes neither the
      sub-folders `_process_unsupported` reads nor their matches, and those
      sub-folders lie outside any folder below that one. */
  lemma UnsupportedSourcesFrame(fs: Fs, fs2: Fs, folder: Path, loc: Path, ignored: seq<string>, extension: string, out: Path)
    requires WritesWithin(fs, fs2, loc) && Disjoint(folder, loc) && Within(loc, out)
    ensures UnsupportedSources(fs2, folder, ignored) == UnsupportedSources(fs, folder, ignored)
    ensures forall s :: s in UnsupportedSources(fs, folder, ignored) ==>
      Disjoint(out, s) && Matches(fs2, s, extension) == Matches(fs, s, extension)
  {
    FrameDisjoint(fs, fs2, loc, folder);
    forall s | s in UnsupportedSources(fs, folder, ignored)
      ensures Disjoint(out, s) && Matches(fs2, s, extension) == Matches(fs, s, extension)
    {
      assert s == folder + [Name(s)];
      DisjointChild(loc, folder, Name(s));
      MatchesFrame(fs, fs2, loc, s, extension);
      WithinTransitiveIf(s, loc, out);
      AncestorsNested(loc, s, out);
    }
  }

  /** The tier once the name is known, with the output prepared and outside
      the model folder. */
  lemma UnsupportedTierCopies(fs: Fs, folder: Path, output: Path, ignored: seq<string>, name: string)
    requires Valid(fs) && Disjoint(folder, output)
    requires IsDir(fs, output + ["Unsupported"]) && IsDir(fs, folder)
    ensures var r := UnsupportedTier(fs, folder, output, ignored, name);
      var stl := StlOutput(output, name);
      && r.error.None?
      && IsDir(r.fs, UnsupportedModels(output, name))
      && (forall s, q :: s in UnsupportedSources(fs, folder, ignored) && q in Matches(fs, s, ".stl") ==>
            Target(s, stl, ModelFolders, q) in r.fs.files)
      && (forall p :: p in r.fs.files && p !in fs.files ==>
            exists s, q :: s in UnsupportedSources(fs, folder, ignored) && q in Matches(fs, s, ".stl") && p == Target(s, stl, ModelFolders, q))
  {
    UnsupportedTierSetup(fs, folder, output, ignored, name);
    var fs2 := MakeModelDirs(fs, output + ["Unsupported", name]).value;
    var stl := StlOutput(output, name);
    var srcSet := UnsupportedSources(fs, folder, ignored);
    var sources := Enumerate(fs2, srcSet);
    var out := ExtractEach(fs2, sources, ".stl", stl, ModelFolders);
    ExtractEachReaches(fs2, sources, ".stl", stl, ModelFolders);
    ExtractEachOnlyTargets(fs2, sources, ".stl", stl, ModelFolders);
    ReachFromEnumeration(fs, fs2, srcSet, sources, stl, out);
    OnlyFromEnumeration(fs, fs2, srcSet, sources, stl, out);
  }

  /** What the tier finds once it has created its folders: the same files,
      the same sub-folders with the same matches, all apart from the
      `.stl` destination. */
  lemma UnsupportedTierSetup(fs: Fs, folder: Path, output: Path, ignored: seq<string>, name: string)
    requires Valid(fs) && Disjoint(folder, output)
    requires IsDir(fs, output + ["Unsupported"]) && IsDir(fs, folder)
    ensures var loc := output + ["Unsupported", name];
      MakeModelDirs(fs, loc).Ok? &&
      var fs2 := MakeModelDirs(fs, loc).value;
      var srcSet := UnsupportedSources(fs, folder, ignored);
      var stl := StlOutput(output, name);
      && Valid(fs2) && fs2.files == fs.files && IsDir(fs2, UnsupportedModels(output, name))
      && (forall s :: s in srcSet ==> s in Enumerate(fs2, srcSet))
      && (forall s :: s in srcSet ==> Disjoint(stl, s) && Matches(fs2, s, ".stl") == Matches(fs, s, ".stl"))
      && UnsupportedTier(fs, folder, output, ignored, name) == Done(ExtractEach(fs2, Enumerate(fs2, srcSet), ".stl", stl, ModelFolders))
  {
    var loc := output + ["Unsupported", name];
    UnsupportedPaths(folder, output, name);
    var fs2 := MakeModelDirs(fs, loc).value;
    UnsupportedSourcesFrame(fs, fs2, folder, loc, ignored, ".stl", StlOutput(output, name));
  }

  /** Where the unsupported tier writes, relative to the model folder. */
  lemma UnsupportedPaths(folder: Path, output: Path, name: string)
    requires Disjoint(folder, output)
    ensures var loc := output + ["Unsupported", name];
      && Parent(loc) == output + ["Unsupported"]
      && UnsupportedModels(output, name) == loc + ["Models"]
      && StlOutput(output, name) == loc + ["Models", "STL"]
      && Within(loc, StlOutput(output, name))
      && Disjoint(folder, loc)
  {
    var loc := output + ["Unsupported", name];
    assert loc == output + ["Unsupported"] + [name];
    ChildPath(output + ["Unsupported"], name);
    var stl := StlOutput(output, name);
    assert stl == loc + ["Models", "STL"] && stl[..|loc|] == loc;
    DisjointChild(folder, output, "Unsupported");
    DisjointChild(folder, output + ["Unsupported"], name);
  }

  /** Every match of every enumerated sub-folder reaches its target. */
  lemma ReachFromEnumeration(fs: Fs, fs2: Fs, srcSet: set<Path>, sources: seq<Path>, stl: Path, out: Fs)
    requires forall s :: s in srcSet ==> s in sources
    requires forall s :: s in srcSet ==> Matches(fs2, s, ".stl") == Matches(fs, s, ".stl")
    requires forall k, q :: 0 <= k < |sources| && q in Matches(fs2, sources[k], ".stl") ==>
      Target(sources[k], stl, ModelFolders, q) in out.files
    ensures forall s, q :: s in srcSet && q in Matches(fs, s, ".stl") ==> Target(s, stl, ModelFolders, q) in out.files
  {
    forall s, q | s in srcSet && q in Matches(fs, s, ".stl") ensures Target(s, stl, ModelFolders, q) in out.files {
      var k :| 0 <= k < |sources| && sources[k] == s;
      assert q in Matches(fs2, sources[k], ".stl");
    }
  }

  /** Every new file is the target of a match of an enumerated
      sub-folder. */
  lemma OnlyFromEnumeration(fs: Fs, fs2: Fs, srcSet: set<Path>, sources: seq<Path>, stl: Path, out: Fs)
    requires fs2.files == fs.files
    requires forall k :: 0 <= k < |sources| ==> sources[k] in srcSet
    requires forall s :: s in srcSet ==> Matches(fs2, s, ".stl") == Matches(fs, s, ".stl")
    requires forall p :: p in out.files && p !in fs2.files ==> ExtractedTo(fs2, sources, ".stl", stl, ModelFolders, p)
    ensures forall p :: p in out.files && p !in fs.files ==>
      exists s, q :: s in srcSet && q in Matches(fs, s, ".stl") && p == Target(s, stl, ModelFolders, q)
  {
    forall p | p in out.files && p !in fs.files
      ensures exists s, q :: s in srcSet && q in Matches(fs, s, ".stl") && p == Target(s, stl, ModelFolders, q)
    {
      assert ExtractedTo(fs2, sources, ".stl", stl, ModelFolders, p);
      var k, q :| 0 <= k < |sources| && q in Matches(fs2, sources[k], ".stl") && p == Target(sources[k], stl, ModelFolders, q);
      var s := sources[k];
      assert s in srcSet;
      assert q in Matches(fs, s, ".stl");
    }
  }

  /** With the output prepared and outside the model folder,
      `_process_unsupported` succeeds, creates `Unsupported/<name>/Models`,
      and the files it creates are exactly the targets of the `.stl` files
      below the model's non-ignored sub-folders: plain files directly in the
      model folder and ignored folders contribute nothing. */
  lemma ProcessUnsupportedCopies(fs: Fs, folder: Path, output: Path, ignored: seq<string>, name: string)
    requires Valid(fs) && Disjoint(folder, output)
    requires GatherFilename(Name(folder)) == Ok(name)
    requires IsDir(fs, output + ["Unsupported"]) && IsDir(fs, folder)
    ensures var r := ProcessUnsupported(fs, folder, output, Some(ignored));
      var stl := StlOutput(output, name);
      && r.error.None?
      && IsDir(r.fs, UnsupportedModels(output, name))
      && (forall s, q :: s in UnsupportedSources(fs, folder, ignored) && q in Matches(fs, s, ".stl") ==>
            Target(s, stl, ModelFolders, q) in r.fs.files)
      && (forall p :: p in r.fs.files && p !in fs.files ==>
            exists s, q :: s in UnsupportedSources(fs, folder, ignored) && q in Matches(fs, s, ".stl") && p == Target(s, stl, ModelFolders, q))
  {
    UnsupportedTierCopies(fs, folder, output, ignored, name);
  }

  /** `PresentIn` depends on the matches alone. */
  lemma {:induction false} PresentInFrame(fs: Fs, fs': Fs, src: Path, exts: seq<(string, string)>)
    requires forall e :: Matches(fs', src, e) == Matches(fs, src, e)
    ensures PresentIn(fs', src, exts) == PresentIn(fs, src, exts)
    decreases |exts|
  {
    if |exts| > 0 {
      PresentInFrame(fs, fs', src, exts[1..]);
    }
  }

  /** The extraction loop of `_process_supported` keeps the listing valid
      and writes only below `dst`. */
  lemma {:induction false} ExtractTiersWrites(fs: Fs, src: Path, dst: Path, exts: seq<(string, string)>)
    requires Valid(fs)
    ensures var r := ExtractTiers(fs, src, dst, exts);
      Valid(r.0) && WritesWithin(fs, r.0, dst)
    decreases |exts|
  {
    if |exts| == 0 {
      WritesWithinRefl(fs, dst);
    } else {
      var out := dst + [exts[0].1];
      var first := Extract(fs, src, exts[0].0, out, ModelFolders);
      ExtractEffect(fs, src, exts[0].0, out, ModelFolders);
      ChildPath(dst, exts[0].1);
      ExtractTiersWrites(first.1, src, dst, exts[1..]);
      WritesWithinChain(fs, first.1, ExtractTiers(fs, src, dst, exts).0, dst, out, dst);
    }
  }

  /** With the source outside the destination, the extensions reported are
      those with files below the source before anything was copied. */
  lemma {:induction false} ExtractTiersPresent(fs: Fs, src: Path, dst: Path, exts: seq<(string, string)>)
    requires Valid(fs) && Disjoint(src, dst)
    ensures ExtractTiers(fs, src, dst, exts).1 == PresentIn(fs, src, exts)
    decreases |exts|
  {
    if |exts| > 0 {
      var out := dst + [exts[0].1];
      var first := Extract(fs, src, exts[0].0, out, ModelFolders);
      ExtractEffect(fs, src, exts[0].0, out, ModelFolders);
      ChildPath(dst, exts[0].1);
      WritesWithinWiden(fs, first.1, dst, out);
      forall e ensures Matches(first.1, src, e) == Matches(fs, src, e) {
        MatchesFrame(fs, first.1, dst, src, e);
      }
      ExtractTiersPresent(first.1, src, dst, exts[1..]);
      PresentInFrame(fs, first.1, src, exts[1..]);
    }
  }

  /** Where `_process_supported` writes: below `Presupported/<name>`. */
  lemma SupportedTierWrites(fs: Fs, folder: Path, output: Path, location: string, name: string)
    requires Valid(fs)
    ensures var r := SupportedTier(fs, folder, output, location, name);
      r.Ok? ==> Valid(r.value.0) && WritesWithin(fs, r.value.0, output + ["Presupported", name])
  {
    var loc := output + ["Presupported", name];
    if MakeModelDirs(fs, loc).Ok? {
      var fs2 := MakeModelDirs(fs, loc).value;
      ExtractTiersWrites(fs2, folder + [location], loc + ["Models"], ModelExtensions);
      ChildPath(loc, "Models");
      var r := SupportedTier(fs, folder, output, location, name);
      WritesWithinChain(fs, fs2, r.value.0, loc, loc, loc + ["Models"]);
    }
  }

  /** With the output prepared and outside the model folder,
      `_process_supported` succeeds and reports exactly the extensions, in
      map order, that have files below the model's `location` folder. */
  lemma ProcessSupportedPresent(fs: Fs, folder: Path, output: Path, location: string, name: string)
    requires Valid(fs) && Disjoint(folder, output)
    requires GatherFilename(Name(folder)) == Ok(name)
    requires IsDir(fs, output + ["Presupported"])
    ensures var r := ProcessSupported(fs, folder, output, location);
      r.Ok? && r.value.1 == PresentIn(fs, folder + [location], ModelExtensions)
  {
    assert ProcessSupported(fs, folder, output, location) == SupportedTier(fs, folder, output, location, name);
    SupportedTierPresent(fs, folder, output, location, name);
  }

  /** `_process_supported` once the name is known: the extensions reported
      are those found below the source before anything was copied. */
  lemma SupportedTierPresent(fs: Fs, folder: Path, output: Path, location: string, name: string)
    requires Valid(fs) && Disjoint(folder, output)
    requires IsDir(fs, output + ["Presupported"])
    ensures var r := SupportedTier(fs, folder, output, location, name);
      r.Ok? && r.value.1 == PresentIn(fs, folder + [location], ModelExtensions)
  {
    var loc := output + ["Presupported", name];
    var src := folder + [location];
    SupportedPaths(folder, output, location, name);
    assert Parent(loc) == output + ["Presupported"];
    var fs2 := MakeModelDirs(fs, loc).value;
    PresentInUnaffected(fs, fs2, loc, src, ModelExtensions);
    ExtractTiersPresent(fs2, src, loc + ["Models"], ModelExtensions);
  }

  /** The supported source and the supported destination lie apart. */
  lemma SupportedPaths(folder: Path, output: Path, location: string, name: string)
    requires Disjoint(folder, output)
    ensures Disjoint(output + ["Presupported", name], folder + [location])
    ensures Disjoint(folder + [location], output + ["Presupported", name] + ["Models"])
  {
    var loc := output + ["Presupported", name];
    DisjointChild(folder, output, "Presupported");
    DisjointChild(folder, output + ["Presupported"], name);
    assert loc == output + ["Presupported"] + [name];
    DisjointChild(loc, folder, location);
    DisjointChild(folder + [location], loc, "Models");
  }

  /** Both tiers keep the listing valid and write only below the output
      folder. */
  lemma TiersWrites(fs: Fs, folder: Path, output: Path, name: string)
    requires Valid(fs) && GatherFilename(Name(folder)) == Ok(name)
    ensures var r := ProcessTiers(fs, folder, output, name);
      Valid(r.fs) && WritesWithin(fs, r.fs, output)
  {
    var u := ProcessUnsupported(fs, folder, output, Some([PresupportedLocation]));
    var r := ProcessTiers(fs, folder, output, name);
    UnsupportedStepWrites(fs, folder, output, name);
    if u.error.Some? {
      assert r == u;
    } else {
      var s := ProcessSupported(u.fs, folder, output, PresupportedLocation);
      SupportedStepWrites(u.fs, folder, output, name);
      if s.Err? {
        assert r.fs == u.fs;
      } else {
        assert r.fs == s.value.0;
        WritesWithinTrans(fs, u.fs, r.fs, output);
      }
    }
  }

  /** The unsupported tier writes only below the output folder. */
  lemma UnsupportedStepWrites(fs: Fs, folder: Path, output: Path, name: string)
    requires Valid(fs) && GatherFilename(Name(folder)) == Ok(name)
    ensures var u := ProcessUnsupported(fs, folder, output, Some([PresupportedLocation]));
      Valid(u.fs) && WritesWithin(fs, u.fs, output)
  {
    var u := ProcessUnsupported(fs, folder, output, Some([PresupportedLocation]));
    ProcessUnsupportedWrites(fs, folder, output, Some([PresupportedLocation]), name);
    assert (output + ["Unsupported", name])[..|output|] == output;
    WritesWithinWiden(fs, u.fs, output, output + ["Unsupported", name]);
  }

  /** The supported tier, when it runs, writes only below the output
      folder. */
  lemma SupportedStepWrites(fs: Fs, folder: Path, output: Path, name: string)
    requires Valid(fs) && GatherFilename(Name(folder)) == Ok(name)
    ensures var s := ProcessSupported(fs, folder, output, PresupportedLocation);
      s.Ok? ==> Valid(s.value.0) && WritesWithin(fs, s.value.0, output)
  {
    var s := ProcessSupported(fs, folder, output, PresupportedLocation);
    assert s == SupportedTier(fs, folder, output, PresupportedLocation, name);
    if s.Ok? {
      SupportedTierWrites(fs, folder, output, PresupportedLocation, name);
      assert (output + ["Presupported", name])[..|output|] == output;
      WritesWithinWiden(fs, s.value.0, output, output + ["Presupported", name]);
    }
  }

  /** `process_single_model_folder` keeps the listing valid and writes only
      below its output folder. */
  lemma SingleModelWrites(fs: Fs, folder: Path, output: Path)
    requires Valid(fs)
    ensures var r := ProcessSingleModel(fs, folder, output);
      Valid(r.fs) && WritesWithin(fs, r.fs, output)
  {
    match GatherFilename(Name(folder))
    case Err(_) =>
      WritesWithinRefl(fs, output);
    case Ok(name) =>
      assert ProcessSingleModel(fs, folder, output) == ProcessNamedModel(fs, folder, output, name);
      NamedModelWrites(fs, folder, output, name);
  }

  /** The same once the name is known. */
  lemma NamedModelWrites(fs: Fs, folder: Path, output: Path, name: string)
    requires Valid(fs) && GatherFilename(Name(folder)) == Ok(name)
    ensures var r := ProcessNamedModel(fs, folder, output, name);
      Valid(r.fs) && WritesWithin(fs, r.fs, output)
  {
    if DetectImageLocation(fs, folder).Ok? && CopyFile(fs, DetectImageLocation(fs, folder).value, CoverTarget(output, name, DetectImageLocation(fs, folder).value)).Ok? {
      CoverThenTiersWrites(fs, folder, output, name, DetectImageLocation(fs, folder).value);
    } else {
      WritesWithinRefl(fs, output);
    }
  }

  /** Once the cover image is copied, the tiers add their writes below the
      same output folder. */
  lemma CoverThenTiersWrites(fs: Fs, folder: Path, output: Path, name: string, image: Path)
    requires Valid(fs) && GatherFilename(Name(folder)) == Ok(name)
    requires DetectImageLocation(fs, folder) == Ok(image)
    requires CopyFile(fs, image, CoverTarget(output, name, image)).Ok?
    ensures var r := ProcessNamedModel(fs, folder, output, name);
      Valid(r.fs) && WritesWithin(fs, r.fs, output)
  {
    var fs1 := CopyFile(fs, image, CoverTarget(output, name, image)).value;
    CoverWrites(fs, output, name, image);
    var r := ProcessTiers(fs1, folder, output, name);
    assert ProcessNamedModel(fs, folder, output, name) == r;
    TiersWrites(fs1, folder, output, name);
    ValidWritesChain(fs, fs1, r.fs, output);
  }

  /** Copying the cover image writes one file in the output folder. */
  lemma CoverWrites(fs: Fs, output: Path, name: string, image: Path)
    requires Valid(fs) && CopyFile(fs, image, CoverTarget(output, name, image)).Ok?
    ensures var fs1 := CopyFile(fs, image, CoverTarget(output, name, image)).value;
      Valid(fs1) && WritesWithin(fs, fs1, output)
  {
    var cover := CoverTarget(output, name, image);
    CopyFileWrites(fs, image, cover);
    ChildPath(output, name + Suffix(Name(image)));
    WritesWithinWiden(fs, CopyFile(fs, image, cover).value, output, cover);
  }

  /** Writes away from a folder leave the extensions found below it as
      they were. */
  lemma PresentInUnaffected(fs: Fs, fs': Fs, root: Path, src: Path, exts: seq<(string, string)>)
    requires WritesWithin(fs, fs', root) && Disjoint(root, src)
    ensures PresentIn(fs', src, exts) == PresentIn(fs, src, exts)
  {
    forall e ensures Matches(fs', src, e) == Matches(fs, src, e) {
      MatchesFrame(fs, fs', root, src, e);
    }
    PresentInFrame(fs, fs', src, exts);
  }

  /** `_process_unsupported` runs through once the `Unsupported` folder and
      the model folder exist. */
  lemma UnsupportedTierRuns(fs: Fs, folder: Path, output: Path, ignored: seq<string>, name: string)
    requires IsDir(fs, output + ["Unsupported"]) && IsDir(fs, folder)
    ensures UnsupportedTier(fs, folder, output, ignored, name).error.None?
  {
    var loc := output + ["Unsupported", name];
    assert loc == output + ["Unsupported"] + [name];
    ChildPath(output + ["Unsupported"], name);
  }

  /** The unsupported step of a prepared run: it succeeds, keeps the
      listing valid, and leaves the pre-supported folder, the files directly
      in the output folder and the matches below `Pre-Supported` alone. */
  lemma TiersUnsupportedStep(fs: Fs, folder: Path, output: Path, name: string, cover: Path)
    requires Valid(fs) && Disjoint(folder, output)
    requires GatherFilename(Name(folder)) == Ok(name)
    requires IsDir(fs, output + ["Unsupported"]) && IsDir(fs, output + ["Presupported"]) && IsDir(fs, folder)
    requires cover in fs.files && |cover| == |output| + 1
    ensures var u := ProcessUnsupported(fs, folder, output, Some([PresupportedLocation]));
      && u.error.None? && Valid(u.fs)
      && IsDir(u.fs, output + ["Presupported"])
      && cover in u.fs.files && u.fs.files[cover] == fs.files[cover]
      && PresentIn(u.fs, folder + [PresupportedLocation], ModelExtensions)
         == PresentIn(fs, folder + [PresupportedLocation], ModelExtensions)
  {
    var src := folder + [PresupportedLocation];
    var u := ProcessUnsupported(fs, folder, output, Some([PresupportedLocation]));
    UnsupportedTierRuns(fs, folder, output, [PresupportedLocation], name);
    assert u == UnsupportedTier(fs, folder, output, [PresupportedLocation], name);
    ProcessUnsupportedWrites(fs, folder, output, Some([PresupportedLocation]), name);
    var loc := output + ["Unsupported", name];
    UnsupportedApart(folder, output, name, cover);
    PresentInUnaffected(fs, u.fs, loc, src, ModelExtensions);
  }

  /** The unsupported destination lies apart from the pre-supported source
      and does not hold the files directly in the output folder. */
  lemma UnsupportedApart(folder: Path, output: Path, name: string, cover: Path)
    requires Disjoint(folder, output) && |cover| == |output| + 1
    ensures Disjoint(output + ["Unsupported", name], folder + [PresupportedLocation])
    ensures !Within(output + ["Unsupported", name], cover)
  {
    var loc := output + ["Unsupported", name];
    assert loc == output + ["Unsupported"] + [name];
    DisjointChild(folder, output, "Unsupported");
    DisjointChild(folder, output + ["Unsupported"], name);
    DisjointChild(loc, folder, PresupportedLocation);
  }

  /** The supported step of a prepared run: it succeeds, reports the
      extensions found below `Pre-Supported`, and leaves the files directly
      in the output folder alone. */
  lemma TiersSupportedStep(fs: Fs, folder: Path, output: Path, name: string, cover: Path)
    requires Valid(fs) && Disjoint(folder, output)
    requires GatherFilename(Name(folder)) == Ok(name)
    requires IsDir(fs, output + ["Presupported"])
    requires cover in fs.files && |cover| == |output| + 1
    ensures var s := ProcessSupported(fs, folder, output, PresupportedLocation);
      && s.Ok?
      && s.value.1 == PresentIn(fs, folder + [PresupportedLocation], ModelExtensions)
      && cover in s.value.0.files && s.value.0.files[cover] == fs.files[cover]
  {
    ProcessSupportedPresent(fs, folder, output, PresupportedLocation, name);
    var s := ProcessSupported(fs, folder, output, PresupportedLocation);
    assert s == SupportedTier(fs, folder, output, PresupportedLocation, name);
    SupportedTierWrites(fs, folder, output, PresupportedLocation, name);
    var loc := output + ["Presupported", name];
    assert !Within(loc, cover);
    assert WritesWithin(fs, s.value.0, loc);
  }

  /** With both tier folders prepared and the model outside the output,
      the tiers succeed, leave files directly in the output folder alone,
      and warn about missing pre-supported files exactly when no known model
      extension occurs below `Pre-Supported`. */
  lemma TiersSucceed(fs: Fs, folder: Path, output: Path, name: string, cover: Path)
    requires Valid(fs) && Disjoint(folder, output)
    requires GatherFilename(Name(folder)) == Ok(name)
    requires IsDir(fs, output + ["Unsupported"]) && IsDir(fs, output + ["Presupported"]) && IsDir(fs, folder)
    requires cover in fs.files && |cover| == |output| + 1
    ensures var r := ProcessTiers(fs, folder, output, name);
      && r.error.None?
      && cover in r.fs.files && r.fs.files[cover] == fs.files[cover]
      && (r.warnings == [NoPresupported(folder)] <==>
            PresentIn(fs, folder + [PresupportedLocation], ModelExtensions) == [])
  {
    var u := ProcessUnsupported(fs, folder, output, Some([PresupportedLocation]));
    TiersUnsupportedStep(fs, folder, output, name, cover);
    TiersSupportedStep(u.fs, folder, output, name, cover);
  }

  /** With the output prepared by `prepare_folders` and the model folder
      outside it, `process_single_model_folder` fails exactly when the
      model has no clean name or no unique cover image, and then writes
      nothing. */
  lemma SingleModelErrors(fs: Fs, folder: Path, output: Path)
    requires Valid(fs) && Disjoint(folder, output)
    requires IsDir(fs, output) && IsDir(fs, output + ["Unsupported"]) && IsDir(fs, output + ["Presupported"])
    ensures var r := ProcessSingleModel(fs, folder, output);
      && (r.error.Some? <==> GatherFilename(Name(folder)).Err? || DetectImageLocation(fs, folder).Err?)
      && (r.error.Some? ==> r.fs == fs && r.warnings == [])
      && (GatherFilename(Name(folder)).Ok? && DetectImageLocation(fs, folder).Err? ==>
            r.error == Some(DetectImageLocation(fs, folder).error))
  {
    if GatherFilename(Name(folder)).Ok? && DetectImageLocation(fs, folder).Ok? {
      var name := GatherFilename(Name(folder)).value;
      var image := DetectImageLocation(fs, folder).value;
      SingleModelSucceeds(fs, folder, output, name, image);
    }
  }

  /** The successful run: the cover image is copied under the model's clean
      name, and the "no pre-supported files" warning comes exactly when no
      known model extension occurs below `Pre-Supported`. */
  lemma SingleModelSucceeds(fs: Fs, folder: Path, output: Path, name: string, image: Path)
    requires Valid(fs) && Disjoint(folder, output)
    requires IsDir(fs, output) && IsDir(fs, output + ["Unsupported"]) && IsDir(fs, output + ["Presupported"])
    requires GatherFilename(Name(folder)) == Ok(name) && DetectImageLocation(fs, folder) == Ok(image)
    ensures var r := ProcessSingleModel(fs, folder, output);
      && r.error.None?
      && CoverTarget(output, name, image) in r.fs.files
      && r.fs.files[CoverTarget(output, name, image)] == fs.files[image]
      && (r.warnings == [NoPresupported(folder)] <==>
            PresentIn(fs, folder + [PresupportedLocation], ModelExtensions) == [])
  {
    var cover := CoverTarget(output, name, image);
    ChildPath(output, name + Suffix(Name(image)));
    var fs1 := CopyFile(fs, image, cover).value;
    CopyFileWrites(fs, image, cover);
    var src := folder + [PresupportedLocation];
    DisjointChild(folder, output, name + Suffix(Name(image)));
    DisjointChild(cover, folder, PresupportedLocation);
    PresentInUnaffected(fs, fs1, cover, src, ModelExtensions);
    TiersSucceed(fs1, folder, output, name, cover);
    assert ProcessSingleModel(fs, folder, output) == ProcessTiers(fs1, folder, output, name);
  }
}

=== FILE: connector.dfy ===
/** What the connectors share beyond extraction: the folders they create
    for a model, and what a run leaves behind.  The connectors log warnings
    and let exceptions propagate; files written before an exception stay on
    disk. */
module Connector {
  import opened Wrappers
  import opened FileSystem

  /** The two warnings `process_single_model_folder` logs. */
  datatype Warning =
    | NoPresupported(model: Path)
      // "Did not find presupported files for file <model>!"
    | Inconsistency(model: Path, unsupported: nat, supported: nat, location: string)
      // "Found inconsistency in file <model>: <unsupported> in non-supported vs <supported> in <location>"

  /** The filesystem with every write made before the run stopped, the
      warnings logged on the way, and the exception that stopped the run,
      if any. */
  datatype Outcome = Outcome(fs: Fs, warnings: seq<Warning>, error: Option<Error>)

  function Done(fs: Fs): Outcome {
    Outcome(fs, [], None)
  }

  function Failed(fs: Fs, e: Error): Outcome {
    Outcome(fs, [], Some(e))
  }

  /** `loc.mkdir(exist_ok=True)` followed by `(loc / "Models").mkdir(exist_ok=True)`:
      fails only when the parent of `loc` is missing, naming `loc`. */
  function MakeModelDirs(fs: Fs, loc: Path): (r: Result<Fs>)
    ensures r.Ok? <==> IsDir(fs, loc) || IsDir(fs, Parent(loc))
    ensures r.Err? ==> r == Err(FileNotFound(loc))
    ensures r.Ok? ==> r.value.files == fs.files && fs.dirs <= r.value.dirs
    ensures r.Ok? ==> IsDir(r.value, loc) && IsDir(r.value, loc + ["Models"])
    ensures r.Ok? ==> WritesWithin(fs, r.value, loc)
    ensures r.Ok? && Valid(fs) ==> Valid(r.value)
  {
    match Mkdir(fs, loc)
    case Err(e) => Err(e)
    case Ok(fs1) =>
      ChildPath(loc, "Models");
      MkdirWrites(fs, loc);
      var fs2 := Mkdir(fs1, loc + ["Models"]).value;
      MkdirWrites(fs1, loc + ["Models"]);
      WritesWithinChain(fs, fs1, fs2, loc, loc, loc + ["Models"]);
      Ok(fs2)
  }
}

=== FILE: extraction.dfy ===
/** `extract_all_files_of_given_extension`, shared verbatim by both vendor
    connectors: every file below `folder` whose name ends with the extension
    is copied to `output` joined with its path relative to `folder`, minus the
    path components named in `remove`.  Returns whether any file matched. */
module Extraction {
  import opened Wrappers
  import opened PyStr
  import opened FileSystem

  /** `MODEL_EXTENSIONS_MAP`, identical in both connectors, in its
      iteration order: each model file extension with the folder its files
      are sorted into. */
  const ModelExtensions: seq<(string, string)> := [(".stl", "STL"), (".lys", "LYS"), (".chitubox", "CHITU")]

  /** `set(MODEL_EXTENSIONS_MAP.values())`: the path components dropped from
      every copied file's relative path. */
  const ModelFolders: set<string> := {"STL", "LYS", "CHITU"}

  /** The extension with a leading dot, added when missing. */
  function NormalizeExtension(extension: string): (r: string)
    ensures StartsWith(r, ".")
    ensures StartsWith(extension, ".") ==> r == extension
    ensures !StartsWith(extension, ".") ==> r == "." + extension
  {
    if |extension| > 0 && extension[0] == '.' then extension else "." + extension
  }

  /** The files `folder.rglob("*" + extension)` yields. */
  function Matches(fs: Fs, folder: Path, extension: string): set<Path> {
    set p | p in fs.files && Under(folder, p) && EndsWith(Name(p), NormalizeExtension(extension))
  }

  /** The components of `parts` that are not in `remove`, in order. */
  function StripParts(parts: seq<string>, remove: set<string>): (r: seq<string>)
    ensures forall x :: x in r <==> x in parts && x !in remove
    ensures |parts| > 0 && parts[|parts| - 1] !in remove ==> |r| > 0 && r[|r| - 1] == parts[|parts| - 1]
    decreases |parts|
  {
    if |parts| == 0 then []
    else
      var last := parts[|parts| - 1];
      StripParts(parts[..|parts| - 1], remove) + (if last in remove then [] else [last])
  }

  /** Filtering keeps the order of the kept components: the parts of a
      concatenation are filtered piece by piece. */
  lemma {:induction false} StripPartsAppend(a: seq<string>, b: seq<string>, remove: set<string>)
    ensures StripParts(a + b, remove) == StripParts(a, remove) + StripParts(b, remove)
    decreases |b|
  {
    if |b| == 0 {
      assert a + b == a;
    } else {
      var b', x := b[..|b| - 1], b[|b| - 1];
      var keep := if x in remove then [] else [x];
      assert (a + b)[..|a + b| - 1] == a + b' && (a + b)[|a + b| - 1] == x;
      assert StripParts(a + b, remove) == StripParts(a + b', remove) + keep;
      assert StripParts(b, remove) == StripParts(b', remove) + keep;
      StripPartsAppend(a, b', remove);
    }
  }

  /** A single component is kept exactly when it is not removed. */
  lemma StripPartsOne(x: string, remove: set<string>)
    ensures StripParts([x], remove) == if x in remove then [] else [x]
  {
    assert [x][..0] == [];
  }

  /** The path of `p` relative to `folder`. */
  function Relative(folder: Path, p: Path): Path {
    if |folder| <= |p| then p[|folder|..] else []
  }

  /** Where a matched file is copied to. */
  function Target(folder: Path, output: Path, remove: set<string>, p: Path): Path {
    output + StripParts(Relative(folder, p), remove)
  }

  function Elems(xs: seq<Path>): set<Path> {
    set p | p in xs
  }

  function TargetSet(m: set<Path>, folder: Path, output: Path, remove: set<string>): set<Path> {
    set p | p in m :: Target(folder, output, remove, p)
  }

  /** The directories `target.parent.mkdir(parents=True)` creates for the files in `m`. */
  function DirsFor(m: set<Path>, folder: Path, output: Path, remove: set<string>): set<Path> {
    set p, q | p in m && q in Prefixes(Parent(Target(folder, output, remove, p))) :: q
  }

  /** No two matched files are copied to the same place. */
  predicate TargetsDistinct(m: set<Path>, folder: Path, output: Path, remove: set<string>) {
    forall a, b :: a in m && b in m && a != b ==> Target(folder, output, remove, a) != Target(folder, output, remove, b)
  }

  lemma TargetWithinOutput(folder: Path, output: Path, remove: set<string>, p: Path)
    ensures Within(output, Target(folder, output, remove, p))
  {
    var t := Target(folder, output, remove, p);
    assert t[..|output|] == output;
  }

  /** A file whose name is not a removed component keeps its name. */
  lemma TargetKeepsName(folder: Path, output: Path, remove: set<string>, p: Path)
    requires Under(folder, p) && Name(p) !in remove
    ensures Name(Target(folder, output, remove, p)) == Name(p)
  {
    var rel := Relative(folder, p);
    assert rel[|rel| - 1] == Name(p);
  }

  /** Copies one matched file: creates the target's directory, then writes
      the file there. */
  function CopyOne(fs: Fs, src: Path, folder: Path, output: Path, remove: set<string>): (r: Fs)
    requires src in fs.files
    ensures r.files == fs.files[Target(folder, output, remove, src) := fs.files[src]]
    ensures r.dirs == fs.dirs + Prefixes(Parent(Target(folder, output, remove, src)))
    ensures Valid(fs) ==> Valid(r)
  {
    var t := Target(folder, output, remove, src);
    Put(MkdirAll(fs, Parent(t)), t, fs.files[src])
  }

  /** Copies each file of `srcs`, in order, to its target. */
  function CopyEach(fs: Fs, srcs: seq<Path>, folder: Path, output: Path, remove: set<string>): (r: Fs)
    requires forall i :: 0 <= i < |srcs| ==> srcs[i] in fs.files
    ensures fs.files.Keys <= r.files.Keys && fs.dirs <= r.dirs
    decreases |srcs|
  {
    if |srcs| == 0 then fs
    else CopyEach(CopyOne(fs, srcs[0], folder, output, remove), srcs[1..], folder, output, remove)
  }

  lemma ElemsCons(xs: seq<Path>)
    requires |xs| > 0
    ensures Elems(xs) == {xs[0]} + Elems(xs[1..])
  {
    assert xs == [xs[0]] + xs[1..];
  }

  lemma TargetSetCons(x: Path, m: set<Path>, folder: Path, output: Path, remove: set<string>)
    ensures TargetSet({x} + m, folder, output, remove) == {Target(folder, output, remove, x)} + TargetSet(m, folder, output, remove)
  {
  }

  lemma DirsForCons(x: Path, m: set<Path>, folder: Path, output: Path, remove: set<string>)
    ensures DirsFor({x} + m, folder, output, remove) == Prefixes(Parent(Target(folder, output, remove, x))) + DirsFor(m, folder, output, remove)
  {
    var lhs := DirsFor({x} + m, folder, output, remove);
    var rhs := Prefixes(Parent(Target(folder, output, remove, x))) + DirsFor(m, folder, output, remove);
    forall q | q in lhs ensures q in rhs {
      var p :| p in {x} + m && q in Prefixes(Parent(Target(folder, output, remove, p)));
    }
  }

  /** What copying a sequence of files does: the targets appear, the
      directories above them appear, every other file is untouched, and the
      listing stays valid. */
  lemma CopyEachEffect(fs: Fs, srcs: seq<Path>, folder: Path, output: Path, remove: set<string>)
    requires forall i :: 0 <= i < |srcs| ==> srcs[i] in fs.files
    ensures var r := CopyEach(fs, srcs, folder, output, remove);
      && r.files.Keys == fs.files.Keys + TargetSet(Elems(srcs), folder, output, remove)
      && r.dirs == fs.dirs + DirsFor(Elems(srcs), folder, output, remove)
      && (forall p :: p in fs.files && p !in TargetSet(Elems(srcs), folder, output, remove) ==> r.files[p] == fs.files[p])
      && (Valid(fs) ==> Valid(r))
  {
    CopyEachKeys(fs, srcs, folder, output, remove);
    CopyEachDirs(fs, srcs, folder, output, remove);
    CopyEachKeeps(fs, srcs, folder, output, remove);
    CopyEachValid(fs, srcs, folder, output, remove);
  }

  lemma {:induction false} CopyEachKeys(fs: Fs, srcs: seq<Path>, folder: Path, output: Path, remove: set<string>)
    requires forall i :: 0 <= i < |srcs| ==> srcs[i] in fs.files
    ensures CopyEach(fs, srcs, folder, output, remove).files.Keys == fs.files.Keys + TargetSet(Elems(srcs), folder, output, remove)
    decreases |srcs|
  {
    if |srcs| > 0 {
      var fs1 := CopyOne(fs, srcs[0], folder, output, remove);
      CopyEachKeys(fs1, srcs[1..], folder, output, remove);
      ElemsCons(srcs);
      TargetSetCons(srcs[0], Elems(srcs[1..]), folder, output, remove);
    }
  }

  lemma {:induction false} CopyEachDirs(fs: Fs, srcs: seq<Path>, folder: Path, output: Path, remove: set<string>)
    requires forall i :: 0 <= i < |srcs| ==> srcs[i] in fs.files
    ensures CopyEach(fs, srcs, folder, output, remove).dirs == fs.dirs + DirsFor(Elems(srcs), folder, output, remove)
    decreases |srcs|
  {
    if |srcs| > 0 {
      var fs1 := CopyOne(fs, srcs[0], folder, output, remove);
      CopyEachDirs(fs1, srcs[1..], folder, output, remove);
      ElemsCons(srcs);
      DirsForCons(srcs[0], Elems(srcs[1..]), folder, output, remove);
    }
  }

  lemma {:induction false} CopyEachKeeps(fs: Fs, srcs: seq<Path>, folder: Path, output: Path, remove: set<string>)
    requires forall i :: 0 <= i < |srcs| ==> srcs[i] in fs.files
    ensures var r := CopyEach(fs, srcs, folder, output, remove);
      forall p :: p in fs.files && p !in TargetSet(Elems(srcs), folder, output, remove) ==> r.files[p] == fs.files[p]
    decreases |srcs|
  {
    if |srcs| > 0 {
      var fs1 := CopyOne(fs, srcs[0], folder, output, remove);
      CopyEachKeeps(fs1, srcs[1..], folder, output, remove);
      ElemsCons(srcs);
      TargetSetCons(srcs[0], Elems(srcs[1..]), folder, output, remove);
    }
  }

  lemma {:induction false} CopyEachValid(fs: Fs, srcs: seq<Path>, folder: Path, output: Path, remove: set<string>)
    requires forall i :: 0 <= i < |srcs| ==> srcs[i] in fs.files
    ensures Valid(fs) ==> Valid(CopyEach(fs, srcs, folder, output, remove))
    decreases |srcs|
  {
    if |srcs| > 0 {
      var fs1 := CopyOne(fs, srcs[0], folder, output, remove);
      CopyEachValid(fs1, srcs[1..], folder, output, remove);
    }
  }

  /** `extract_all_files_of_given_extension(folder, extension, output, remove)`:
      the flag it returns and the filesystem afterwards. */
  function Extract(fs: Fs, folder: Path, extension: string, output: Path, remove: set<string>): (r: (bool, Fs))
    ensures Matches(fs, folder, extension) == {} ==> r == (false, fs)
    ensures r.0 ==> Matches(fs, folder, extension) != {}
    ensures fs.files.Keys <= r.1.files.Keys && fs.dirs <= r.1.dirs
  {
    var srcs := Enumerate(fs, Matches(fs, folder, extension));
    (|srcs| > 0, CopyEach(fs, srcs, folder, output, remove))
  }

  /** `fs'` holds, at every target of `m`, the content of the file copied
      there, and agrees with `fs` everywhere else. */
  predicate CopiedFrom(fs: Fs, fs': Fs, m: set<Path>, folder: Path, output: Path, remove: set<string>)
    requires m <= fs.files.Keys
  {
    && fs'.files.Keys == fs.files.Keys + TargetSet(m, folder, output, remove)
    && (forall p :: p in m ==> Target(folder, output, remove, p) in fs'.files && fs'.files[Target(folder, output, remove, p)] == fs.files[p])
    && (forall p :: p in fs.files && p !in TargetSet(m, folder, output, remove) ==> p in fs'.files && fs'.files[p] == fs.files[p])
  }

  /** The first file copied is not the target of any later one. */
  lemma FirstTargetNotLater(srcs: seq<Path>, folder: Path, output: Path, remove: set<string>)
    requires |srcs| > 0 && Distinct(srcs) && TargetsDistinct(Elems(srcs), folder, output, remove)
    ensures Target(folder, output, remove, srcs[0]) !in TargetSet(Elems(srcs[1..]), folder, output, remove)
  {
    var rest := srcs[1..];
    forall p | p in Elems(rest) ensures Target(folder, output, remove, p) != Target(folder, output, remove, srcs[0]) {
      var i :| 0 <= i < |rest| && rest[i] == p;
      assert srcs[i + 1] == p;
    }
  }

  /** A copy of files that lie outside `output` leaves every source intact
      and puts each source's content at its own target. */
  lemma {:induction false} CopyEachContent(fs: Fs, srcs: seq<Path>, folder: Path, output: Path, remove: set<string>)
    requires forall i :: 0 <= i < |srcs| ==> srcs[i] in fs.files && !Within(output, srcs[i])
    requires Distinct(srcs) && TargetsDistinct(Elems(srcs), folder, output, remove)
    ensures var r := CopyEach(fs, srcs, folder, output, remove);
      forall i :: 0 <= i < |srcs| ==> Target(folder, output, remove, srcs[i]) in r.files && r.files[Target(folder, output, remove, srcs[i])] == fs.files[srcs[i]]
    decreases |srcs|
  {
    if |srcs| > 0 {
      var t0 := Target(folder, output, remove, srcs[0]);
      var fs1 := CopyOne(fs, srcs[0], folder, output, remove);
      var rest := srcs[1..];
      var r := CopyEach(fs1, rest, folder, output, remove);
      TargetWithinOutput(folder, output, remove, srcs[0]);
      forall i | 0 <= i < |rest| ensures rest[i] in fs1.files && fs1.files[rest[i]] == fs.files[rest[i]] {
        assert rest[i] == srcs[i + 1];
      }
      ElemsCons(srcs);
      assert TargetsDistinct(Elems(rest), folder, output, remove);
      CopyEachContent(fs1, rest, folder, output, remove);
      CopyEachEffect(fs1, rest, folder, output, remove);
      FirstTargetNotLater(srcs, folder, output, remove);
      assert r.files[t0] == fs.files[srcs[0]];
      forall i | 0 <= i < |srcs|
        ensures Target(folder, output, remove, srcs[i]) in r.files && r.files[Target(folder, output, remove, srcs[i])] == fs.files[srcs[i]]
      {
        if i > 0 { assert srcs[i] == rest[i - 1]; }
      }
    }
  }

  /** A target of a copy never lies below the searched folder when the two
      folders are disjoint, so the copies are not matched again. */
  lemma TargetNotUnder(folder: Path, output: Path, remove: set<string>, p: Path)
    requires Disjoint(folder, output)
    ensures !Under(folder, Target(folder, output, remove, p))
  {
    var t := Target(folder, output, remove, p);
    TargetWithinOutput(folder, output, remove, p);
    AncestorsNested(folder, output, t);
  }

  /** Everything `extract_all_files_of_given_extension` does, for a valid
      filesystem: it reports whether anything matched, copies each match to
      its target, creates the target directories, and writes only below
      `output`. */
  lemma ExtractEffect(fs: Fs, folder: Path, extension: string, output: Path, remove: set<string>)
    requires Valid(fs)
    ensures var r := Extract(fs, folder, extension, output, remove);
      var m := Matches(fs, folder, extension);
      && (r.0 <==> m != {})
      && Valid(r.1)
      && r.1.files.Keys == fs.files.Keys + TargetSet(m, folder, output, remove)
      && r.1.dirs == fs.dirs + DirsFor(m, folder, output, remove)
      && (forall p :: p in fs.files && p !in TargetSet(m, folder, output, remove) ==> r.1.files[p] == fs.files[p])
      && WritesWithin(fs, r.1, output)
  {
    var m := Matches(fs, folder, extension);
    var srcs := Enumerate(fs, m);
    assert Elems(srcs) == m;
    CopyEachEffect(fs, srcs, folder, output, remove);
    var r := Extract(fs, folder, extension, output, remove);
    if m != {} {
      var p :| p in m;
      assert p in srcs;
    }
    TargetsWithin(m, folder, output, remove);
    DirsForNested(m, folder, output, remove);
    WritesWithinFromSets(fs, r.1, output, TargetSet(m, folder, output, remove), DirsFor(m, folder, output, remove));
  }

  /** Every target lies below the output folder. */
  lemma TargetsWithin(m: set<Path>, folder: Path, output: Path, remove: set<string>)
    ensures forall p :: p in TargetSet(m, folder, output, remove) ==> Within(output, p)
  {
    forall p | p in TargetSet(m, folder, output, remove) ensures Within(output, p) {
      var q :| q in m && p == Target(folder, output, remove, q);
      TargetWithinOutput(folder, output, remove, q);
    }
  }

  /** Every directory created for a target is nested with the output
      folder. */
  lemma DirsForNested(m: set<Path>, folder: Path, output: Path, remove: set<string>)
    ensures forall p :: p in DirsFor(m, folder, output, remove) ==> Nested(output, p)
  {
    forall p | p in DirsFor(m, folder, output, remove) ensures Nested(output, p) {
      var q, d :| q in m && d in Prefixes(Parent(Target(folder, output, remove, q))) && p == d;
      TargetWithinOutput(folder, output, remove, q);
      PrefixesNested(output, Target(folder, output, remove, q));
    }
  }

  /** Adding files below `root`, and directories nested with it, while
      keeping every other file is writing within `root`. */
  lemma WritesWithinFromSets(fs: Fs, fs': Fs, root: Path, ts: set<Path>, ds: set<Path>)
    requires fs'.files.Keys == fs.files.Keys + ts && fs'.dirs == fs.dirs + ds
    requires forall p :: p in ts ==> Within(root, p)
    requires forall p :: p in ds ==> Nested(root, p)
    requires forall p :: p in fs.files && p !in ts ==> fs'.files[p] == fs.files[p]
    ensures WritesWithin(fs, fs', root)
  {
  }

  /** When the output lies outside the searched folder and no two matches
      share a target, every match's content arrives at its target. */
  lemma ExtractCopies(fs: Fs, folder: Path, extension: string, output: Path, remove: set<string>)
    requires Valid(fs) && Disjoint(folder, output)
    requires TargetsDistinct(Matches(fs, folder, extension), folder, output, remove)
    ensures CopiedFrom(fs, Extract(fs, folder, extension, output, remove).1, Matches(fs, folder, extension), folder, output, remove)
  {
    var m := Matches(fs, folder, extension);
    var srcs := Enumerate(fs, m);
    assert Elems(srcs) == m;
    forall i | 0 <= i < |srcs| ensures !Within(output, srcs[i]) {
      assert srcs[i] in m;
      AncestorsNested(folder, output, srcs[i]);
    }
    CopyEachContent(fs, srcs, folder, output, remove);
    ExtractEffect(fs, folder, extension, output, remove);
    forall p | p in m
      ensures Target(folder, output, remove, p) in Extract(fs, folder, extension, output, remove).1.files
    {
      assert p in srcs;
    }
  }

  /** Two results that are both copies of the same files agree. */
  lemma CopiedFromUnique(fs: Fs, a: Fs, b: Fs, m: set<Path>, folder: Path, output: Path, remove: set<string>)
    requires m <= fs.files.Keys
    requires CopiedFrom(fs, a, m, folder, output, remove) && CopiedFrom(fs, b, m, folder, output, remove)
    ensures a.files == b.files
  {
    forall p | p in a.files ensures a.files[p] == b.files[p] {
      if p in TargetSet(m, folder, output, remove) {
        var q :| q in m && p == Target(folder, output, remove, q);
      }
    }
  }

  /** The order in which the operating system lists the files does not
      change the outcome, as long as no two matches share a target. */
  lemma ExtractOrderIrrelevant(fs: Fs, fs': Fs, folder: Path, extension: string, output: Path, remove: set<string>)
    requires Valid(fs) && Valid(fs') && fs.files == fs'.files && fs.dirs == fs'.dirs
    requires Disjoint(folder, output)
    requires TargetsDistinct(Matches(fs, folder, extension), folder, output, remove)
    ensures var r := Extract(fs, folder, extension, output, remove);
      var r' := Extract(fs', folder, extension, output, remove);
      r.0 == r'.0 && r.1.files == r'.1.files && r.1.dirs == r'.1.dirs
  {
    var m := Matches(fs, folder, extension);
    assert Matches(fs', folder, extension) == m;
    ExtractEffect(fs, folder, extension, output, remove);
    ExtractEffect(fs', folder, extension, output, remove);
    ExtractCopies(fs, folder, extension, output, remove);
    ExtractCopies(fs', folder, extension, output, remove);
    CopiedFromUnique(fs, Extract(fs, folder, extension, output, remove).1, Extract(fs', folder, extension, output, remove).1, m, folder, output, remove);
  }

  /** Running the extraction a second time changes no file and no
      directory: the copies are not matched again and every target already
      holds its content. */
  lemma ExtractIdempotent(fs: Fs, folder: Path, extension: string, output: Path, remove: set<string>)
    requires Valid(fs) && Disjoint(folder, output)
    requires TargetsDistinct(Matches(fs, folder, extension), folder, output, remove)
    ensures var r := Extract(fs, folder, extension, output, remove);
      var r2 := Extract(r.1, folder, extension, output, remove);
      r2.0 == r.0 && r2.1.files == r.1.files && r2.1.dirs == r.1.dirs
  {
    var r := Extract(fs, folder, extension, output, remove);
    ExtractKeepsMatches(fs, folder, extension, output, remove);
    ExtractEffect(fs, folder, extension, output, remove);
    ExtractEffect(r.1, folder, extension, output, remove);
    ExtractAgainSameFiles(fs, folder, extension, output, remove);
  }

  /** The copies land outside the model folder, so the matches stay as they
      were, and none of them is itself a target. */
  lemma ExtractKeepsMatches(fs: Fs, folder: Path, extension: string, output: Path, remove: set<string>)
    requires Valid(fs) && Disjoint(folder, output)
    ensures var m := Matches(fs, folder, extension);
      && Matches(Extract(fs, folder, extension, output, remove).1, folder, extension) == m
      && forall p :: p in m ==> p !in TargetSet(m, folder, output, remove)
  {
    var m := Matches(fs, folder, extension);
    var r := Extract(fs, folder, extension, output, remove);
    ExtractEffect(fs, folder, extension, output, remove);
    TargetsNotUnder(m, folder, output, remove);
    MatchesAfterTargets(fs, r.1, folder, extension, TargetSet(m, folder, output, remove));
  }

  /** No target lies below the model folder. */
  lemma TargetsNotUnder(m: set<Path>, folder: Path, output: Path, remove: set<string>)
    requires Disjoint(folder, output)
    ensures forall p :: p in TargetSet(m, folder, output, remove) ==> !Under(folder, p)
  {
    forall p | p in TargetSet(m, folder, output, remove) ensures !Under(folder, p) {
      var q :| q in m && p == Target(folder, output, remove, q);
      TargetNotUnder(folder, output, remove, q);
    }
  }

  /** Adding files outside the model folder leaves its matches as they
      were. */
  lemma MatchesAfterTargets(fs: Fs, fs': Fs, folder: Path, extension: string, ts: set<Path>)
    requires fs'.files.Keys == fs.files.Keys + ts
    requires forall p :: p in ts ==> !Under(folder, p)
    ensures Matches(fs', folder, extension) == Matches(fs, folder, extension)
  {
  }

  /** A second run writes each target with the content it already holds. */
  lemma ExtractAgainSameFiles(fs: Fs, folder: Path, extension: string, output: Path, remove: set<string>)
    requires Valid(fs) && Disjoint(folder, output)
    requires TargetsDistinct(Matches(fs, folder, extension), folder, output, remove)
    ensures var r := Extract(fs, folder, extension, output, remove);
      Extract(r.1, folder, extension, output, remove).1.files == r.1.files
  {
    var m := Matches(fs, folder, extension);
    var r := Extract(fs, folder, extension, output, remove);
    ExtractKeepsMatches(fs, folder, extension, output, remove);
    ExtractEffect(fs, folder, extension, output, remove);
    ExtractCopies(fs, folder, extension, output, remove);
    ExtractCopies(r.1, folder, extension, output, remove);
    assert CopiedFrom(r.1, r.1, m, folder, output, remove);
    CopiedFromUnique(r.1, Extract(r.1, folder, extension, output, remove).1, r.1, m, folder, output, remove);
  }

  /** `.stl` files two folders deep below the model folder, with the
      vendor folder names removed, land directly in the output folder. */
  lemma StlTargetExample()
    ensures Target(["m"], ["out", "STL"], {"STL", "LYS", "CHITU"}, ["m", "STL", "sub", "a.stl"]) == ["out", "STL", "sub", "a.stl"]
  {
    var parts: seq<string> := ["STL", "sub", "a.stl"];
    assert Relative(["m"], ["m", "STL", "sub", "a.stl"]) == parts;
    StripVendorFolder({"STL", "LYS", "CHITU"});
    StripThree("STL", "sub", "a.stl", {"STL", "LYS", "CHITU"});
  }

  lemma StripVendorFolder(remove: set<string>)
    requires remove == {"STL", "LYS", "CHITU"}
    ensures "STL" in remove && "sub" !in remove && "a.stl" !in remove
  {
    assert "sub"[0] != "STL"[0] && "sub"[0] != "LYS"[0] && "sub"[0] != "CHITU"[0];
    assert "a.stl"[0] != "STL"[0] && "a.stl"[0] != "LYS"[0] && "a.stl"[0] != "CHITU"[0];
  }

  /** A removed folder name followed by two kept components. */
  lemma StripThree(a: string, b: string, c: string, remove: set<string>)
    requires a in remove && b !in remove && c !in remove
    ensures StripParts([a, b, c], remove) == [b, c]
  {
    var xs := [a, b, c];
    assert xs[..2] == [a, b] && xs[..2][..1] == [a] && xs[..2][..1][..0] == [];
    assert StripParts([a], remove) == [];
    assert StripParts([a, b], remove) == [b];
  }

  /** `"stl"` and `".stl"` select the same files. */
  lemma ExtensionDotOptional(fs: Fs, folder: Path, extension: string)
    ensures Matches(fs, folder, extension) == Matches(fs, folder, NormalizeExtension(extension))
  {
  }

  /** The matches of a folder do not change when something is written
      outside it. */
  lemma MatchesFrame(fs: Fs, fs': Fs, root: Path, folder: Path, extension: string)
    requires WritesWithin(fs, fs', root) && Disjoint(root, folder)
    ensures Matches(fs', folder, extension) == Matches(fs, folder, extension)
  {
    FrameDisjoint(fs, fs', root, folder);
    assert forall p :: p in fs'.files && Under(folder, p) ==> p in FilesBelow(fs', folder);
    assert forall p :: p in fs.files && Under(folder, p) ==> p in FilesBelow(fs, folder);
  }
}

=== FILE: filesystem.dfy ===
/** An immutable model of the filesystem the connectors read and write.

    A path is the sequence of its components; the empty path is the root,
    which always exists.  `files` maps every regular file to its bytes,
    `dirs` holds every directory, and `listing` is the order in which the
    operating system lists entries: `iterdir` and `rglob` yield the entries
    they select in that order.  The order is arbitrary, and every property of
    the connectors below is proved for all listings. */
module FileSystem {
  import opened Wrappers

  type Path = seq<string>

  type Content = seq<bv8>

  datatype Fs = Fs(files: map<Path, Content>, dirs: set<Path>, listing: seq<Path>)

  /** `path.name`: the last component. */
  function Name(p: Path): string {
    if |p| == 0 then "" else p[|p| - 1]
  }

  /** `path.parent`. */
  function Parent(p: Path): Path {
    if |p| == 0 then [] else p[..|p| - 1]
  }

  /** `root` is `p` itself or one of its ancestors. */
  predicate Within(root: Path, p: Path) {
    |root| <= |p| && p[..|root|] == root
  }

  /** `p` lies strictly below `folder`, at any depth. */
  predicate Under(folder: Path, p: Path) {
    |folder| < |p| && p[..|folder|] == folder
  }

  /** `p` is a direct child of `folder`. */
  predicate ChildOf(folder: Path, p: Path) {
    |p| == |folder| + 1 && p[..|folder|] == folder
  }

  /** One of the two paths contains the other. */
  predicate Nested(a: Path, b: Path) {
    Within(a, b) || Within(b, a)
  }

  /** Neither folder contains the other. */
  predicate Disjoint(a: Path, b: Path) {
    !Within(a, b) && !Within(b, a)
  }

  predicate IsDir(fs: Fs, p: Path) {
    |p| == 0 || p in fs.dirs
  }

  predicate Distinct<T(==)>(xs: seq<T>) {
    forall i, j :: 0 <= i < j < |xs| ==> xs[i] != xs[j]
  }

  /** The listing names every file and directory exactly once. */
  predicate Valid(fs: Fs) {
    && Distinct(fs.listing)
    && (forall p :: p in fs.files ==> p in fs.listing)
    && (forall p :: p in fs.dirs ==> p in fs.listing)
  }

  lemma WithinTransitive(a: Path, b: Path, c: Path)
    requires Within(a, b) && Within(b, c)
    ensures Within(a, c)
  {
    assert c[..|b|][..|a|] == c[..|a|];
  }

  /** `WithinTransitive`, as an implication usable in any context. */
  lemma WithinTransitiveIf(a: Path, b: Path, c: Path)
    ensures Within(a, b) && Within(b, c) ==> Within(a, c)
  {
    if Within(a, b) && Within(b, c) {
      WithinTransitive(a, b, c);
    }
  }

  /** Two ancestors of the same path are nested. */
  lemma AncestorsNested(a: Path, b: Path, t: Path)
    ensures Within(a, t) && Within(b, t) ==> Within(a, b) || Within(b, a)
  {
    if Within(a, t) && Within(b, t) {
      if |a| <= |b| {
        assert b[..|a|] == t[..|a|];
      } else {
        assert a[..|b|] == t[..|b|];
      }
    }
  }

  /** Adds a newly created entry to the end of the listing. */
  function Record(listing: seq<Path>, p: Path): (r: seq<Path>)
    ensures Distinct(listing) ==> Distinct(r)
    ensures forall q :: q in r <==> q in listing || q == p
  {
    if p in listing then listing else listing + [p]
  }

  /** Writes `content` at `p`, creating or overwriting the file. */
  function Put(fs: Fs, p: Path, content: Content): (r: Fs)
    ensures Valid(fs) ==> Valid(r)
  {
    Fs(fs.files[p := content], fs.dirs, Record(fs.listing, p))
  }

  /** The non-empty prefixes of `p`: `p` and all its ancestors but the root. */
  function Prefixes(p: Path): set<Path> {
    set k | 0 < k <= |p| :: p[..k]
  }

  /** `p.mkdir(parents=True, exist_ok=True)`. */
  function MkdirAll(fs: Fs, p: Path): (r: Fs)
    ensures r.files == fs.files
    ensures r.dirs == fs.dirs + Prefixes(p)
    ensures Valid(fs) ==> Valid(r)
    decreases |p|
  {
    if |p| == 0 then fs
    else
      var fs1 := MkdirAll(fs, p[..|p| - 1]);
      assert Prefixes(p) == Prefixes(p[..|p| - 1]) + {p} by {
        forall q | q in Prefixes(p) ensures q in Prefixes(p[..|p| - 1]) + {p} {
          var k :| 0 < k <= |p| && q == p[..k];
          if k < |p| { assert q == p[..|p| - 1][..k]; } else { assert q == p; }
        }
        forall q | q in Prefixes(p[..|p| - 1]) ensures q in Prefixes(p) {
          var k :| 0 < k <= |p| - 1 && q == p[..|p| - 1][..k];
          assert q == p[..k];
        }
        assert p == p[..|p|];
      }
      Fs(fs1.files, fs1.dirs + {p}, Record(fs1.listing, p))
  }

  /** `p.mkdir(exist_ok=True)` without `parents`: fails when the parent
      directory is missing, with a `FileNotFoundError` that names `p`, the
      directory `os.mkdir` was asked to create. */
  function Mkdir(fs: Fs, p: Path): (r: Result<Fs>)
    ensures r.Ok? <==> IsDir(fs, p) || IsDir(fs, Parent(p))
    ensures r.Err? ==> r == Err(FileNotFound(p))
    ensures r.Ok? ==> IsDir(r.value, p)
    ensures r.Ok? ==> r.value.files == fs.files && fs.dirs <= r.value.dirs <= fs.dirs + {p}
    ensures r.Ok? && Valid(fs) ==> Valid(r.value)
  {
    if IsDir(fs, p) then Ok(fs)
    else if IsDir(fs, Parent(p)) then Ok(Fs(fs.files, fs.dirs + {p}, Record(fs.listing, p)))
    else Err(FileNotFound(p))
  }

  /** `shutil.copy2(src, dst)` onto a file path.  It checks, in this order,
      that source and target are not the same file, that the source can be
      opened and that the target can be created in its directory; each
      failure raises, naming the path concerned. */
  function CopyFile(fs: Fs, src: Path, dst: Path): (r: Result<Fs>)
    ensures r.Ok? <==> src in fs.files && src != dst && IsDir(fs, Parent(dst))
    ensures src in fs.files && src == dst ==> r == Err(SameFile(src))
    ensures src !in fs.files ==> r == Err(FileNotFound(src))
    ensures src in fs.files && src != dst && !IsDir(fs, Parent(dst)) ==> r == Err(FileNotFound(dst))
    ensures r.Ok? ==> r.value.files == fs.files[dst := fs.files[src]] && r.value.dirs == fs.dirs
    ensures r.Ok? && Valid(fs) ==> Valid(r.value)
  {
    if src in fs.files && src == dst then Err(SameFile(src))
    else if src !in fs.files then Err(FileNotFound(src))
    else if !IsDir(fs, Parent(dst)) then Err(FileNotFound(dst))
    else Ok(Put(fs, dst, fs.files[src]))
  }

  /** The entries of `xs` that belong to `s`, in the order of `xs`. */
  function Select(xs: seq<Path>, s: set<Path>): (r: seq<Path>)
    ensures forall p :: p in r <==> p in xs && p in s
    ensures Distinct(xs) ==> Distinct(r)
    decreases |xs|
  {
    if |xs| == 0 then []
    else (if xs[0] in s then [xs[0]] else []) + Select(xs[1..], s)
  }

  /** The entries of `s` in listing order. */
  function Enumerate(fs: Fs, s: set<Path>): (r: seq<Path>)
    ensures forall i :: 0 <= i < |r| ==> r[i] in s
    ensures Valid(fs) ==> Distinct(r)
    ensures Valid(fs) && s <= fs.files.Keys + fs.dirs ==> forall p :: p in r <==> p in s
  {
    Select(fs.listing, s)
  }

  /** The direct children of `folder`, files and directories. */
  function Children(fs: Fs, folder: Path): set<Path> {
    set p | p in fs.files.Keys + fs.dirs && ChildOf(folder, p)
  }

  /** The directories directly inside `folder`. */
  function SubDirs(fs: Fs, folder: Path): set<Path> {
    set p | p in fs.dirs && ChildOf(folder, p)
  }

  /** The files below `folder` at any depth. */
  function FilesBelow(fs: Fs, folder: Path): set<Path> {
    set p | p in fs.files && Under(folder, p)
  }

  /** `fs'` differs from `fs` only by files written at or below `root` and
      by new directories at, below or above `root`: nothing is removed and
      nothing outside `root` is overwritten. */
  predicate WritesWithin(fs: Fs, fs': Fs, root: Path) {
    && fs.dirs <= fs'.dirs
    && fs.files.Keys <= fs'.files.Keys
    && (forall p :: p in fs'.dirs && p !in fs.dirs ==> Nested(root, p))
    && (forall p :: p in fs'.files && p !in fs.files ==> Within(root, p))
    && (forall p :: p in fs.files && !Within(root, p) ==> fs'.files[p] == fs.files[p])
  }

  /** The directories `mkdir(parents=True)` creates above a path at or below
      `root` are nested with `root`. */
  lemma PrefixesNested(root: Path, t: Path)
    requires Within(root, t)
    ensures forall q :: q in Prefixes(Parent(t)) ==> Nested(root, q)
  {
    forall q | q in Prefixes(Parent(t)) ensures Nested(root, q) {
      var k :| 0 < k <= |Parent(t)| && q == Parent(t)[..k];
      assert q == t[..k];
      if k >= |root| {
        assert q[..|root|] == t[..|root|];
      } else {
        assert root[..k] == t[..k];
      }
    }
  }

  /** Files and sub-directories of a folder disjoint from `root` are not
      affected by writes within `root`. */
  lemma FrameDisjoint(fs: Fs, fs': Fs, root: Path, folder: Path)
    requires WritesWithin(fs, fs', root) && Disjoint(root, folder)
    ensures FilesBelow(fs', folder) == FilesBelow(fs, folder)
    ensures SubDirs(fs', folder) == SubDirs(fs, folder)
    ensures forall p :: p in fs.files && Under(folder, p) ==> fs'.files[p] == fs.files[p]
  {
    forall p | p in fs'.files && Under(folder, p) ensures p in fs.files {
      AncestorsNested(root, folder, p);
    }
    forall p | p in fs.files && Under(folder, p) ensures fs'.files[p] == fs.files[p] {
      AncestorsNested(root, folder, p);
    }
    forall p | p in fs'.dirs && ChildOf(folder, p) ensures p in fs.dirs {
      assert Within(folder, p);
      AncestorsNested(root, folder, p);
      if p !in fs.dirs && Within(p, root) {
        WithinTransitive(folder, p, root);
      }
    }
  }

  /** Two steps that each write below `root` together write below `root`;
      a step writing below a sub-folder of `root` writes below `root`. */
  lemma WritesWithinChain(a: Fs, b: Fs, c: Fs, root: Path, r1: Path, r2: Path)
    requires WritesWithin(a, b, r1) && WritesWithin(b, c, r2)
    requires Within(root, r1) && Within(root, r2)
    ensures WritesWithin(a, c, root)
  {
    forall p | p in c.dirs && p !in a.dirs ensures Nested(root, p) {
      var r := if p in b.dirs then r1 else r2;
      if Within(r, p) {
        WithinTransitive(root, r, p);
      } else {
        AncestorsNested(root, p, r);
      }
    }
    forall p | p in c.files && p !in a.files ensures Within(root, p) {
      if p in b.files { WithinTransitive(root, r1, p); } else { WithinTransitive(root, r2, p); }
    }
    forall p | p in a.files && !Within(root, p) ensures c.files[p] == a.files[p] {
      if Within(r1, p) { WithinTransitive(root, r1, p); }
      if Within(r2, p) { WithinTransitive(root, r2, p); }
    }
  }

  /** Two rounds of writes below the same folder are one such round. */
  lemma WritesWithinTrans(a: Fs, b: Fs, c: Fs, root: Path)
    requires WritesWithin(a, b, root) && WritesWithin(b, c, root)
    ensures WritesWithin(a, c, root)
  {
    WritesWithinChain(a, b, c, root, root, root);
  }

  /** The same, carrying the valid listing of the last state along. */
  lemma ValidWritesChain(a: Fs, b: Fs, c: Fs, root: Path)
    requires WritesWithin(a, b, root) && Valid(c) && WritesWithin(b, c, root)
    ensures Valid(c) && WritesWithin(a, c, root)
  {
    WritesWithinTrans(a, b, c, root);
  }

  /** Doing nothing writes within any folder. */
  lemma WritesWithinRefl(fs: Fs, root: Path)
    ensures WritesWithin(fs, fs, root)
  {
  }

  /** Writes below a folder are writes below each of its ancestors. */
  lemma WritesWithinWiden(a: Fs, b: Fs, root: Path, r: Path)
    requires WritesWithin(a, b, r) && Within(root, r)
    ensures WritesWithin(a, b, root)
  {
    WritesWithinChain(a, b, b, root, r, r);
  }

  /** `mkdir(parents=True)` of `p` writes within `p`. */
  lemma MkdirAllWrites(fs: Fs, p: Path)
    ensures WritesWithin(fs, MkdirAll(fs, p), p)
  {
    forall q | q in Prefixes(p) ensures Nested(p, q) {
      var k :| 0 < k <= |p| && q == p[..k];
      assert q[..|q|] == p[..k];
    }
  }

  /** A successful `mkdir` of `p` writes within `p`. */
  lemma MkdirWrites(fs: Fs, p: Path)
    requires Mkdir(fs, p).Ok?
    ensures WritesWithin(fs, Mkdir(fs, p).value, p)
  {
  }

  /** A successful copy to `dst` writes within `dst`. */
  lemma CopyFileWrites(fs: Fs, src: Path, dst: Path)
    requires CopyFile(fs, src, dst).Ok?
    ensures WritesWithin(fs, CopyFile(fs, src, dst).value, dst)
  {
  }

  /** A folder disjoint from `root` has all its children disjoint from
      `root` too. */
  lemma DisjointChild(root: Path, folder: Path, c: string)
    requires Disjoint(root, folder)
    ensures Disjoint(root, folder + [c])
  {
    var f := folder + [c];
    assert f[..|folder|] == folder;
    AncestorsNested(root, folder, f);
    WithinTransitiveIf(folder, f, root);
  }

  /** Joining a component and taking the parent and the name again. */
  lemma ChildPath(p: Path, c: string)
    ensures Parent(p + [c]) == p && Name(p + [c]) == c
    ensures ChildOf(p, p + [c]) && Within(p, p + [c])
  {
    assert (p + [c])[..|p|] == p;
  }

  /** A repetition-free listing of a set has as many entries as the set. */
  lemma {:induction false} DistinctCount(xs: seq<Path>, s: set<Path>)
    requires Distinct(xs) && forall p :: p in xs <==> p in s
    ensures |xs| == |s|
    decreases |xs|
  {
    if |xs| > 0 {
      var rest := s - {xs[0]};
      forall p ensures p in xs[1..] <==> p in rest {
        if p in xs[1..] {
          var k :| 0 <= k < |xs[1..]| && xs[1..][k] == p;
          assert xs[k + 1] == p;
        }
        if p in xs && p != xs[0] {
          var k :| 0 <= k < |xs| && xs[k] == p;
          assert xs[1..][k - 1] == p;
        }
      }
      DistinctCount(xs[1..], rest);
    }
  }
}

=== FILE: images.dfy ===
/** Locating a model's cover image: `detect_image_location` in both vendor
    connectors.  The Cast n Play variant accepts the one recognised image
    among the folder's direct children; the Bite the Bullet variant only
    counts images whose name starts with `_`. */
module Images {
  import opened Wrappers
  import opened PyStr
  import opened FileSystem

  /** `IMAGE_EXTENSIONS`, identical in both connectors. */
  const ImageExtensions: set<string> := {".png", ".jpg", ".jpeg", ".gif", ".bmp", ".tiff"}

  /** The position of the last `.` in `s`, as `s.rfind(".")`. */
  function LastDot(s: string): (r: Option<nat>)
    ensures r.Some? ==> r.value < |s| && s[r.value] == '.'
    ensures r.Some? ==> forall j :: r.value < j < |s| ==> s[j] != '.'
    ensures r.None? ==> forall j :: 0 <= j < |s| ==> s[j] != '.'
    decreases |s|
  {
    if |s| == 0 then None
    else if s[|s| - 1] == '.' then Some(|s| - 1)
    else LastDot(s[..|s| - 1])
  }

  /** `PurePath(name).suffix`: from the last dot on, provided that dot is
      neither the first nor the last character; otherwise empty. */
  function Suffix(name: string): (r: string)
    ensures r == "" || (|r| >= 2 && r[0] == '.' && |r| < |name| && EndsWith(name, r))
    ensures r != "" ==> forall j :: 0 < j < |r| ==> r[j] != '.'
    ensures r != "" <==> exists i :: 0 < i < |name| - 1 && name[i] == '.' && forall j :: i < j < |name| ==> name[j] != '.'
  {
    match LastDot(name)
    case None => ""
    case Some(i) => if 0 < i < |name| - 1 then name[i..] else ""
  }

  /** `path.suffix.lower() in IMAGE_EXTENSIONS`. */
  predicate IsImageName(name: string) {
    Lower(Suffix(name)) in ImageExtensions
  }

  /** The recognised image files directly inside `folder`. */
  function Images(fs: Fs, folder: Path): set<Path> {
    set p | p in fs.files && ChildOf(folder, p) && IsImageName(Name(p))
  }

  /** The images among them whose name starts with `_`. */
  function MainImages(fs: Fs, folder: Path): set<Path> {
    set p | p in Images(fs, folder) && StartsWith(Name(p), "_")
  }

  /** The one candidate of a listing, or the exception for none or several. */
  function PickUnique(candidates: seq<Path>, folder: Path): (r: Result<Path>)
    ensures r.Ok? <==> |candidates| == 1
    ensures r.Ok? ==> r.value == candidates[0]
    ensures r == Err(ImageNotFound(folder)) <==> |candidates| == 0
    ensures r == Err(MultipleImagesFound(folder)) <==> |candidates| > 1
  {
    if |candidates| > 1 then Err(MultipleImagesFound(folder))
    else if |candidates| == 0 then Err(ImageNotFound(folder))
    else Ok(candidates[0])
  }

  /** Cast n Play's `detect_image_location(folder)`. */
  function DetectImageLocation(fs: Fs, folder: Path): (r: Result<Path>)
    ensures !IsDir(fs, folder) ==> r == Err(FileNotFound(folder))
    ensures IsDir(fs, folder) && r.Err? ==> r.error == ImageNotFound(folder) || r.error == MultipleImagesFound(folder)
    ensures r.Ok? ==> r.value in Images(fs, folder)
  {
    if !IsDir(fs, folder) then Err(FileNotFound(folder))
    else PickUnique(Enumerate(fs, Images(fs, folder)), folder)
  }

  /** Bite the Bullet's `detect_image_location(folder)`. */
  function DetectMainImageLocation(fs: Fs, folder: Path): (r: Result<Path>)
    ensures !IsDir(fs, folder) ==> r == Err(FileNotFound(folder))
    ensures r.Ok? ==> r.value in MainImages(fs, folder)
  {
    if !IsDir(fs, folder) then Err(FileNotFound(folder))
    else
      var images := Enumerate(fs, Images(fs, folder));
      PickUnique(Select(images, MainImages(fs, folder)), folder)
  }

  /** What a listing of exactly the set `s` leads to. */
  ghost predicate UniqueOutcome(r: Result<Path>, s: set<Path>, folder: Path) {
    && (r.Ok? || r == Err(ImageNotFound(folder)) || r == Err(MultipleImagesFound(folder)))
    && (r.Ok? ==> s == {r.value})
    && (r == Err(ImageNotFound(folder)) <==> s == {})
    && (r == Err(MultipleImagesFound(folder)) <==> exists a, b :: a in s && b in s && a != b)
  }

  /** Picking from a repetition-free listing of `s` depends on `s` alone. */
  lemma PickUniqueOfSet(candidates: seq<Path>, s: set<Path>, folder: Path)
    requires Distinct(candidates) && forall p :: p in candidates <==> p in s
    ensures UniqueOutcome(PickUnique(candidates, folder), s, folder)
  {
    if |candidates| == 0 {
      assert forall p :: p !in s;
    } else if |candidates| == 1 {
      assert s == {candidates[0]};
    } else {
      assert candidates[0] in s && candidates[1] in s;
    }
  }

  /** The cover image is the unique recognised image child; none is
      `ImageNotFound`, two or more is `MultipleImagesFound`. */
  lemma DetectImageSpec(fs: Fs, folder: Path)
    requires Valid(fs) && IsDir(fs, folder)
    ensures UniqueOutcome(DetectImageLocation(fs, folder), Images(fs, folder), folder)
  {
    PickUniqueOfSet(Enumerate(fs, Images(fs, folder)), Images(fs, folder), folder);
  }

  /** The same for the strict variant, counting only `_`-prefixed images. */
  lemma DetectMainImageSpec(fs: Fs, folder: Path)
    requires Valid(fs) && IsDir(fs, folder)
    ensures UniqueOutcome(DetectMainImageLocation(fs, folder), MainImages(fs, folder), folder)
  {
    var images := Enumerate(fs, Images(fs, folder));
    PickUniqueOfSet(Select(images, MainImages(fs, folder)), MainImages(fs, folder), folder);
  }

  /** Selecting from a listing extended by an entry outside the selection
      gives the same result. */
  lemma {:induction false} SelectAppendOther(xs: seq<Path>, q: Path, s: set<Path>)
    requires q !in s
    ensures Select(xs + [q], s) == Select(xs, s)
    decreases |xs|
  {
    if |xs| == 0 {
      assert Select([q], s) == [] + Select([], s);
    } else {
      assert (xs + [q])[1..] == xs[1..] + [q];
      SelectAppendOther(xs[1..], q, s);
    }
  }

  /** Writing a file that is not a recognised image directly inside the
      folder, such as an image in a sub-folder, does not change the cover
      image found. */
  lemma NestedImageIgnored(fs: Fs, folder: Path, q: Path, content: Content)
    requires !(ChildOf(folder, q) && IsImageName(Name(q)))
    ensures DetectImageLocation(Put(fs, q, content), folder) == DetectImageLocation(fs, folder)
  {
    var fs' := Put(fs, q, content);
    assert Images(fs', folder) == Images(fs, folder);
    if q !in fs.listing {
      SelectAppendOther(fs.listing, q, Images(fs, folder));
    }
  }

  /** When every recognised image's name starts with `_`, both variants find
      the same image or raise the same exception. */
  lemma VariantsAgree(fs: Fs, folder: Path)
    requires Valid(fs)
    requires forall p :: p in Images(fs, folder) ==> StartsWith(Name(p), "_")
    ensures DetectMainImageLocation(fs, folder) == DetectImageLocation(fs, folder)
  {
    if IsDir(fs, folder) {
      assert MainImages(fs, folder) == Images(fs, folder);
      DetectImageSpec(fs, folder);
      DetectMainImageSpec(fs, folder);
    }
  }

  /** The strict variant raises `ImageNotFound` when no image name starts
      with `_`, even if the folder holds a recognised image. */
  lemma MainImageRequiresUnderscore(fs: Fs, folder: Path, p: Path)
    requires Valid(fs) && IsDir(fs, folder)
    requires p in Images(fs, folder) && !StartsWith(Name(p), "_")
    requires forall q :: q in Images(fs, folder) ==> !StartsWith(Name(q), "_")
    ensures DetectMainImageLocation(fs, folder) == Err(ImageNotFound(folder))
    ensures DetectImageLocation(fs, folder) != Err(ImageNotFound(folder))
  {
    assert MainImages(fs, folder) == {};
    DetectImageSpec(fs, folder);
    DetectMainImageSpec(fs, folder);
  }

  /** The last dot of `s` is the one with no dot after it. */
  lemma {:induction false} LastDotAt(s: string, i: nat)
    requires i < |s| && s[i] == '.'
    requires forall j :: i < j < |s| ==> s[j] != '.'
    ensures LastDot(s) == Some(i)
    decreases |s|
  {
    if i < |s| - 1 {
      LastDotAt(s[..|s| - 1], i);
    }
  }

  /** The cover image of the documented example is recognised. */
  lemma LowerSuffixExample(a: string)
    requires a == "_2512_ch_elf_rogue.jpg"
    ensures IsImageName(a)
  {
    LastDotAt(a, 18);
    assert Suffix(a) == a[18..] == ".jpg";
    assert Lower(".jpg") == ".jpg";
  }

  /** `.JPG` is recognised like `.jpg`. */
  lemma UpperSuffixExample(b: string)
    requires b == "1014_CastnPlay_ZombifiedElf.JPG"
    ensures IsImageName(b)
  {
    LastDotAt(b, 27);
    assert Suffix(b) == b[27..] == ".JPG";
    assert Lower(".JPG") == ".jpg";
  }

  /** A dot in first place gives no suffix: `.jpg` is not an image. */
  lemma LeadingDotExample(c: string)
    requires c == ".jpg"
    ensures !IsImageName(c)
  {
    LastDotAt(c, 0);
    assert Lower("") == "";
  }

  /** A dot in last place gives no suffix either. */
  lemma TrailingDotExample(d: string)
    requires d == "a.jpg."
    ensures !IsImageName(d)
  {
    LastDotAt(d, 5);
    assert Lower("") == "";
  }
}

=== FILE: modelname.dfy ===
/** Cast n Play's `_gather_filename`: a model folder is named
    `<id>_<title>` or `<id>. <title>`, where `<id>` is whatever Python's
    `int()` accepts, and the clean name is `f"{int(id)}. {title}"`. */
module ModelName {
  import opened Wrappers
  import opened PyStr
  import opened PyInt

  /** `"{n}. {title}"`. */
  function Numbered(n: int, title: string): string {
    IntToString(n) + ". " + title
  }

  /** Reads `name` as `id` + `sep` + `title`: `Some` exactly when
      `name.split(sep)` has two pieces and the first is an integer. */
  function ReadWith(name: string, sep: string): (r: Option<string>)
    requires |sep| > 0
  {
    var parts := Split(name, sep);
    if |parts| == 2 then
      match ParseInt(parts[0])
      case Some(n) => Some(Numbered(n, parts[1]))
      case None => None
    else None
  }

  /** `_gather_filename(path)` for a folder named `name`: the underscore
      rule, then the `". "` rule, then `ModelNameDetectionException`. */
  function GatherFilename(name: string): (r: Result<string>)
    ensures r.Err? ==> r == Err(ModelNameDetection(name))
    ensures r.Ok? ==> Contains(r.value, ". ")
  {
    match ReadWith(name, "_")
    case Some(s) => NumberedHasDot(s); Ok(s)
    case None =>
      match ReadWith(name, ". ")
      case Some(s) => NumberedHasDot(s); Ok(s)
      case None => Err(ModelNameDetection(name))
  }

  /** Every clean name contains the `". "` that separates number and title. */
  lemma NumberedHasDot(s: string)
    requires exists n, title :: s == Numbered(n, title)
    ensures Contains(s, ". ")
  {
    var n, title :| s == Numbered(n, title);
    var k := |IntToString(n)|;
    assert s[k..k + 2] == ". ";
    assert Occurs(s, ". ", k);
  }

  /** The rule with separator `sep` applies at `i`: `sep` occurs there and
      nowhere else, and the text before it is an integer. */
  predicate RuleApplies(name: string, sep: string, i: int) {
    OnlyOccurrence(name, sep, i) && ParseInt(name[..i]).Some?
  }

  /** An occurrence at or after `n` is one in `s[n..]`. */
  lemma OccursShift(s: string, sep: string, n: nat, j: int)
    requires n <= j && Occurs(s, sep, j)
    ensures Occurs(s[n..], sep, j - n)
  {
    assert s[n..][j - n..j - n + |sep|] == s[j..j + |sep|];
  }

  /** Two occurrences of `"_"` or of `". "` never overlap. */
  lemma NoOverlap(s: string, sep: string, i: int, j: int)
    requires sep == "_" || sep == ". "
    requires Occurs(s, sep, i) && Occurs(s, sep, j) && i <= j
    ensures j == i || j >= i + |sep|
  {
    assert s[i] == sep[0] && s[j] == sep[0];
    if sep == ". " {
      assert s[i + 1] == ' ';
    }
  }

  /** For these separators, `s.split(sep)` has two pieces only when `sep`
      occurs exactly once in `s`. */
  lemma TwoPieces(s: string, sep: string)
    requires sep == "_" || sep == ". "
    requires |Split(s, sep)| == 2
    ensures OnlyOccurrence(s, sep, Find(s, sep).value)
  {
    SplitIntoTwo(s, sep);
    var i := Find(s, sep).value;
    forall j | 0 <= j <= |s| && Occurs(s, sep, j) ensures j == i {
      if j >= i + |sep| {
        OccursShift(s, sep, i + |sep|, j);
      } else if j > i {
        NoOverlap(s, sep, i, j);
      }
    }
  }

  /** A rule that applies reads the number and the rest of the name. */
  lemma ReadWithApplies(name: string, sep: string, i: int)
    requires |sep| > 0 && RuleApplies(name, sep, i)
    ensures ReadWith(name, sep) == Some(Numbered(ParseInt(name[..i]).value, name[i + |sep|..]))
  {
    SplitAtOnlyOccurrence(name, sep, i);
  }

  /** A rule reads something only where it applies. */
  lemma ReadWithWitness(name: string, sep: string)
    requires sep == "_" || sep == ". "
    requires ReadWith(name, sep).Some?
    ensures Find(name, sep).Some? && RuleApplies(name, sep, Find(name, sep).value)
  {
    TwoPieces(name, sep);
    SplitIntoTwo(name, sep);
  }

  /** A name with exactly one `_` whose left part is an integer `n` becomes
      `"n. <right part>"`. */
  lemma UnderscoreRuleResult(name: string, i: int)
    requires RuleApplies(name, "_", i)
    ensures GatherFilename(name) == Ok(Numbered(ParseInt(name[..i]).value, name[i + 1..]))
  {
    ReadWithApplies(name, "_", i);
  }

  /** When the underscore rule does not apply, a name with exactly one
      `". "` whose left part is an integer `n` becomes `"n. <right part>"`. */
  lemma DotRuleResult(name: string, i: int)
    requires forall k :: !RuleApplies(name, "_", k)
    requires RuleApplies(name, ". ", i)
    ensures GatherFilename(name) == Ok(Numbered(ParseInt(name[..i]).value, name[i + 2..]))
  {
    ReadWithApplies(name, ". ", i);
    if ReadWith(name, "_").Some? {
      ReadWithWitness(name, "_");
    }
  }

  /** The name is rejected exactly when neither rule applies. */
  lemma GatherFilenameRejects(name: string)
    ensures GatherFilename(name).Err? <==> (forall k :: !RuleApplies(name, "_", k)) && (forall k :: !RuleApplies(name, ". ", k))
  {
    if ReadWith(name, "_").Some? {
      ReadWithWitness(name, "_");
    } else if ReadWith(name, ". ").Some? {
      ReadWithWitness(name, ". ");
    } else {
      forall k | RuleApplies(name, "_", k) ensures false {
        ReadWithApplies(name, "_", k);
      }
      forall k | RuleApplies(name, ". ", k) ensures false {
        ReadWithApplies(name, ". ", k);
      }
    }
  }

  /** The characters of a clean name: the number's, then `.` and a space,
      then the title's. */
  lemma NumberedChars(n: int, title: string)
    ensures var s := Numbered(n, title); var k := |IntToString(n)|;
      && s[k] == '.' && s[k + 1] == ' '
      && s[..k] == IntToString(n) && s[k + 2..] == title
      && (forall j :: 0 <= j < k ==> s[j] == IntToString(n)[j])
  {
  }

  /** The text of a clean name up to past the `.` is not an integer. */
  lemma NumberedPrefixNotInt(n: int, title: string, i: int)
    requires |IntToString(n)| < i <= |Numbered(n, title)|
    ensures ParseInt(Numbered(n, title)[..i]).None?
  {
    var s := Numbered(n, title);
    var k := |IntToString(n)|;
    NumberedChars(n, title);
    assert s[..i][k] == '.';
    RejectsForeignChar(s[..i], k);
  }

  /** The underscore rule never applies to a clean name: the text before
      any `_` of it holds the `.` that follows the number. */
  lemma NoUnderscoreRuleInNumbered(n: int, title: string)
    ensures forall i :: !RuleApplies(Numbered(n, title), "_", i)
  {
    var s := Numbered(n, title);
    forall i | Occurs(s, "_", i) ensures ParseInt(s[..i]).None? {
      NumberedChars(n, title);
      assert s[i] == '_';
      NumberedPrefixNotInt(n, title, i);
    }
  }

  /** In a clean name whose title has no `". "`, the only `". "` is the
      one after the number. */
  lemma OnlyDotInNumbered(n: int, title: string)
    requires !Contains(title, ". ")
    ensures OnlyOccurrence(Numbered(n, title), ". ", |IntToString(n)|)
  {
    var s := Numbered(n, title);
    var k := |IntToString(n)|;
    NumberedChars(n, title);
    assert s[k..k + 2] == ". ";
    forall j | 0 <= j <= |s| && Occurs(s, ". ", j) ensures j == k {
      assert s[j] == '.' && s[j + 1] == ' ';
      if j > k + 1 {
        OccursShift(s, ". ", k + 2, j);
      }
    }
  }

  /** A clean name whose title has no `". "` is read back unchanged.  The
      name exists only when `str(n)` returns, which holds for every number
      the rules read (`PyInt.ParsedFits`). */
  lemma RenormalizeFixed(n: int, title: string)
    requires StrFits(n) && !Contains(title, ". ")
    ensures GatherFilename(Numbered(n, title)) == Ok(Numbered(n, title))
  {
    var s := Numbered(n, title);
    var k := |IntToString(n)|;
    NoUnderscoreRuleInNumbered(n, title);
    OnlyDotInNumbered(n, title);
    NumberedChars(n, title);
    ParseRendered(n);
    DotRuleResult(s, k);
  }

  lemma ConcatChar(x: string, c: char, y: string, j: int)
    requires 0 <= j < |x| + 1 + |y|
    ensures j < |x| ==> (x + [c] + y)[j] == x[j]
    ensures j > |x| ==> (x + [c] + y)[j] == y[j - |x| - 1]
  {
  }

  /** `x + [c] + y` holds `c` only at `|x|` when `x` and `y` do not hold it. */
  lemma OnlyCharAt(x: string, c: char, y: string)
    requires c !in x && c !in y
    ensures OnlyOccurrence(x + [c] + y, [c], |x|)
  {
    var s := x + [c] + y;
    assert s[|x|..|x| + 1] == [c];
    forall j | 0 <= j <= |s| && Occurs(s, [c], j) ensures j == |x| {
      assert s[j] == c;
      ConcatChar(x, c, y, j);
    }
  }

  lemma OccursFirst(s: string, sep: string, k: int)
    requires |sep| > 0 && Occurs(s, sep, k)
    ensures s[k] == sep[0]
  {
    assert s[k..k + |sep|][0] == s[k];
  }

  /** Text without a `.` holds no `". "`. */
  lemma NoDotNoRule(s: string)
    requires '.' !in s
    ensures forall k :: !RuleApplies(s, ". ", k)
  {
    forall k | Occurs(s, ". ", k) ensures false {
      OccursFirst(s, ". ", k);
    }
  }

  lemma DigitsOf1015()
    ensures DigitsValue("1015") == 1015
  {
    assert "1"[..0] == "";
    assert DigitsValue("1") == 1;
    assert "10"[..1] == "1";
    assert DigitsValue("10") == 10;
    assert "101"[..2] == "10";
    assert DigitsValue("101") == 101;
    assert "1015"[..3] == "101";
  }

  lemma Clean1015(y: string)
    ensures Numbered(DigitsValue("1015"), y) == "1015. " + y
  {
    DigitsOf1015();
    Render1015();
  }

  lemma Render1015()
    ensures IntToString(1015) == "1015"
  {
    assert NatToString(1) == "1";
    assert NatToString(10) == "10";
    assert NatToString(101) == "101";
  }

  lemma Clean007(y: string)
    ensures Numbered(DigitsValue("007"), y) == "7. " + y
  {
    DigitsOf007();
    assert IntToString(7) == "7";
  }

  lemma Clean1(y: string)
    ensures Numbered(DigitsValue("1"), y) == "1. " + y
  {
    assert "1"[..0] == "";
    assert DigitsValue("1") == 1;
    assert IntToString(1) == "1";
  }

  lemma DigitsOf007()
    ensures DigitsValue("007") == 7
  {
    assert "0"[..0] == "";
    assert DigitsValue("0") == 0;
    assert "00"[..1] == "0";
    assert DigitsValue("00") == 0;
    assert "007"[..2] == "00";
  }

  /** `<digits>_<title>` with no other `_` becomes `"<number>. <title>"`. */
  lemma UnderscoreDigits(x: string, y: string)
    requires |x| > 0 && (forall i :: 0 <= i < |x| ==> IsDigit(x[i]))
    requires '_' !in x && '_' !in y
    ensures |x| <= MaxStrDigits ==> GatherFilename(x + "_" + y) == Ok(Numbered(DigitsValue(x), y))
    ensures |x| > MaxStrDigits ==> forall k :: !RuleApplies(x + "_" + y, "_", k)
  {
    var a := x + "_" + y;
    OnlyCharAt(x, '_', y);
    assert a[..|x|] == x && a[|x| + 1..] == y;
    ParseDigitsOnly(x);
    if |x| <= MaxStrDigits {
      UnderscoreRuleResult(a, |x|);
    } else {
      OverlongNoUnderscoreRule(a, |x|);
    }
  }

  /** When the digits before the only `_` exceed the limit, `int()` raises
      and the underscore rule does not apply anywhere. */
  lemma OverlongNoUnderscoreRule(a: string, i: int)
    requires OnlyOccurrence(a, "_", i) && ParseInt(a[..i]).None?
    ensures forall k :: !RuleApplies(a, "_", k)
  {
  }

  /** A name made of more than 4300 digits, `_` and a title with neither
      `_` nor `.` is rejected: `int()` refuses the digits and there is no
      `". "` to fall back on. */
  lemma OverlongIdRejected(x: string, y: string)
    requires |x| > MaxStrDigits && (forall i :: 0 <= i < |x| ==> IsDigit(x[i]))
    requires '_' !in y && '.' !in y
    ensures GatherFilename(x + "_" + y) == Err(ModelNameDetection(x + "_" + y))
  {
    var a := x + "_" + y;
    assert '_' !in x && '.' !in x by {
      forall i | 0 <= i < |x| ensures x[i] != '_' && x[i] != '.' { assert IsDigit(x[i]); }
    }
    UnderscoreDigits(x, y);
    assert '.' !in a by {
      forall j | 0 <= j < |a| ensures a[j] != '.' {
        if j < |x| { assert a[j] == x[j]; } else if j > |x| { assert a[j] == y[j - |x| - 1]; }
      }
    }
    NoDotNoRule(a);
    GatherFilenameRejects(a);
  }

  /** A name with no `_` and two `". "` is rejected. */
  lemma TwoDotsRejected(t: string, i: int, j: int)
    requires '_' !in t && Occurs(t, ". ", i) && Occurs(t, ". ", j) && i != j
    ensures GatherFilename(t).Err?
  {
    forall k | Occurs(t, "_", k) ensures false {
      OccursFirst(t, "_", k);
    }
    GatherFilenameRejects(t);
  }

  lemma SplitsAsDigitsUnderscore(a: string)
    requires a == "1015_Zombified Dwarf"
    ensures GatherFilename(a) == Ok(Numbered(DigitsValue("1015"), "Zombified Dwarf"))
  {
    var x, y := "1015", "Zombified Dwarf";
    assert a == x + "_" + y;
    UnderscoreDigits(x, y);
  }

  /** The test's model folder `"1015_Zombified Dwarf"` becomes
      `"1015. Zombified Dwarf"`. */
  lemma ExampleUnderscore(a: string)
    requires a == "1015_Zombified Dwarf"
    ensures GatherFilename(a) == Ok(Numbered(1015, "Zombified Dwarf"))
  {
    SplitsAsDigitsUnderscore(a);
    DigitsOf1015();
  }

  /** A second `_` makes the test's `"1015_Zombified_Dwarf"` unreadable. */
  lemma ExampleTwoUnderscores(b: string)
    requires b == "1015_Zombified_Dwarf"
    ensures GatherFilename(b) == Err(ModelNameDetection(b))
  {
    assert b[4..5] == "_" && b[14..15] == "_";
    assert Occurs(b, "_", 4) && Occurs(b, "_", 14);
    NoDotNoRule(b);
    GatherFilenameRejects(b);
  }

  /** `int()` does not strip the separator U+001C, so `"\x1c7_a"` is
      rejected even though `isspace()` holds for its first character. */
  lemma ExampleSeparatorPadding(s: string)
    requires s == "\U{1C}7_a"
    ensures GatherFilename(s) == Err(ModelNameDetection(s))
  {
    NoDotNoRule(s);
    SeparatorPaddingNoUnderscoreRule(s);
    GatherFilenameRejects(s);
  }

  /** The only `_` of `"\x1c7_a"` is at 2, and `int()` refuses what precedes it. */
  lemma SeparatorPaddingNoUnderscoreRule(s: string)
    requires s == "\U{1C}7_a"
    ensures forall k :: !RuleApplies(s, "_", k)
  {
    SeparatorNotStripped(s[..2]);
    forall k | Occurs(s, "_", k) ensures k == 2 {
      OccursFirst(s, "_", k);
      assert s[0] != '_' && s[1] != '_' && s[3] != '_';
    }
  }

  lemma SplitsAsDigitsLeadingZeros(c: string)
    requires c == "007_Orc"
    ensures GatherFilename(c) == Ok(Numbered(DigitsValue("007"), "Orc"))
  {
    var x, y := "007", "Orc";
    assert c == x + "_" + y;
    UnderscoreDigits(x, y);
  }

  /** The identifier is rendered as a number: `"007_Orc"` becomes
      `"7. Orc"`. */
  lemma ExampleLeadingZeros(c: string)
    requires c == "007_Orc"
    ensures GatherFilename(c) == Ok(Numbered(7, "Orc"))
    ensures IntToString(7) == "7"
  {
    SplitsAsDigitsLeadingZeros(c);
    DigitsOf007();
  }

  lemma SplitsAsDigitsDotTitle(s: string)
    requires s == "1_a. b"
    ensures GatherFilename(s) == Ok(Numbered(DigitsValue("1"), "a. b"))
  {
    var x, y := "1", "a. b";
    assert s == x + "_" + y;
    UnderscoreDigits(x, y);
  }

  lemma TwoDotsInRenumbered(t: string)
    requires t == "1. a. b"
    ensures GatherFilename(t).Err?
  {
    assert t[1..3] == ". " && t[4..6] == ". ";
    TwoDotsRejected(t, 1, 4);
  }

  /** A title that itself contains `". "` is not stable: `"1_a. b"` reads
      as `"1. a. b"`, which is then rejected. */
  lemma RenormalizeCounterexample(s: string)
    requires s == "1_a. b"
    ensures GatherFilename(s).Ok?
    ensures GatherFilename(s).value == "1. a. b"
    ensures GatherFilename(GatherFilename(s).value).Err?
  {
    SplitsAsDigitsDotTitle(s);
    Clean1("a. b");
    RenumberedRejected(GatherFilename(s).value);
  }

  lemma RenumberedRejected(t: string)
    requires t == "1. " + "a. b"
    ensures t == "1. a. b" && GatherFilename(t).Err?
  {
    TwoDotsInRenumbered(t);
  }
}

=== FILE: pyint.dfy ===
/** Python's `int(text)` for decimal text and `str(n)` / f-string rendering
    of an integer.  `int` accepts surrounding whitespace, an optional sign
    and ASCII digits with single underscores between them; `str` renders the
    shortest decimal form (no leading zeros, `-` for negatives). */
module PyInt {
  import opened Wrappers
  import opened PyStr

  predicate IsDigit(c: char) { '0' <= c <= '9' }

  function DigitValue(c: char): (d: nat)
    requires IsDigit(c)
    ensures d < 10
  {
    c as int - '0' as int
  }

  function DigitChar(d: nat): (c: char)
    requires d < 10
    ensures IsDigit(c) && DigitValue(c) == d
  {
    ('0' as int + d) as char
  }

  /** The whitespace `int()` strips around its text.  Characters from
      U+0080 on that `str.isspace()` accepts are read as a space; below that
      only the space and `\t` to `\r` are, so the separators U+001C to
      U+001F, although `isspace()` holds for them, make `int()` raise. */
  predicate IntSpace(c: char) {
    IsSpace(c) && !('\U{1C}' <= c <= '\U{1F}')
  }

  /** `s.lstrip()` as `int()` does it: drops leading whitespace. */
  function TrimStart(s: string): (r: string)
    ensures |r| <= |s| && r == s[|s| - |r|..]
    ensures forall i :: 0 <= i < |s| - |r| ==> IntSpace(s[i])
    ensures |r| > 0 ==> !IntSpace(r[0])
    decreases |s|
  {
    if |s| > 0 && IntSpace(s[0]) then TrimStart(s[1..]) else s
  }

  /** `s.rstrip()` as `int()` does it: drops trailing whitespace. */
  function TrimEnd(s: string): (r: string)
    ensures |r| <= |s| && r == s[..|r|]
    ensures forall i :: |r| <= i < |s| ==> IntSpace(s[i])
    ensures |r| > 0 ==> !IntSpace(r[|r| - 1])
    decreases |s|
  {
    if |s| > 0 && IntSpace(s[|s| - 1]) then TrimEnd(s[..|s| - 1]) else s
  }

  /** `s.strip()`. */
  function Strip(s: string): string {
    TrimEnd(TrimStart(s))
  }

  /** Every character of `s` that is not whitespace is still present after
      stripping. */
  lemma StripKeepsNonSpace(s: string, i: int)
    requires 0 <= i < |s| && !IntSpace(s[i])
    ensures s[i] in Strip(s)
  {
    var t := TrimStart(s);
    var k := i - (|s| - |t|);
    assert 0 <= k < |t| && t[k] == s[i];
    assert t[k] in TrimEnd(t);
  }

  /** A digit group in Python's integer grammar: digits and underscores,
      starting and ending with a digit, every underscore followed by a
      digit. */
  predicate DigitGroup(u: string) {
    && |u| > 0
    && IsDigit(u[0])
    && IsDigit(u[|u| - 1])
    && (forall i :: 0 <= i < |u| ==> IsDigit(u[i]) || u[i] == '_')
    && (forall i :: 0 <= i < |u| - 1 && u[i] == '_' ==> IsDigit(u[i + 1]))
  }

  /** Text that neither starts nor ends with whitespace is its own strip. */
  lemma StripUnpadded(s: string)
    requires |s| > 0 && !IntSpace(s[0]) && !IntSpace(s[|s| - 1])
    ensures Strip(s) == s
  {
    assert TrimStart(s) == s;
  }

  /** The number the digits of `u` spell, underscores ignored. */
  function DigitsValue(u: string): nat
    requires forall i :: 0 <= i < |u| ==> IsDigit(u[i]) || u[i] == '_'
    decreases |u|
  {
    if |u| == 0 then 0
    else if u[|u| - 1] == '_' then DigitsValue(u[..|u| - 1])
    else DigitsValue(u[..|u| - 1]) * 10 + DigitValue(u[|u| - 1])
  }

  /** How many digits `u` holds, underscores not counted. */
  function DigitCount(u: string): nat
    requires forall i :: 0 <= i < |u| ==> IsDigit(u[i]) || u[i] == '_'
    decreases |u|
  {
    if |u| == 0 then 0
    else DigitCount(u[..|u| - 1]) + (if u[|u| - 1] == '_' then 0 else 1)
  }

  /** The default of `sys.get_int_max_str_digits()`: `int()` raises
      `ValueError` for decimal text with more digits, and `str(n)` for a
      number whose decimal form would have more. */
  const MaxStrDigits: nat := 4300

  /** `str(n)` returns instead of raising: `n` has at most `MaxStrDigits`
      decimal digits. */
  predicate StrFits(n: int) {
    |NatToString(if n < 0 then -n else n)| <= MaxStrDigits
  }

  /** The characters `int()` can accept. */
  predicate IntTextChar(c: char) {
    IntSpace(c) || IsDigit(c) || c == '+' || c == '-' || c == '_'
  }

  /** `int(s)`: `Some(n)` when Python returns `n`, `None` when it raises
      `ValueError`. */
  function ParseInt(s: string): Option<int> {
    var t := Strip(s);
    var signed := |t| > 0 && (t[0] == '+' || t[0] == '-');
    var u := if signed then t[1..] else t;
    if !DigitGroup(u) || DigitCount(u) > MaxStrDigits then None
    else
      var v: int := DigitsValue(u);
      Some(if signed && t[0] == '-' then -v else v)
  }

  /** The decimal digits of `n`, most significant first, without leading
      zeros. */
  function NatToString(n: nat): (r: string)
    ensures |r| > 0
    ensures forall i :: 0 <= i < |r| ==> IsDigit(r[i])
    ensures r[0] == '0' ==> r == "0"
    ensures DigitsValue(r) == n
    decreases n
  {
    if n < 10 then [DigitChar(n)]
    else
      var r := NatToString(n / 10) + [DigitChar(n % 10)];
      assert r[..|r| - 1] == NatToString(n / 10);
      r
  }

  /** `str(n)` and `f"{n}"`. */
  function IntToString(n: int): (r: string)
    ensures |r| > 0 && (IsDigit(r[0]) || r[0] == '-')
    ensures forall i :: 0 < i < |r| ==> IsDigit(r[i])
  {
    if n < 0 then "-" + NatToString(-n) else NatToString(n)
  }

  /** Parsing what `str` rendered gives the number back, for every number
      `str` renders without raising. */
  lemma ParseRendered(n: int)
    ensures StrFits(n) ==> ParseInt(IntToString(n)) == Some(n)
  {
    var s := IntToString(n);
    var digits := NatToString(if n < 0 then -n else n);
    StripUnpadded(s);
    assert DigitGroup(digits);
    AllDigitsCount(digits);
    if n < 0 {
      assert s[1..] == digits;
    } else {
      assert s == digits;
    }
  }

  /** Text containing any character outside whitespace, digits, signs and
      underscores is not an integer (for instance anything with a `.`). */
  lemma RejectsForeignChar(s: string, i: int)
    requires 0 <= i < |s| && !IntTextChar(s[i])
    ensures ParseInt(s).None?
  {
    var t := Strip(s);
    StripKeepsNonSpace(s, i);
    var k :| 0 <= k < |t| && t[k] == s[i];
    var signed := |t| > 0 && (t[0] == '+' || t[0] == '-');
    var u := if signed then t[1..] else t;
    if signed {
      assert k > 0 && u[k - 1] == s[i];
    } else {
      assert u[k] == s[i];
    }
  }

  /** `int("\x1c7")` raises: the information separators are not stripped. */
  lemma SeparatorNotStripped(s: string)
    requires s == "\U{1C}7"
    ensures ParseInt(s).None?
  {
    RejectsForeignChar(s, 0);
  }

  /** Text made of digits only is read as the number its digits spell,
      unless it has more digits than the limit allows. */
  lemma ParseDigitsOnly(u: string)
    requires |u| > 0 && forall i :: 0 <= i < |u| ==> IsDigit(u[i])
    ensures ParseInt(u) == if |u| <= MaxStrDigits then Some(DigitsValue(u)) else None
  {
    StripUnpadded(u);
    AllDigitsCount(u);
  }

  /** Without underscores every character is a digit to count. */
  lemma {:induction false} AllDigitsCount(u: string)
    requires forall i :: 0 <= i < |u| ==> IsDigit(u[i])
    ensures DigitCount(u) == |u|
    decreases |u|
  {
    if |u| > 0 {
      AllDigitsCount(u[..|u| - 1]);
    }
  }

  /** Appending a digit lengthens the decimal form by at most one. */
  lemma AppendDigitLength(v: nat, d: nat)
    requires d < 10
    ensures |NatToString(v * 10 + d)| <= |NatToString(v)| + 1
  {
    if v * 10 + d >= 10 {
      assert (v * 10 + d) / 10 == v;
    }
  }

  /** The decimal form of the number a digit group spells is no longer than
      the group's digits, leading zeros being dropped. */
  lemma {:induction false} RenderedLength(u: string)
    requires forall i :: 0 <= i < |u| ==> IsDigit(u[i]) || u[i] == '_'
    ensures DigitCount(u) == 0 ==> DigitsValue(u) == 0
    ensures DigitCount(u) > 0 ==> |NatToString(DigitsValue(u))| <= DigitCount(u)
    decreases |u|
  {
    if |u| > 0 {
      var u' := u[..|u| - 1];
      RenderedLength(u');
      if u[|u| - 1] != '_' {
        AppendDigitLength(DigitsValue(u'), DigitValue(u[|u| - 1]));
      }
    }
  }

  /** Every number `int()` returns renders back through `str` without
      raising: its decimal form has no more digits than the text it came
      from. */
  lemma ParsedFits(s: string)
    requires ParseInt(s).Some?
    ensures StrFits(ParseInt(s).value)
  {
    var t := Strip(s);
    var signed := |t| > 0 && (t[0] == '+' || t[0] == '-');
    var u := if signed then t[1..] else t;
    RenderedLength(u);
  }
}

=== FILE: pystr.dfy ===
/** The parts of Python's `str` that the connectors rely on: `isspace`,
    `lower`/`upper` (ASCII letters only), `startswith`/`endswith`, and
    `split(sep)` with an explicit separator together with its inverse
    `sep.join`. */
module PyStr {
  import opened Wrappers

  /** The characters for which Python's `str.isspace()` holds. */
  predicate IsSpace(c: char) {
    || c == ' '
    || '\t' <= c <= '\r'
    || '\U{1C}' <= c <= '\U{1F}'
    || c == '\U{85}' || c == '\U{A0}' || c == '\U{1680}'
    || '\U{2000}' <= c <= '\U{200A}'
    || c == '\U{2028}' || c == '\U{2029}' || c == '\U{202F}'
    || c == '\U{205F}' || c == '\U{3000}'
  }

  predicate IsAsciiUpper(c: char) { 'A' <= c <= 'Z' }

  predicate IsAsciiLower(c: char) { 'a' <= c <= 'z' }

  function LowerChar(c: char): (r: char)
    ensures !IsAsciiUpper(r)
    ensures IsSpace(r) <==> IsSpace(c)
    ensures IsAsciiLower(c) ==> r == c
  {
    if IsAsciiUpper(c) then (c as int + 32) as char else c
  }

  function UpperChar(c: char): (r: char)
    ensures !IsAsciiLower(r)
    ensures IsSpace(r) <==> IsSpace(c)
    ensures IsAsciiUpper(c) ==> r == c
  {
    if IsAsciiLower(c) then (c as int - 32) as char else c
  }

  /** `s.lower()`, on ASCII letters. */
  function Lower(s: string): (r: string)
    ensures |r| == |s|
    ensures forall i :: 0 <= i < |s| ==> r[i] == LowerChar(s[i])
  {
    seq(|s|, i requires 0 <= i < |s| => LowerChar(s[i]))
  }

  predicate StartsWith(s: string, prefix: string) {
    |prefix| <= |s| && s[..|prefix|] == prefix
  }

  predicate EndsWith(s: string, suffix: string) {
    |suffix| <= |s| && s[|s| - |suffix|..] == suffix
  }

  /** `sep` occurs in `s` starting at index `i`. */
  predicate Occurs(s: string, sep: string, i: int) {
    0 <= i && i + |sep| <= |s| && s[i..i + |sep|] == sep
  }

  /** `sep in s`. */
  predicate Contains(s: string, sep: string) {
    exists i | 0 <= i <= |s| :: Occurs(s, sep, i)
  }

  /** `i` is the one and only place where `sep` occurs in `s`. */
  predicate OnlyOccurrence(s: string, sep: string, i: int) {
    Occurs(s, sep, i) && forall j | 0 <= j <= |s| :: Occurs(s, sep, j) ==> j == i
  }

  /** The leftmost occurrence of `sep` in `s` at or after index `k`. */
  function FindFrom(s: string, sep: string, k: nat): (r: Option<nat>)
    requires |sep| > 0 && k <= |s|
    ensures r.None? ==> forall j :: k <= j ==> !Occurs(s, sep, j)
    ensures r.Some? ==> k <= r.value && Occurs(s, sep, r.value)
    ensures r.Some? ==> forall j :: k <= j < r.value ==> !Occurs(s, sep, j)
    decreases |s| - k
  {
    if k + |sep| > |s| then None
    else if s[k..k + |sep|] == sep then Some(k)
    else FindFrom(s, sep, k + 1)
  }

  /** `s.find(sep)`, as an option. */
  function Find(s: string, sep: string): (r: Option<nat>)
    requires |sep| > 0
    ensures r.None? <==> !Contains(s, sep)
    ensures r.Some? ==> Occurs(s, sep, r.value)
    ensures r.Some? ==> forall j :: 0 <= j < r.value ==> !Occurs(s, sep, j)
  {
    FindFrom(s, sep, 0)
  }

  /** An occurrence of `sep` inside `s[..n]` is one in `s` too. */
  lemma OccursInPrefix(s: string, sep: string, n: nat, j: int)
    requires n <= |s| && Occurs(s[..n], sep, j)
    ensures Occurs(s, sep, j)
  {
    assert s[..n][j..j + |sep|] == s[j..j + |sep|];
  }

  /** An occurrence of `sep` inside `s[n..]` is one in `s`, shifted by `n`. */
  lemma OccursInSuffix(s: string, sep: string, n: nat, j: int)
    requires n <= |s| && Occurs(s[n..], sep, j)
    ensures Occurs(s, sep, n + j)
  {
    assert s[n..][j..j + |sep|] == s[n + j..n + j + |sep|];
  }

  /** `s.split(sep)`: the pieces between the leftmost non-overlapping
      occurrences of `sep`.  No piece contains the separator. */
  function Split(s: string, sep: string): (r: seq<string>)
    requires |sep| > 0
    ensures |r| >= 1
    ensures forall k :: 0 <= k < |r| ==> !Contains(r[k], sep)
    decreases |s|
  {
    match Find(s, sep)
    case None => [s]
    case Some(i) =>
      assert !Contains(s[..i], sep) by {
        forall j | Occurs(s[..i], sep, j) ensures false {
          OccursInPrefix(s, sep, i, j);
        }
      }
      [s[..i]] + Split(s[i + |sep|..], sep)
  }

  /** `sep.join(pieces)`. */
  function Join(pieces: seq<string>, sep: string): string
    decreases |pieces|
  {
    if |pieces| == 0 then ""
    else if |pieces| == 1 then pieces[0]
    else pieces[0] + sep + Join(pieces[1..], sep)
  }

  /** Joining the pieces of a split with the same separator gives back the
      original string. */
  lemma {:induction false} JoinSplit(s: string, sep: string)
    requires |sep| > 0
    ensures Join(Split(s, sep), sep) == s
    decreases |s|
  {
    match Find(s, sep)
    case None =>
    case Some(i) =>
      JoinSplit(s[i + |sep|..], sep);
      JoinSplitStep(s, sep, i);
  }

  /** One step of the round trip: the piece before the first `sep`, the
      separator, and the rest joined back. */
  lemma JoinSplitStep(s: string, sep: string, i: nat)
    requires |sep| > 0 && Find(s, sep) == Some(i)
    requires Join(Split(s[i + |sep|..], sep), sep) == s[i + |sep|..]
    ensures Join(Split(s, sep), sep) == s
  {
    var head, rest := s[..i], s[i + |sep|..];
    var pieces := Split(rest, sep);
    assert Occurs(s, sep, i);
    SplitCons(s, sep, i);
    JoinCons(head, pieces, sep);
    assert s[i..i + |sep|] == sep;
    assert s == head + s[i..i + |sep|] + rest;
  }

  lemma JoinCons(head: string, pieces: seq<string>, sep: string)
    requires |pieces| > 0
    ensures Join([head] + pieces, sep) == head + sep + Join(pieces, sep)
  {
    assert ([head] + pieces)[1..] == pieces;
  }

  /** A string in which `sep` occurs exactly once, at `i`, splits into the
      two pieces on either side of it. */
  lemma SplitAtOnlyOccurrence(s: string, sep: string, i: int)
    requires |sep| > 0 && OnlyOccurrence(s, sep, i)
    ensures Split(s, sep) == [s[..i], s[i + |sep|..]]
  {
    var rest := s[i + |sep|..];
    assert Find(s, sep) == Some(i) by {
      assert Contains(s, sep);
      assert Occurs(s, sep, Find(s, sep).value);
    }
    assert !Contains(rest, sep) by {
      forall j | Occurs(rest, sep, j) ensures false {
        OccursInSuffix(s, sep, i + |sep|, j);
      }
    }
    assert Split(rest, sep) == [rest];
    assert Split(s, sep) == [s[..i]] + Split(rest, sep);
  }

  /** A split into exactly two pieces happens at the leftmost occurrence of
      `sep`, and nothing after it contains `sep`. */
  lemma SplitIntoTwo(s: string, sep: string)
    requires |sep| > 0 && |Split(s, sep)| == 2
    ensures Find(s, sep).Some?
    ensures var i := Find(s, sep).value;
      Split(s, sep) == [s[..i], s[i + |sep|..]] && !Contains(s[i + |sep|..], sep)
  {
    SplitFound(s, sep);
    var i := Find(s, sep).value;
    SplitCons(s, sep, i);
    SplitOnePiece(s[i + |sep|..], sep);
  }

  /** A split into more than one piece found a separator. */
  lemma SplitFound(s: string, sep: string)
    requires |sep| > 0 && |Split(s, sep)| > 1
    ensures Find(s, sep).Some?
  {
  }

  /** A found separator ends the first piece; the rest is split on. */
  lemma SplitCons(s: string, sep: string, i: nat)
    requires |sep| > 0 && Find(s, sep) == Some(i) && i + |sep| <= |s|
    ensures Split(s, sep) == [s[..i]] + Split(s[i + |sep|..], sep)
  {
  }

  /** A split into one piece found no separator. */
  lemma SplitOnePiece(s: string, sep: string)
    requires |sep| > 0 && |Split(s, sep)| == 1
    ensures Find(s, sep).None? && Split(s, sep) == [s]
  {
  }
}

=== FILE: release.dfy ===
/** Cast n Play's `process_models`: the category configuration is
    normalised and reversed, the category folders are prepared, and then
    every model folder of a release is flattened and processed in turn. */
module Release {
  import opened Wrappers
  import opened FileSystem
  import opened Images
  import opened ModelName
  import opened Connector
  import opened CastNPlay

  /** A `dict[str, list[str]]` of categories and the model names filed
      under them, in insertion order. */
  type Details = seq<(string, seq<string>)>

  /** The category every model not named in the configuration goes to. */
  const DefaultCategory := "Characters"

  /** The keys of a configuration, in order. */
  function DetailKeys(d: Details): (r: seq<string>)
    ensures |r| == |d| && forall i :: 0 <= i < |d| ==> r[i] == d[i].0
  {
    if |d| == 0 then [] else [d[0].0] + DetailKeys(d[1..])
  }

  /** Each key at most once, as in a dict. */
  predicate UniqueKeys(d: Details) {
    forall i, j :: 0 <= i < j < |d| ==> d[i].0 != d[j].0
  }

  /** `del d[key]` when `key` is present: the other entries in their order. */
  function Drop(d: Details, key: string): (r: Details)
    ensures forall e :: e in r <==> e in d && e.0 != key
    ensures |r| <= |d|
    decreases |d|
  {
    if |d| == 0 then []
    else if d[0].0 == key then Drop(d[1..], key)
    else [d[0]] + Drop(d[1..], key)
  }

  /** `normalize_details(details_dict)`: `None` is the empty configuration,
      and a `"Characters"` entry is dropped since that is the default
      category anyway. */
  function NormalizeDetails(details: Option<Details>): (r: Details)
    ensures details.None? ==> r == []
    ensures details.Some? ==> forall e :: e in r <==> e in details.value && e.0 != DefaultCategory
    ensures forall i :: 0 <= i < |r| ==> r[i].0 != DefaultCategory
  {
    if details.None? then [] else Drop(details.value, DefaultCategory)
  }

  /** Dropping a key that is not there changes nothing. */
  lemma {:induction false} DropAbsent(d: Details, key: string)
    requires forall i :: 0 <= i < |d| ==> d[i].0 != key
    ensures Drop(d, key) == d
    decreases |d|
  {
    if |d| > 0 {
      DropAbsent(d[1..], key);
      assert d == [d[0]] + d[1..];
    }
  }

  /** Normalising a normalised configuration gives it back, and a
      configuration without `"Characters"` is already normal. */
  lemma NormalizeIdempotent(details: Option<Details>)
    ensures NormalizeDetails(Some(NormalizeDetails(details))) == NormalizeDetails(details)
    ensures details.Some? && (forall i :: 0 <= i < |details.value| ==> details.value[i].0 != DefaultCategory) ==>
      NormalizeDetails(details) == details.value
  {
    DropAbsent(NormalizeDetails(details), DefaultCategory);
    if details.Some? && forall i :: 0 <= i < |details.value| ==> details.value[i].0 != DefaultCategory {
      DropAbsent(details.value, DefaultCategory);
    }
  }

  /** The `(item, key)` pairs in the order the nested loops of
      `reverse_dict_with_list_values` visit them. */
  function Pairs(d: Details): (r: seq<(string, string)>)
    ensures forall p :: p in r ==> p.1 in DetailKeys(d)
    decreases |d|
  {
    if |d| == 0 then []
    else ItemPairs(d[0].1, d[0].0) + Pairs(d[1..])
  }

  /** The pairs of one entry: every item with the entry's key. */
  function ItemPairs(items: seq<string>, key: string): (r: seq<(string, string)>)
    ensures |r| == |items|
    ensures forall i :: 0 <= i < |r| ==> r[i] == (items[i], key)
  {
    if |items| == 0 then [] else [(items[0], key)] + ItemPairs(items[1..], key)
  }

  /** The loop body of `reverse_dict_with_list_values` over the remaining
      pairs, `acc` being the result so far. */
  function ReverseInto(acc: map<string, string>, ps: seq<(string, string)>): (r: Result<map<string, string>>)
    ensures r.Err? ==> r.error.ValueDuplication?
    decreases |ps|
  {
    if |ps| == 0 then Ok(acc)
    else if ps[0].0 in acc then Err(ValueDuplication(ps[0].0, acc[ps[0].0], ps[0].1))
    else ReverseInto(acc[ps[0].0 := ps[0].1], ps[1..])
  }

  /** `reverse_dict_with_list_values(d)`: every item mapped to its key, or
      the `ValueError` for the first item met a second time. */
  function ReverseDict(d: Details): (r: Result<map<string, string>>)
    ensures d == [] ==> r == Ok(map[])
    ensures r.Err? ==> r.error.ValueDuplication?
  {
    if d == [] then Ok(map[]) else ReverseInto(map[], Pairs(d))
  }

  /** No item occurs in two pairs. */
  predicate DistinctItems(ps: seq<(string, string)>) {
    forall i, j :: 0 <= i < j < |ps| ==> ps[i].0 != ps[j].0
  }

  /** The loop succeeds from `acc` exactly when no item repeats or is
      already in `acc`. */
  lemma {:induction false} ReverseIntoOk(acc: map<string, string>, ps: seq<(string, string)>)
    ensures ReverseInto(acc, ps).Ok? <==> DistinctItems(ps) && forall i :: 0 <= i < |ps| ==> ps[i].0 !in acc
    decreases |ps|
  {
    if |ps| > 0 && ps[0].0 !in acc {
      var acc' := acc[ps[0].0 := ps[0].1];
      ReverseIntoOk(acc', ps[1..]);
      if ReverseInto(acc', ps[1..]).Ok? {
        forall i, j | 0 <= i < j < |ps| ensures ps[i].0 != ps[j].0 {
          if i > 0 {
            assert ps[i] == ps[1..][i - 1] && ps[j] == ps[1..][j - 1];
          } else {
            assert ps[j] == ps[1..][j - 1];
          }
        }
        forall i | 0 <= i < |ps| ensures ps[i].0 !in acc {
          if i > 0 {
            assert ps[i] == ps[1..][i - 1];
          }
        }
      }
      if DistinctItems(ps) && forall i :: 0 <= i < |ps| ==> ps[i].0 !in acc {
        forall i | 0 <= i < |ps[1..]| ensures ps[1..][i].0 !in acc' {
          assert ps[1..][i] == ps[i + 1];
        }
      }
    }
  }

  /** A successful loop keeps `acc` and maps each item of the pairs to its
      key, and to nothing else. */
  lemma ReverseIntoContents(acc: map<string, string>, ps: seq<(string, string)>)
    requires ReverseInto(acc, ps).Ok?
    ensures var m := ReverseInto(acc, ps).value;
      && m.Keys == acc.Keys + (set i | 0 <= i < |ps| :: ps[i].0)
      && (forall x :: x in acc ==> m[x] == acc[x])
      && (forall i :: 0 <= i < |ps| ==> m[ps[i].0] == ps[i].1)
  {
    ReverseIntoKeys(acc, ps);
    ReverseIntoValues(acc, ps);
  }

  lemma {:induction false} ReverseIntoKeys(acc: map<string, string>, ps: seq<(string, string)>)
    requires ReverseInto(acc, ps).Ok?
    ensures ReverseInto(acc, ps).value.Keys == acc.Keys + (set i | 0 <= i < |ps| :: ps[i].0)
    decreases |ps|
  {
    if |ps| > 0 {
      var x := ps[0];
      var acc' := acc[x.0 := x.1];
      ReverseIntoKeys(acc', ps[1..]);
      assert ReverseInto(acc, ps) == ReverseInto(acc', ps[1..]);
      assert forall i :: 1 <= i < |ps| ==> ps[i] == ps[1..][i - 1];
      assert (set i | 0 <= i < |ps| :: ps[i].0) == {x.0} + (set i | 0 <= i < |ps[1..]| :: ps[1..][i].0);
    }
  }

  lemma {:induction false} ReverseIntoValues(acc: map<string, string>, ps: seq<(string, string)>)
    requires ReverseInto(acc, ps).Ok?
    ensures var m := ReverseInto(acc, ps).value;
      && (forall x :: x in acc ==> x in m && m[x] == acc[x])
      && (forall i :: 0 <= i < |ps| ==> ps[i].0 in m && m[ps[i].0] == ps[i].1)
    decreases |ps|
  {
    if |ps| > 0 {
      var x := ps[0];
      var acc' := acc[x.0 := x.1];
      ReverseIntoValues(acc', ps[1..]);
      assert ReverseInto(acc, ps) == ReverseInto(acc', ps[1..]);
      assert forall i :: 1 <= i < |ps| ==> ps[i] == ps[1..][i - 1];
    }
  }

  /** `e` reports pair `j` as the first repetition: its item was met
      before, in `acc` or at an earlier pair `i`, under the key `e` names
      first; every item before `j` is new to `acc` and to the others. */
  predicate FirstRepeatAt(acc: map<string, string>, ps: seq<(string, string)>, e: Error, j: int) {
    && 0 <= j < |ps| && e.ValueDuplication? && e.item == ps[j].0 && e.key == ps[j].1
    && ((ps[j].0 in acc && e.existingKey == acc[ps[j].0]) ||
        (exists i :: 0 <= i < j && ps[i].0 == ps[j].0 && e.existingKey == ps[i].1))
    && (forall k :: 0 <= k < j ==> ps[k].0 !in acc)
    && (forall k, l :: 0 <= k < l < j ==> ps[k].0 != ps[l].0)
  }

  /** A failing loop names the first item met again, the key it was met
      under first and the key it is met under now. */
  lemma {:induction false} ReverseIntoError(acc: map<string, string>, ps: seq<(string, string)>)
    requires ReverseInto(acc, ps).Err?
    ensures exists j :: FirstRepeatAt(acc, ps, ReverseInto(acc, ps).error, j)
    decreases |ps|
  {
    var x := ps[0];
    var e := ReverseInto(acc, ps).error;
    if x.0 in acc {
      assert FirstRepeatAt(acc, ps, e, 0);
    } else {
      var acc' := acc[x.0 := x.1];
      var qs := ps[1..];
      assert ReverseInto(acc, ps) == ReverseInto(acc', qs);
      ReverseIntoError(acc', qs);
      var j :| FirstRepeatAt(acc', qs, e, j);
      assert ps == [x] + qs;
      FirstRepeatCons(acc, x, qs, e, j);
    }
  }

  /** The induction step of `ReverseIntoError`: a fresh pair in front moves
      the first repetition one place on. */
  lemma FirstRepeatCons(acc: map<string, string>, x: (string, string), qs: seq<(string, string)>, e: Error, j: int)
    requires x.0 !in acc && FirstRepeatAt(acc[x.0 := x.1], qs, e, j)
    ensures FirstRepeatAt(acc, [x] + qs, e, j + 1)
  {
    var acc' := acc[x.0 := x.1];
    var ps := [x] + qs;
    assert ps[j + 1] == qs[j];
    if qs[j].0 == x.0 {
      assert ps[0].0 == ps[j + 1].0;
    } else if qs[j].0 !in acc' {
      var i :| 0 <= i < j && qs[i].0 == qs[j].0 && e.existingKey == qs[i].1;
      assert ps[i + 1] == qs[i];
    }
    forall k | 0 <= k < j + 1 ensures ps[k].0 !in acc {
      if k > 0 {
        assert ps[k] == qs[k - 1];
      }
    }
    forall k, l | 0 <= k < l < j + 1 ensures ps[k].0 != ps[l].0 {
      assert ps[l] == qs[l - 1];
      if k > 0 {
        assert ps[k] == qs[k - 1];
      }
    }
  }

  /** `reverse_dict_with_list_values` succeeds exactly when no model name
      is filed under two categories (or twice under one), and then maps
      every listed name, and nothing else, to its category.  A failure names
      the first repetition: the names before it are all different. */
  lemma ReverseDictSpec(d: Details)
    ensures var r := ReverseDict(d);
      && (r.Ok? <==> DistinctItems(Pairs(d)))
      && (r.Ok? ==> r.value.Keys == (set i | 0 <= i < |Pairs(d)| :: Pairs(d)[i].0))
      && (r.Ok? ==> forall i :: 0 <= i < |Pairs(d)| ==> r.value[Pairs(d)[i].0] == Pairs(d)[i].1)
      && (r.Err? ==> exists i, j :: (0 <= i < j < |Pairs(d)| &&
            Pairs(d)[i].0 == Pairs(d)[j].0 &&
            r.error == ValueDuplication(Pairs(d)[j].0, Pairs(d)[i].1, Pairs(d)[j].1) &&
            forall k, l :: 0 <= k < l < j ==> Pairs(d)[k].0 != Pairs(d)[l].0))
  {
    ReverseIntoOk(map[], Pairs(d));
    if ReverseDict(d).Ok? && d != [] {
      ReverseIntoContents(map[], Pairs(d));
    }
    if ReverseDict(d).Err? {
      ReverseIntoError(map[], Pairs(d));
    }
  }

  /** Every category the reversed configuration names is one of the
      configuration's keys. */
  lemma ReverseDictValues(d: Details, rev: map<string, string>, name: string)
    requires ReverseDict(d) == Ok(rev) && name in rev
    ensures rev[name] in DetailKeys(d)
  {
    ReverseDictSpec(d);
    var i :| 0 <= i < |Pairs(d)| && Pairs(d)[i].0 == name;
    assert Pairs(d)[i] in Pairs(d);
  }

  /** Two categories with disjoint model lists reverse to a map from each
      model to its category. */
  lemma ReverseDictExample(d: Details)
    requires d == [("Heroes", ["Elf", "Dwarf"]), ("Monsters", ["Orc"])]
    ensures ReverseDict(d) == Ok(map["Elf" := "Heroes", "Dwarf" := "Heroes", "Orc" := "Monsters"])
  {
    var pd := [("Elf", "Heroes"), ("Dwarf", "Heroes"), ("Orc", "Monsters")];
    PairsOfTwo(d, "Heroes", ["Elf", "Dwarf"], "Monsters", ["Orc"]);
    assert ItemPairs(["Elf", "Dwarf"], "Heroes") + ItemPairs(["Orc"], "Monsters") == pd;
    var m1 := map["Elf" := "Heroes"];
    var m2 := m1["Dwarf" := "Heroes"];
    assert ReverseInto(map[], pd) == ReverseInto(m1, pd[1..]);
    assert ReverseInto(m1, pd[1..]) == ReverseInto(m2, pd[2..]);
  }

  /** The same model under two categories is rejected, naming both. */
  lemma ReverseDictDuplicateExample(e: Details)
    requires e == [("Heroes", ["Elf"]), ("Monsters", ["Elf"])]
    ensures ReverseDict(e) == Err(ValueDuplication("Elf", "Heroes", "Monsters"))
  {
    var pe := [("Elf", "Heroes"), ("Elf", "Monsters")];
    PairsOfTwo(e, "Heroes", ["Elf"], "Monsters", ["Elf"]);
    assert ItemPairs(["Elf"], "Heroes") + ItemPairs(["Elf"], "Monsters") == pe;
    assert ReverseInto(map[], pe) == ReverseInto(map["Elf" := "Heroes"], pe[1..]);
  }

  /** A name listed under three categories fails at its second listing,
      naming the first two categories and never the third. */
  lemma ReverseDictFirstRepeat(d: Details)
    requires d == [("A", ["Elf"]), ("B", ["Elf"]), ("C", ["Elf"])]
    ensures ReverseDict(d) == Err(ValueDuplication("Elf", "A", "B"))
  {
    var ps := [("Elf", "A"), ("Elf", "B"), ("Elf", "C")];
    var rest: Details := [("B", ["Elf"]), ("C", ["Elf"])];
    assert d[1..] == rest;
    PairsOfTwo(rest, "B", ["Elf"], "C", ["Elf"]);
    assert ItemPairs(["Elf"], "B") + ItemPairs(["Elf"], "C") == ps[1..];
    assert Pairs(d) == ItemPairs(["Elf"], "A") + Pairs(rest);
    assert ItemPairs(["Elf"], "A") == ps[..1];
    assert Pairs(d) == ps;
    assert ReverseInto(map[], ps) == ReverseInto(map["Elf" := "A"], ps[1..]);
  }

  /** The pairs of a two-entry configuration. */
  lemma PairsOfTwo(d: Details, k1: string, v1: seq<string>, k2: string, v2: seq<string>)
    requires d == [(k1, v1), (k2, v2)]
    ensures Pairs(d) == ItemPairs(v1, k1) + ItemPairs(v2, k2)
  {
    assert d[1..] == [(k2, v2)];
    assert Pairs(d[1..]) == ItemPairs(v2, k2) + Pairs(d[1..][1..]);
    assert ItemPairs(v2, k2) + [] == ItemPairs(v2, k2);
  }

  /** `reversed_details_dict.get(name, "Characters")`. */
  function CategoryOf(rev: map<string, string>, name: string): string {
    if name in rev then rev[name] else DefaultCategory
  }

  /** A model's category is a configured key or the default one. */
  lemma CategoryIsConfigured(d: Details, rev: map<string, string>, name: string)
    requires ReverseDict(d) == Ok(rev)
    ensures CategoryOf(rev, name) in DetailKeys(d) || CategoryOf(rev, name) == DefaultCategory
  {
    if name in rev {
      ReverseDictValues(d, rev, name);
    }
  }

  /** The category folder and its two tier folders exist. */
  predicate Prepared(fs: Fs, category: Path) {
    IsDir(fs, category) && IsDir(fs, category + ["Unsupported"]) && IsDir(fs, category + ["Presupported"])
  }

  /** The two `mkdir(parents=True, exist_ok=True)` calls for one category. */
  function PrepareCategory(fs: Fs, output: Path, key: string): (r: Fs)
    ensures r.files == fs.files && fs.dirs <= r.dirs
    ensures Prepared(r, output + [key])
    ensures WritesWithin(fs, r, output)
    ensures Valid(fs) ==> Valid(r)
  {
    var u := output + [key, "Unsupported"];
    var p := output + [key, "Presupported"];
    var fs1 := MkdirAll(fs, u);
    var fs2 := MkdirAll(fs1, p);
    assert u[..|output| + 1] == output + [key] && u == output + [key] + ["Unsupported"];
    assert p == output + [key] + ["Presupported"];
    assert u[..|output|] == output && p[..|output|] == output;
    MkdirAllWrites(fs, u);
    MkdirAllWrites(fs1, p);
    WritesWithinChain(fs, fs1, fs2, output, u, p);
    fs2
  }

  /** The loop of `prepare_folders` over the configured keys. */
  function PrepareKeys(fs: Fs, output: Path, keys: seq<string>): (r: Fs)
    ensures r.files == fs.files && fs.dirs <= r.dirs
    ensures forall k :: k in keys ==> Prepared(r, output + [k])
    ensures WritesWithin(fs, r, output)
    ensures Valid(fs) ==> Valid(r)
    decreases |keys|
  {
    if |keys| == 0 then
      WritesWithinRefl(fs, output);
      fs
    else
      var fs1 := PrepareCategory(fs, output, keys[0]);
      var r := PrepareKeys(fs1, output, keys[1..]);
      WritesWithinTrans(fs, fs1, r, output);
      assert forall k :: k in keys && k != keys[0] ==> k in keys[1..];
      assert Prepared(r, output + [keys[0]]);
      r
  }

  /** More directories keep categories prepared. */
  lemma PreparedGrows(fs: Fs, fs': Fs, output: Path, keys: seq<string>)
    requires fs.dirs <= fs'.dirs
    requires forall k :: k in keys ==> Prepared(fs, output + [k])
    ensures forall k :: k in keys ==> Prepared(fs', output + [k])
  {
  }

  /** `prepare_folders(output, details)`: both tier folders for every
      configured category and for the default one; no file changes. */
  function PrepareFolders(fs: Fs, output: Path, d: Details): (r: Fs)
    ensures r.files == fs.files && fs.dirs <= r.dirs
    ensures forall k :: k in DetailKeys(d) ==> Prepared(r, output + [k])
    ensures Prepared(r, output + [DefaultCategory])
    ensures WritesWithin(fs, r, output)
    ensures Valid(fs) ==> Valid(r)
  {
    var fs1 := PrepareKeys(fs, output, DetailKeys(d));
    var r := PrepareCategory(fs1, output, DefaultCategory);
    WritesWithinTrans(fs, fs1, r, output);
    PreparedGrows(fs1, r, output, DetailKeys(d));
    r
  }

  /** The directories strictly below `folder`. */
  function DirsUnder(fs: Fs, folder: Path): set<Path> {
    set p | p in fs.dirs && Under(folder, p)
  }

  /** Going one level down leaves fewer directories below. */
  lemma DirsUnderShrink(fs: Fs, folder: Path, name: string)
    requires folder + [name] in fs.dirs
    ensures DirsUnder(fs, folder + [name]) < DirsUnder(fs, folder)
  {
    var c := folder + [name];
    assert c[..|folder|] == folder;
    forall p | p in DirsUnder(fs, c) ensures p in DirsUnder(fs, folder) {
      assert p[..|c|][..|folder|] == p[..|folder|];
    }
    assert c !in DirsUnder(fs, c);
  }

  /** A direct child named `name` is `folder / name`. */
  lemma ChildNamed(folder: Path, p: Path, name: string)
    requires ChildOf(folder, p) && Name(p) == name
    ensures p == folder + [name]
  {
    assert p == p[..|folder|] + [p[|folder|]];
  }

  /** The loop of `_flatten_same_name`: while the only sub-folder carries
      the model's name, go into it. */
  function FlattenFrom(fs: Fs, folder: Path, name: string): (r: Path)
    ensures Within(folder, r)
    ensures forall k :: |folder| <= k < |r| ==> r[k] == name
    ensures IsDir(fs, folder) ==> IsDir(fs, r)
    ensures var entries := Enumerate(fs, SubDirs(fs, r)); |entries| != 1 || Name(entries[0]) != name
    decreases DirsUnder(fs, folder)
  {
    var entries := Enumerate(fs, SubDirs(fs, folder));
    if |entries| != 1 || Name(entries[0]) != name then folder
    else
      ChildNamed(folder, entries[0], name);
      DirsUnderShrink(fs, folder, name);
      var r := FlattenFrom(fs, folder + [name], name);
      assert r[..|folder|] == r[..|folder + [name]|][..|folder|];
      r
  }

  /** `_flatten_same_name(model_folder)`. */
  function FlattenSameName(fs: Fs, folder: Path): (r: Path)
    ensures Within(folder, r) && Name(r) == Name(folder)
    ensures IsDir(fs, folder) ==> IsDir(fs, r)
  {
    FlattenFrom(fs, folder, Name(folder))
  }

  /** Flattening a flattened folder stops at once. */
  lemma FlattenIdempotent(fs: Fs, folder: Path)
    ensures FlattenSameName(fs, FlattenSameName(fs, folder)) == FlattenSameName(fs, folder)
  {
  }

  /** A repetition-free listing of `s` is the one-entry listing `[x]`
      exactly when `s` is `{x}`. */
  lemma SingletonListing(xs: seq<Path>, s: set<Path>, x: Path)
    requires Distinct(xs) && forall p :: p in xs <==> p in s
    ensures (|xs| == 1 && xs[0] == x) <==> s == {x}
  {
    DistinctCount(xs, s);
    if s == {x} {
      assert xs[0] in s;
    }
  }

  /** What flattening finds: every folder passed on the way has the next
      one as its only sub-folder, and the folder it stops at does not
      have `folder / name` as its only sub-folder. */
  lemma {:induction false} FlattenChain(fs: Fs, folder: Path, name: string)
    requires Valid(fs)
    ensures var r := FlattenFrom(fs, folder, name);
      && (forall k :: |folder| <= k < |r| ==> SubDirs(fs, r[..k]) == {r[..k + 1]})
      && SubDirs(fs, r) != {r + [name]}
    decreases DirsUnder(fs, folder)
  {
    var entries := Enumerate(fs, SubDirs(fs, folder));
    var r := FlattenFrom(fs, folder, name);
    SingletonListing(entries, SubDirs(fs, folder), folder + [name]);
    if |entries| == 1 && Name(entries[0]) == name {
      ChildNamed(folder, entries[0], name);
      DirsUnderShrink(fs, folder, name);
      FlattenChain(fs, folder + [name], name);
      assert r[..|folder|] == folder;
      assert r[..|folder| + 1] == folder + [name];
    } else if SubDirs(fs, folder) == {folder + [name]} {
      ChildPath(folder, name);
    }
  }

  /** What the loop does with one model folder, given the filesystem at
      its turn. */
  type Step = (Fs, Path) -> Outcome

  /** One model folder of `process_models`: flattened, then processed under
      the category its name is filed under. */
  function Visit(fs: Fs, child: Path, output: Path, rev: map<string, string>): Outcome {
    var folder := FlattenSameName(fs, child);
    ProcessSingleModel(fs, folder, output + [CategoryOf(rev, Name(folder))])
  }

  /** The step `process_models` takes for each model folder. */
  function ModelStep(output: Path, rev: map<string, string>): Step {
    (fs: Fs, child: Path) => Visit(fs, child, output, rev)
  }

  /** The loop of `process_models` over `_iter_model_folders(root)`: the
      root is listed once, and each entry is looked at when its turn comes,
      on the filesystem the earlier models left.  Files are skipped; a
      missing folder raises `FileNotFoundError`; a folder is handed to
      `step`; the first exception stops the run. */
  function Walk(fs: Fs, entries: seq<Path>, step: Step): (r: Outcome)
    ensures |entries| == 0 ==> r == Done(fs)
    decreases |entries|, 0
  {
    if |entries| == 0 then Done(fs)
    else
      var child := entries[0];
      if child in fs.files then Walk(fs, entries[1..], step)
      else if !IsDir(fs, child) then Failed(fs, FileNotFound(child))
      else Then(step(fs, child), entries[1..], step)
  }

  /** Carry on with `entries` after outcome `o`, unless it failed. */
  function Then(o: Outcome, entries: seq<Path>, step: Step): (r: Outcome)
    ensures o.error.Some? ==> r == o
    ensures o.warnings <= r.warnings
    decreases |entries|, 1
  {
    if o.error.Some? then o
    else
      var rest := Walk(o.fs, entries, step);
      Outcome(rest.fs, o.warnings + rest.warnings, rest.error)
  }

  /** `process_models(models, output, details)`. */
  function ProcessModels(fs: Fs, models: Path, output: Path, details: Option<Details>): (r: Outcome)
    ensures ReverseDict(NormalizeDetails(details)).Err? ==>
      r == Failed(fs, ReverseDict(NormalizeDetails(details)).error)
  {
    var d := NormalizeDetails(details);
    match ReverseDict(d)
    case Err(e) => Failed(fs, e)
    case Ok(rev) =>
      RunPrepared(PrepareFolders(fs, output, d), models, output, rev)
  }

  /** `process_models` once the category folders are prepared: the loop
      over the models root, which raises `FileNotFoundError` if the root is
      missing. */
  function RunPrepared(fs: Fs, models: Path, output: Path, rev: map<string, string>): (r: Outcome)
    ensures !IsDir(fs, models) ==> r == Failed(fs, FileNotFound(models))
  {
    if !IsDir(fs, models) then Failed(fs, FileNotFound(models))
    else Walk(fs, Enumerate(fs, Children(fs, models)), ModelStep(output, rev))
  }

  /** Walking two listings one after the other is walking the first and
      then, unless it failed, the second from where the first stopped. */
  lemma {:induction false} WalkAppend(fs: Fs, a: seq<Path>, b: seq<Path>, step: Step)
    ensures Walk(fs, a + b, step) == Then(Walk(fs, a, step), b, step)
    decreases |a|
  {
    if |a| == 0 {
      assert a + b == b;
      var rest := Walk(fs, b, step);
      assert [] + rest.warnings == rest.warnings;
    } else {
      assert (a + b)[0] == a[0] && (a + b)[1..] == a[1..] + b;
      var child := a[0];
      if child in fs.files {
        WalkAppend(fs, a[1..], b, step);
      } else if IsDir(fs, child) {
        var o := step(fs, child);
        if o.error.None? {
          WalkAppend(o.fs, a[1..], b, step);
          var w1 := Walk(o.fs, a[1..], step);
          if w1.error.None? {
            var w2 := Walk(w1.fs, b, step);
            assert o.warnings + (w1.warnings + w2.warnings) == (o.warnings + w1.warnings) + w2.warnings;
          }
        }
      }
    }
  }

  /** Every step keeps the listing valid and writes only below `output`. */
  ghost predicate StepWrites(step: Step, output: Path) {
    forall f: Fs, c: Path :: Valid(f) ==> Valid(step(f, c).fs) && WritesWithin(f, step(f, c).fs, output)
  }

  /** If every step keeps to the output folder, so does the loop. */
  lemma {:induction false} WalkWrites(fs: Fs, entries: seq<Path>, step: Step, output: Path)
    requires Valid(fs) && StepWrites(step, output)
    ensures var r := Walk(fs, entries, step);
      Valid(r.fs) && WritesWithin(fs, r.fs, output)
    decreases |entries|
  {
    WritesWithinRefl(fs, output);
    if |entries| > 0 {
      var child := entries[0];
      if child in fs.files {
        WalkWrites(fs, entries[1..], step, output);
      } else if IsDir(fs, child) {
        var o := step(fs, child);
        if o.error.None? {
          WalkWrites(o.fs, entries[1..], step, output);
          WritesWithinTrans(fs, o.fs, Walk(o.fs, entries[1..], step).fs, output);
        }
      }
    }
  }

  /** One model keeps the listing valid and writes only below the output
      folder. */
  lemma VisitWrites(fs: Fs, child: Path, output: Path, rev: map<string, string>)
    requires Valid(fs)
    ensures var o := Visit(fs, child, output, rev);
      Valid(o.fs) && WritesWithin(fs, o.fs, output)
  {
    var folder := FlattenSameName(fs, child);
    var category := output + [CategoryOf(rev, Name(folder))];
    SingleModelWrites(fs, folder, category);
    ChildPath(output, CategoryOf(rev, Name(folder)));
    WritesWithinWiden(fs, Visit(fs, child, output, rev).fs, output, category);
  }

  /** The step of `process_models` keeps to the output folder. */
  lemma ModelStepWrites(output: Path, rev: map<string, string>)
    ensures StepWrites(ModelStep(output, rev), output)
  {
    forall f: Fs, c: Path | Valid(f)
      ensures Valid(ModelStep(output, rev)(f, c).fs) && WritesWithin(f, ModelStep(output, rev)(f, c).fs, output)
    {
      VisitWrites(f, c, output, rev);
    }
  }

  /** A model folder below the models root is disjoint from every category
      folder of an output folder disjoint from the root. */
  lemma DisjointCategory(models: Path, output: Path, folder: Path, c: string)
    requires Disjoint(models, output) && Within(models, folder)
    ensures Disjoint(folder, output + [c])
  {
    var o := output + [c];
    ChildPath(output, c);
    AncestorsNested(models, output, o);
    WithinTransitiveIf(models, folder, o);
    WithinTransitiveIf(output, o, folder);
    AncestorsNested(models, output, folder);
  }

  /** Every category a model can be filed under has its folders. */
  predicate PreparedFor(fs: Fs, output: Path, rev: map<string, string>) {
    && Prepared(fs, output + [DefaultCategory])
    && forall n :: n in rev ==> Prepared(fs, output + [rev[n]])
  }

  /** The exceptions a single model can stop the run with. */
  predicate ModelError(e: Error) {
    e.ModelNameDetection? || e.ImageNotFound? || e.MultipleImagesFound?
  }

  /** On a prepared output, every step on a folder below the models root
      keeps the listing valid, only adds files and folders, and fails only
      with a model error. */
  ghost predicate StepSafe(step: Step, models: Path, output: Path, rev: map<string, string>) {
    forall f: Fs, c: Path :: Valid(f) && PreparedFor(f, output, rev) && Within(models, c) && c in f.dirs ==>
      && Valid(step(f, c).fs)
      && f.dirs <= step(f, c).fs.dirs && f.files.Keys <= step(f, c).fs.files.Keys
      && (step(f, c).error.Some? ==> ModelError(step(f, c).error.value))
  }

  /** With safe steps, every category prepared and every listed entry below
      the models root and still present, the loop stops only on a model
      error. */
  lemma {:induction false} WalkErrors(fs: Fs, models: Path, entries: seq<Path>, step: Step, output: Path, rev: map<string, string>)
    requires Valid(fs) && PreparedFor(fs, output, rev) && StepSafe(step, models, output, rev)
    requires forall i :: 0 <= i < |entries| ==> Within(models, entries[i]) && (entries[i] in fs.files || entries[i] in fs.dirs)
    ensures var r := Walk(fs, entries, step);
      r.error.Some? ==> ModelError(r.error.value)
    decreases |entries|
  {
    if |entries| > 0 {
      var child := entries[0];
      if child in fs.files {
        WalkErrors(fs, models, entries[1..], step, output, rev);
      } else {
        var o := step(fs, child);
        if o.error.None? {
          WalkErrors(o.fs, models, entries[1..], step, output, rev);
        }
      }
    }
  }

  /** One model of a prepared run fails only for want of a clean name or a
      unique cover image. */
  lemma VisitErrors(fs: Fs, models: Path, child: Path, output: Path, rev: map<string, string>)
    requires Valid(fs) && Disjoint(models, output) && PreparedFor(fs, output, rev)
    requires Within(models, child) && child in fs.dirs
    ensures var o := Visit(fs, child, output, rev);
      o.error.Some? ==> ModelError(o.error.value)
  {
    var folder := FlattenSameName(fs, child);
    var c := CategoryOf(rev, Name(folder));
    WithinTransitive(models, child, folder);
    DisjointCategory(models, output, folder, c);
    SingleModelErrors(fs, folder, output + [c]);
  }

  /** The step of `process_models` is safe when the output folder lies
      outside the models root. */
  lemma ModelStepSafe(models: Path, output: Path, rev: map<string, string>)
    requires Disjoint(models, output)
    ensures StepSafe(ModelStep(output, rev), models, output, rev)
  {
    forall f: Fs, c: Path | Valid(f) && PreparedFor(f, output, rev) && Within(models, c) && c in f.dirs
      ensures var o := ModelStep(output, rev)(f, c);
        && Valid(o.fs) && f.dirs <= o.fs.dirs && f.files.Keys <= o.fs.files.Keys
        && (o.error.Some? ==> ModelError(o.error.value))
    {
      VisitWrites(f, c, output, rev);
      VisitErrors(f, models, c, output, rev);
    }
  }

  /** The loop over the models root keeps the listing valid and writes
      nothing outside the output folder. */
  lemma RunPreparedWrites(fs: Fs, models: Path, output: Path, rev: map<string, string>)
    requires Valid(fs)
    ensures var r := RunPrepared(fs, models, output, rev);
      Valid(r.fs) && WritesWithin(fs, r.fs, output)
  {
    WritesWithinRefl(fs, output);
    if IsDir(fs, models) {
      ModelStepWrites(output, rev);
      WalkWrites(fs, Enumerate(fs, Children(fs, models)), ModelStep(output, rev), output);
    }
  }

  /** With a valid configuration, the run is the loop over the models
      root after `prepare_folders`. */
  lemma ConfiguredRun(fs: Fs, models: Path, output: Path, details: Option<Details>)
    requires ReverseDict(NormalizeDetails(details)).Ok?
    ensures var d := NormalizeDetails(details);
      ProcessModels(fs, models, output, details) == RunPrepared(PrepareFolders(fs, output, d), models, output, ReverseDict(d).value)
  {
  }

  /** The whole run keeps the listing valid and writes nothing outside the
      output folder. */
  lemma ProcessModelsWrites(fs: Fs, models: Path, output: Path, details: Option<Details>)
    requires Valid(fs)
    ensures var r := ProcessModels(fs, models, output, details);
      Valid(r.fs) && WritesWithin(fs, r.fs, output)
  {
    if ReverseDict(NormalizeDetails(details)).Ok? {
      ConfiguredWrites(fs, models, output, details);
    } else {
      WritesWithinRefl(fs, output);
    }
  }

  /** The run with a valid configuration keeps to the output folder. */
  lemma ConfiguredWrites(fs: Fs, models: Path, output: Path, details: Option<Details>)
    requires Valid(fs) && ReverseDict(NormalizeDetails(details)).Ok?
    ensures var r := ProcessModels(fs, models, output, details);
      Valid(r.fs) && WritesWithin(fs, r.fs, output)
  {
    var d := NormalizeDetails(details);
    ConfiguredRun(fs, models, output, details);
    var fs1 := PrepareFolders(fs, output, d);
    var rev := ReverseDict(d).value;
    RunPreparedWrites(fs1, models, output, rev);
    WritesWithinTrans(fs, fs1, RunPrepared(fs1, models, output, rev).fs, output);
  }

  /** `prepare_folders` prepares every category the reversed configuration
      can file a model under. */
  lemma PreparedForConfig(fs: Fs, output: Path, d: Details, rev: map<string, string>)
    requires ReverseDict(d) == Ok(rev)
    ensures PreparedFor(PrepareFolders(fs, output, d), output, rev)
  {
    var fs1 := PrepareFolders(fs, output, d);
    forall n | n in rev ensures Prepared(fs1, output + [rev[n]]) {
      ReverseDictValues(d, rev, n);
    }
  }

  /** On prepared category folders outside the models root, the loop stops
      only on a missing root or a model error. */
  lemma RunPreparedErrors(fs: Fs, models: Path, output: Path, rev: map<string, string>)
    requires Valid(fs) && Disjoint(models, output) && PreparedFor(fs, output, rev)
    ensures var r := RunPrepared(fs, models, output, rev);
      r.error.Some? ==> r.error.value == FileNotFound(models) || ModelError(r.error.value)
  {
    if IsDir(fs, models) {
      var entries := Enumerate(fs, Children(fs, models));
      forall i | 0 <= i < |entries| ensures Within(models, entries[i]) && (entries[i] in fs.files || entries[i] in fs.dirs) {
        assert entries[i] in Children(fs, models);
      }
      ModelStepSafe(models, output, rev);
      WalkErrors(fs, models, entries, ModelStep(output, rev), output, rev);
    }
  }

  /** With the output outside the models root, the run raises exactly one
      of: the configuration's `ValueError` (before any write), the missing
      models root (after preparing the folders), or a model without a clean
      name or a unique cover image. */
  lemma ProcessModelsErrors(fs: Fs, models: Path, output: Path, details: Option<Details>)
    requires Valid(fs) && Disjoint(models, output)
    ensures var r := ProcessModels(fs, models, output, details);
      && (r.error.Some? && r.error.value.ValueDuplication? <==> ReverseDict(NormalizeDetails(details)).Err?)
      && (r.error.Some? ==>
            r.error.value.ValueDuplication? || r.error.value == FileNotFound(models) || ModelError(r.error.value))
  {
    var r := ProcessModels(fs, models, output, details);
    if ReverseDict(NormalizeDetails(details)).Ok? {
      ConfiguredErrors(fs, models, output, details);
      if r.error.Some? {
        NotConfigError(r.error.value, models);
      }
    } else {
      ConfigRejected(fs, models, output, details);
    }
  }

  /** A configuration naming a model twice stops the run with its
      `ValueError` before anything is written. */
  lemma ConfigRejected(fs: Fs, models: Path, output: Path, details: Option<Details>)
    requires ReverseDict(NormalizeDetails(details)).Err?
    ensures var r := ProcessModels(fs, models, output, details);
      r.fs == fs && r.error.Some? && r.error.value.ValueDuplication?
  {
  }

  /** The run with a valid configuration stops only on a missing models
      root or a model error. */
  lemma ConfiguredErrors(fs: Fs, models: Path, output: Path, details: Option<Details>)
    requires Valid(fs) && Disjoint(models, output) && ReverseDict(NormalizeDetails(details)).Ok?
    ensures var r := ProcessModels(fs, models, output, details);
      r.error.Some? ==> r.error.value == FileNotFound(models) || ModelError(r.error.value)
  {
    ConfiguredRun(fs, models, output, details);
    PreparedRunErrors(fs, models, output, NormalizeDetails(details));
  }

  /** Neither a missing models root nor a model error is the
      configuration's `ValueError`. */
  lemma NotConfigError(e: Error, models: Path)
    requires e == FileNotFound(models) || ModelError(e)
    ensures !e.ValueDuplication?
  {
  }

  /** The loop after preparing the folders for a configuration whose
      reverse map exists stops only on a missing models root or a model
      error. */
  lemma PreparedRunErrors(fs: Fs, models: Path, output: Path, d: Details)
    requires Valid(fs) && Disjoint(models, output) && ReverseDict(d).Ok?
    ensures var r := RunPrepared(PrepareFolders(fs, output, d), models, output, ReverseDict(d).value);
      r.error.Some? ==> r.error.value == FileNotFound(models) || ModelError(r.error.value)
  {
    var rev := ReverseDict(d).value;
    PreparedForConfig(fs, output, d, rev);
    RunPreparedErrors(PrepareFolders(fs, output, d), models, output, rev);
  }
}

=== FILE: wrappers.dfy ===
/** Failure-compatible result types and the error kinds the two vendor
    connectors raise.  Every Python exception the connectors can raise on
    the paths modelled here is one variant of `Error`. */
module Wrappers {

  datatype Option<+T> = None | Some(value: T)

  /** Either the value an operation returns or the exception it raises. */
  datatype Result<+T> = Ok(value: T) | Err(error: Error) {

    predicate IsFailure() {
      Err?
    }

    function PropagateFailure<U>(): Result<U>
      requires Err?
    {
      Err(error)
    }

    function Extract(): T
      requires Ok?
    {
      value
    }
  }

  datatype Error =
      /** `ImageNotFoundException`: no (main) cover image among the folder's children. */
    | ImageNotFound(folder: seq<string>)
      /** `MultipleImagesFoundException`: more than one candidate cover image. */
    | MultipleImagesFound(folder: seq<string>)
      /** `ModelNameDetectionException`: neither delimiter rule could read the name. */
    | ModelNameDetection(name: string)
      /** `ValueError` from inverting the category dictionary: `item` is listed
          under `existingKey` and again under `key`. */
    | ValueDuplication(item: string, existingKey: string, key: string)
      /** `AttributeError`: `string.capwords` was handed a regular-expression
          match object instead of a string. */
    | MatchNotString(name: string)
      /** `FileNotFoundError`: a directory listing, `mkdir` without `parents`
          or a copy needed a directory or file that does not exist. */
    | FileNotFound(path: seq<string>)
      /** `shutil.SameFileError`: a copy whose source and target are the
          same file. */
    | SameFile(path: seq<string>)
}
